=== FILE: README.md ===
# VI-EKF filter bookkeeping in Dafny

This project models the filter bookkeeping of VI-EKF. VI-EKF is a
visual-inertial extended Kalman filter. Its state has two parts:

- a 17-entry vehicle block: position, velocity, attitude quaternion,
  accelerometer bias, gyro bias and drag coefficient;
- up to NUM_FEATURES feature slots. Each slot holds a bearing quaternion and
  an inverse depth.

The state vector `x` and the covariance `P` are preallocated at full size.
Only the leading `17 + 5·len` entries of `x` are meaningful, and only the
leading `(16 + 3·len)²` block of `P`.

What is modelled:

- **Layout**: the state layout, and the per-block rules of `boxplus` and
  `boxminus`.
- **Slot lifecycle, both generations**:
  - in `src/vi_ekf.cpp`: `init_feature`, `clear_feature`,
    `keep_only_features`;
  - in `src/vi_ekf/vi_ekf_feat.cpp`: `init_feature`, `clear_feature_state`.
- **Depth constraint**: `fix_depth`, together with the three diagnostics
  `NaNsInTheHouse`, `BlowingUp` and `NegativeDepth`.
- **propagate**:
  - the start-up latch;
  - the state step and the covariance step;
  - symmetry of `P`;
  - the sparsity of the Jacobians built by `dynamics`.
- **Measurements and update**:
  - the measurement models `h_pos`, `h_vel`, `h_alt`, `h_att`, `h_acc`,
    `h_qzeta`, `h_depth` and `h_inv_depth`;
  - the early returns and the residuals of `update`.
- **Feature selection**: `choose_keypoints`, plus the pruning, ageing and
  re-seeding in `manage_features`.

Scalars are `Flt`. It has three cases: an exact real, NaN, and a signed
infinity. NaN tests (`v != v`) and the ordered comparisons therefore behave
as IEEE specifies, but there is no rounding. Quaternion algebra is not
interpreted. A `ManifoldOps` value carries the quaternion `boxplus`/`boxminus`,
the bearing `boxplus`/`boxminus` and `from_two_unit_vectors`. Their round-trip
laws appear as an explicit hypothesis, `RoundTrips`, wherever a proof needs
them. The Kalman gain is a parameter: `update`'s matrix inverse is outside
the model.

Modules:

- `Flt`: IEEE-like scalars.
- `Buffers` and `Linalg`: dense vectors and matrices.
- `Layout`: the index enums of `include/vi_ekf.h`.
- `Manifold`: quaternions, bearings and their operators.
- `Camera`: the pinhole ray and projection.
- `Slots`: splicing whole slots in and out of the buffers.
- `Estimator`: the state, and the slot lifecycle of `src/vi_ekf.cpp`.
- `BoxOps`: `boxplus` and `boxminus`.
- `Diagnostics`: the three diagnostics.
- `Dynamics`: the Jacobians, as ordered block writes over zero matrices.
- `Propagation`: `propagate`.
- `Measurements`: the `h_*` models.
- `Update`: `update`.
- `Keypoints`: `choose_keypoints`.
- `FeatEkf`: the feature records and `manage_features`.

## Model

| member | source | states |
|---|---|---|
| Layout.LocateIndexRoundTrip | include/vi_ekf.h:29-37 | Every index of `x` belongs to exactly one place, a vehicle block or a feature slot. Mapping an index to its place and back gives the same index. |
| Layout.BlocksTileVehicleState | include/vi_ekf.h:29-52 | The vehicle blocks sit back to back from 0 to xZ = 17 in `x`, and from 0 to dxZ = 16 in the error state. Error-state offsets equal state offsets up to the attitude block and are one less after it. The input layout is `uA`, then `uG`, up to `uTOTAL`. |
| Layout.SlotsTile | include/vi_ekf.h:29-52 | Slot i occupies 5 entries of `x` and 3 of the error state, starting at `xZ + 5i` and `dxZ + 3i`. Slots follow one another without overlap, and the inverse depth lies inside its own slot. |
| Layout.TagsEnumerate | include/vi_ekf.h:54-65 | The ten measurement types are numbered 0 to 9 in declaration order, and the numbering is a bijection. |
| Slots.DeleteAtKeepsDistinct | src/vi_ekf.cpp:229 | Erasing position i of a duplicate-free id list keeps it duplicate-free. The result holds exactly the other ids. |
| Slots.AppendSlotXAppends | src/vi_ekf.cpp:207-210 | Writing a new slot after n slots appends exactly that slot to the slot list. Everything before it and everything past it is unchanged. |
| Slots.AppendSlotPGrows | src/vi_ekf.cpp:212-216 | The new feature's covariance block is P0_feat, its cross-covariances are zero, and every other entry of P is unchanged. |
| Slots.RemoveSlotXDeletes | src/vi_ekf.cpp:234-239 | Shifting the tail of `x` up over slot i deletes exactly slot i from the slot list. The vehicle block and earlier slots are unchanged. |
| Slots.RemoveSlotPReindexes | src/vi_ekf.cpp:234-240 | After the row and column shifts, every active entry of P is the old entry at the indices that skip slot i's three rows and columns. |
| Slots.AppendThenRemoveRestores | src/vi_ekf.cpp:207-240 | Adding a slot and then removing it restores the active part of `x` and the active block of P. |
| Slots.ZeroInactiveEntries | src/vi_ekf/vi_ekf_feat.cpp:88-91 | Zeroing past the active region keeps every active entry and sets every inactive entry of `x` and P to zero. |
| Estimator.InitialRho | src/vi_ekf.cpp:195-200 | A NaN depth is replaced by twice the minimum depth; the slot stores the reciprocal. |
| Estimator.InitFeature | src/vi_ekf.cpp:180-221 | Corrected definition (Findings rows 1 and 2): the ray uses the F(0,0)/F(1,1) scale. When the filter is full, or the id is already tracked, nothing changes and the result is false. Otherwise the given id is recorded and the counters grow by one. The new slot holds the bearing of the pixel's ray and the initial inverse depth. Earlier state is unchanged and P grows by P0_feat. |
| Estimator.InitFeatureAsWritten | src/vi_ekf.cpp:180-221 | As the code is written: the id passed in is ignored and next_feature_id_ is recorded instead, and the ray uses the fy/fx scale. |
| Estimator.ClearFeature | src/vi_ekf.cpp:224-242 | The id leaves the id list at its local index, and exactly the other ids remain. The slot list loses exactly that slot. The vehicle state and earlier slots stay. P is the old matrix re-indexed around the removed slot. Removing the last slot leaves the buffers untouched. |
| Estimator.ClearFeatureDeletesFeature | src/vi_ekf.cpp:224-242 | Seen as a list of (id, slot) pairs, clear_feature deletes exactly the pair of the cleared id. |
| Estimator.ClearAll | src/vi_ekf.cpp:263-266 | Clearing a duplicate-free list of tracked ids one by one removes that many features and keeps the id counter. |
| Estimator.KeepOnlyFeatures | src/vi_ekf.cpp:245-269 | The surviving ids are exactly the current ids that are listed, in their original order. The (id, slot) pairs are filtered the same way, so each survivor keeps its own slot contents. |
| Estimator.GetDepthsAfterClear | src/vi_ekf.cpp:101-109 | After clear_feature(id), get_depths is the old list with the cleared feature's depth deleted at its local index; the other depths keep their order. |
| Estimator.GetDepthsAfterInit | src/vi_ekf.cpp:101-109 | After a successful init_feature, get_depths is the old list with the reciprocal of the new inverse depth appended. |
| Estimator.GetDepth | src/vi_ekf.cpp:138-142 | The depth of an id is get_depths at the id's local index. |
| Estimator.InitFeatureDepthRoundTrip | src/vi_ekf.cpp:180-221 | After a feature is initialised with a finite non-zero depth d, get_depth of its id returns d. |
| Estimator.FixRho | src/vi_ekf.cpp:623-639 | When AVG_DEPTH lies in [0, 100], a NaN inverse depth becomes AVG_DEPTH and is kept with its variance. A negative one becomes AVG_DEPTH and its variance grows by the squared error. One above 100 becomes AVG_DEPTH and its variance becomes P0_feat(2,2). Anything else is kept. |
| Estimator.FixRhoNaNIsAvgDepth | src/vi_ekf.cpp:623-627 | For any AVG_DEPTH, a NaN inverse depth is replaced first and then goes through the range tests exactly as AVG_DEPTH would. |
| Estimator.FixDepth | src/vi_ekf.cpp:614-642 | Every active inverse depth and its variance are corrected as FixRho says. No other entry of `x` or P, and nothing else in the filter, changes. |
| Estimator.FixRhoInRange | src/vi_ekf.cpp:614-642 | When AVG_DEPTH lies in [0, 100], a corrected inverse depth is never NaN, negative or above 100. |
| Estimator.FixDepthIdempotent | src/vi_ekf.cpp:614-642 | When AVG_DEPTH lies in [0, 100], applying fix_depth twice equals applying it once. |
| BoxOps.Boxplus | src/vi_ekf.cpp:153-164 | The following blocks are added entrywise: position and velocity, the biases and drag (offset by the one-entry shorter attitude error), and each active inverse depth. Attitude moves by the quaternion boxplus, and each active bearing by the bearing boxplus. The inactive tail of the output is untouched. |
| BoxOps.Boxminus | src/vi_ekf.cpp:166-178 | The same blocks are subtracted entrywise. Attitude and bearings use the quaternion and bearing boxminus. The inactive tail is untouched. |
| BoxOps.BoxminusUndoesBoxplus | src/vi_ekf.cpp:153-178 | When the manifold operators satisfy their round-trip laws and the step is finite, boxminus(boxplus(x, dx), x) gives back the active part of dx. |
| BoxOps.BoxplusZeroKeepsVectors | src/vi_ekf.cpp:153-164 | A zero step leaves every vector entry and every inverse depth unchanged. |
| Diagnostics.NaNsInTheHouse | src/vi_ekf/vi_ekf_error.cpp:6-19 | The result is true exactly when some active entry of `x` or of P's active block is NaN. |
| Diagnostics.NaNCheckIgnoresInactive | src/vi_ekf/vi_ekf_error.cpp:8-11 | Two states that agree on the active region get the same NaN verdict. |
| Diagnostics.BlowingUp | src/vi_ekf/vi_ekf_error.cpp:21-27 | The result is true exactly when some entry of the whole `x` or the whole P exceeds 1e6. |
| Diagnostics.BlowUpIsOneSided | src/vi_ekf/vi_ekf_error.cpp:23 | Only values above 1e6 count. Writing a value that is not above 1e6, such as a large negative value or NaN, into a state that is not blowing up leaves it not blowing up. |
| Diagnostics.BlowUpSeesInactive | src/vi_ekf/vi_ekf_error.cpp:23 | Unlike the NaN check, a large value in an inactive entry does count. |
| Diagnostics.NegativeDepth | src/vi_ekf/vi_ekf_error.cpp:29-38 | The result is true exactly when some active inverse depth is negative. |
| Diagnostics.NegativeDepthReadsOnlyRho | src/vi_ekf/vi_ekf_error.cpp:31-35 | The verdict depends only on the active inverse depths. |
| Diagnostics.NoNegativeDepthAfterFix | src/vi_ekf.cpp:614-642 | After fix_depth, with AVG_DEPTH non-negative, NegativeDepth is false. |
| Dynamics.XdotApplies | src/vi_ekf.cpp:326-423 | Each entry of dx_ is the matching entry of the last block write of `dynamics` that covers it, or zero when no write covers it. |
| Dynamics.StateJacobianApplies | src/vi_ekf.cpp:326-423 | Each entry of A_ is the matching entry of the last block write that covers it, or zero when no write covers it. |
| Dynamics.InputJacobianApplies | src/vi_ekf.cpp:326-423 | Each entry of G_ is the matching entry of the last block write that covers it, or zero when no write covers it. |
| Dynamics.JacobianZeroUnlessWritten | src/vi_ekf.cpp:326-423 | A coarse footprint: an entry of A is zero when it lies outside the vehicle rectangle (rows before dxB_A, columns before dxZ) and outside every active slot's rows crossed with the VEL, B_G and own-bearing columns. The exact entrywise statement is Dynamics.StateJacobianApplies. |
| Dynamics.BiasRowsStayZero | src/vi_ekf.cpp:326-423 | The bias rows of the derivative, of A and of G are zero, and so is the drag row. |
| Dynamics.SlotsDecoupled | src/vi_ekf.cpp:391-419 | A has no entry linking two different feature slots. |
| Dynamics.InactiveSlotsZero | src/vi_ekf.cpp:391-423 | Rows and columns of inactive slots are zero in the derivative, A and G. |
| Dynamics.AttitudeRate | src/vi_ekf.cpp:335-352 | The attitude rate is the gyro input minus the gyro bias. |
| Dynamics.AttitudeJacobian | src/vi_ekf.cpp:368 | The attitude-by-gyro-bias block of A is minus the identity. |
| Dynamics.AttitudeInput | src/vi_ekf.cpp:375 | The attitude-by-gyro-input block of G is the identity. |
| Dynamics.BiasRate | src/vi_ekf.cpp:328-352 | The bias and drag rates are zero. |
| Dynamics.GyroSpins | src/vi_ekf.cpp:335-352 | The attitude increment of a step is the bias-corrected gyro reading times dt. |
| Propagation.PropagateWith | src/vi_ekf.cpp:271-316 | The first call, with prev_t below 1e-4, latches start_t and prev_t to t and changes nothing else. Later calls keep start_t, set prev_t to t, and keep the feature bookkeeping. |
| Propagation.LatchThenStep | src/vi_ekf.cpp:275-283 | A latching call followed by a second call leaves start_t at the first time and prev_t at the second. |
| Propagation.CovStepKeepsSymmetry | src/vi_ekf.cpp:288 | When P and Qx are symmetric and G and Qu are finite, P + (AP + PAᵀ + G Qu Gᵀ + Qx) dt is symmetric. |
| Propagation.FixDepthKeepsSymmetry | src/vi_ekf.cpp:614-642 | fix_depth touches only diagonal entries, so it keeps P symmetric. |
| Propagation.PropagateKeepsSymmetry | src/vi_ekf.cpp:271-296 | A whole propagate keeps P symmetric under the same hypotheses. |
| Propagation.PropagateIntegratesVectors | src/vi_ekf.cpp:285-291 | After the latch, position and velocity advance by their rate times the elapsed time. |
| Propagation.PropagateKeepsBiases | src/vi_ekf.cpp:285-295 | Propagation never changes the biases or the drag coefficient. |
| Propagation.PropagateTurnsAttitude | src/vi_ekf.cpp:285-291 | After the latch, the attitude moves by the quaternion boxplus of the bias-corrected gyro reading times dt. |
| Measurements.HPos | src/vi_ekf.cpp:543-550 | The prediction is the position, and H selects the position error entries. |
| Measurements.HVel | src/vi_ekf.cpp:552-559 | The prediction is the velocity, and H selects the velocity error entries. |
| Measurements.HAlt | src/vi_ekf.cpp:525-532 | The prediction is minus the z position, and H has -1 at the z error entry and zero elsewhere. |
| Measurements.HAtt | src/vi_ekf.cpp:534-541 | The prediction is the attitude quaternion, and H selects the attitude error entries. |
| Measurements.AccPrediction | src/vi_ekf.cpp:511-523 | Predicted acceleration component i is -mu·v_i + b_a,i. |
| Measurements.AccJacobianEntries | src/vi_ekf.cpp:511-523 | Row i of H has -mu at velocity i, 1 at accelerometer bias i, and -v_i at mu. Every other entry is zero. |
| Measurements.HQzeta | src/vi_ekf.cpp:561-569 | The prediction is slot i's bearing quaternion, and H selects slot i's two bearing error entries. |
| Measurements.HInvDepth | src/vi_ekf.cpp:596-603 | The prediction is slot i's inverse depth, and H selects its error entry. |
| Measurements.HDepth | src/vi_ekf.cpp:586-594 | For a non-zero inverse depth rho, the prediction is 1/rho and H holds -1/rho² at rho's error entry, zero elsewhere. |
| Measurements.PosJacobianExact | src/vi_ekf.cpp:543-550 | The change in h_pos over a boxplus step equals H times the step. |
| Measurements.AltJacobianExact | src/vi_ekf.cpp:525-532 | The change in h_alt over a step equals H times the step. |
| Measurements.AttJacobianExact | src/vi_ekf.cpp:534-541 | Under the round-trip laws, the boxminus of the attitude predictions over a step equals H times the step. |
| Measurements.QzetaJacobianExact | src/vi_ekf.cpp:561-569 | Under the round-trip laws, the bearing boxminus of the h_qzeta predictions equals H times the step. |
| Measurements.InvDepthJacobianExact | src/vi_ekf.cpp:596-603 | The change in h_inv_depth over a step equals H times the step. |
| Measurements.DepthJacobianRemainder | src/vi_ekf.cpp:586-594 | The change in h_depth over a step equals H times the step plus the exact second-order remainder d²/(rho²(rho+d)). |
| Measurements.AccJacobianRemainder | src/vi_ekf.cpp:511-523 | The change in h_acc over a step equals H times the step minus the product of the mu and velocity steps. |
| Update.Residual | src/vi_ekf.cpp:456-469 | The residual has 2 entries for QZETA (bearing boxminus), 3 for ATT (quaternion boxminus), and otherwise as many entries as the measurement. |
| Update.ResidualOfMovedPrediction | src/vi_ekf.cpp:456-469 | Under the round-trip laws, the residual of a prediction moved by d is d, for each of the three residual kinds. |
| Update.Update | src/vi_ekf.cpp:426-509 | Corrected definition (Findings row 1), built on the corrected init_feature. A measurement with a NaN returns true and changes nothing. A FEAT measurement with an untracked non-negative id initialises that id and returns true. Every other call returns false and keeps the feature bookkeeping. |
| Update.InactiveIsFixDepth | src/vi_ekf.cpp:471-488 | An inactive measurement that passes the early returns only applies fix_depth. |
| Update.SecondSightingIsMeasured | src/vi_ekf.cpp:435-441 | The first sighting of a new feature id adds it. The second sighting of the same id is a measurement update that adds nothing. |
| Update.UpdateAsWritten | src/vi_ekf.cpp:426-509 | As the code is written: a new FEAT id records next_feature_id_, not the measurement's id. |
| Update.SecondSightingAsWrittenReinitialises | src/vi_ekf.cpp:435-441 | As the code is written, two sightings of the same new id add two features, and the id is still untracked. |
| Update.VehiclePredictionReadsVehicle | src/vi_ekf.cpp:511-559 | The vehicle measurement models read only the vehicle block of `x`. |
| Update.SlotPredictionReadsSlot | src/vi_ekf.cpp:561-603 | The feature measurement models read only the slot of their id. |
| Camera.ProjectUndoesPixelRay | src/vi_ekf/vi_ekf_feat.cpp:22-26 | Projecting the ray of a pixel, as in h_feat, gives the pixel back, for finite intrinsics. |
| Camera.ProjectIgnoresScale | src/vi_ekf.cpp:580 | Scaling a ray, as normalisation does, does not change its projection. |
| Camera.PixelRayAsWrittenRoundTripIff | src/vi_ekf.cpp:187-191 | The fy/fx ray projects back onto its pixel exactly when fx² = fy² or the pixel is on the centre row. |
| Camera.PixelRayAsWrittenCounterexample | src/vi_ekf.cpp:191 | For the camera with fx = 1, fy = 2 and centre (0, 0), the pixel (0, 1) does not project back onto itself through the as-written ray. |
| Keypoints.SortByResponse | src/vi_ekf/vi_ekf_feat.cpp:466 | The result is in descending order of response and is a permutation of the input. |
| Keypoints.Search | src/vi_ekf/vi_ekf_feat.cpp:506-531 | The scan over the window of cells finds a hit exactly when some kept point in those cells is closer than md2. |
| Keypoints.GridPass | src/vi_ekf/vi_ekf_feat.cpp:469-541 | The grid scan keeps exactly the points chosen by the reference greedy definition: keep a point when no earlier kept point in a neighbouring cell is within md2. |
| Keypoints.ChooseKeypoints | src/vi_ekf/vi_ekf_feat.cpp:459-553 | The result is the greedy survivors of the response-sorted keypoints, truncated to num_new_points. It is at most that long, is a sub-multiset of the input, and is in descending response order. |
| Keypoints.StrongestIsKept | src/vi_ekf/vi_ekf_feat.cpp:466-541 | When a point is asked for, the strongest keypoint is always chosen, first. |
| Keypoints.SmallRadiusKeepsPrefix | src/vi_ekf/vi_ekf_feat.cpp:543-552 | With a radius below 1, the result is the first num_new_points sorted keypoints. |
| Keypoints.SurvivorsAreSpaced | src/vi_ekf/vi_ekf_feat.cpp:469-541 | With md2 = radius², any two survivors are at least one cell size apart. |
| Keypoints.ChooseKeypointsAsWritten | src/vi_ekf/vi_ekf_feat.cpp:478 | As the code is written, md2 is the square of the radius of the first call with feature_detect_radius_ >= 1; calls with a smaller radius before it leave md2 unset. |
| Keypoints.StaticMd2Counterexample | src/vi_ekf/vi_ekf_feat.cpp:478 | With md2 fixed by an earlier call of radius 1 and a current radius of 10, two keypoints 2 pixels apart both survive. |
| Keypoints.CurrentMd2KeepsOne | src/vi_ekf/vi_ekf_feat.cpp:478 | With md2 from the current radius, only the stronger of those two survives. |
| FeatEkf.NumNewFeatures | src/vi_ekf/vi_ekf_feat.cpp:396 | The number of new features wanted is never negative, and it is zero exactly when the filter is full. |
| FeatEkf.InitFeaturePixel | src/vi_ekf/vi_ekf_feat.cpp:15-62 | A full filter refuses and changes nothing. Otherwise one record is appended with the pixel, the quality, zero frames and global id next_feature_id_, together with a slot holding the bearing of the pixel's ray (fx/fy scale) and the initial inverse depth. Earlier state stays and P grows by P0_feat. |
| FeatEkf.ClearFeatureState | src/vi_ekf/vi_ekf_feat.cpp:70-94 | The record and slot of the id are deleted at its local index, and the others keep their order and contents. The vehicle state and the id counter are unchanged. |
| FeatEkf.ClearFeatureStateAgrees | src/vi_ekf/vi_ekf_feat.cpp:70-94 | On the active region, clear_feature_state agrees with the older clear_feature: same ids, same active `x`, same active block of P. |
| FeatEkf.ClearFeatureStateZeroesTail | src/vi_ekf/vi_ekf_feat.cpp:88-91 | After clearing, every entry of `x` past the active slots, and every P entry outside the active block, is zero. |
| FeatEkf.InitThenClearRestores | src/vi_ekf/vi_ekf_feat.cpp:15-94 | Initialising a feature and then clearing its global id restores the record list and the (record, slot) pairs. |
| FeatEkf.InitThenClearRestoresBuffers | src/vi_ekf/vi_ekf_feat.cpp:15-94 | Initialising and then clearing restores the active part of `x` and the active block of P. |
| FeatEkf.PruneFrom | src/vi_ekf/vi_ekf_feat.cpp:346-382 | The pruning walk keeps the filter well formed and keeps the id counter and the vehicle state. Its records are the list-level walk over the records, a subsequence of the original, and each kept record keeps its own slot. |
| FeatEkf.Prune | src/vi_ekf/vi_ekf_feat.cpp:346-382 | The same facts for the whole walk started at the first record. |
| FeatEkf.PruneSpaces | src/vi_ekf/vi_ekf_feat.cpp:346-382 | After pruning, no two remaining features are closer than feature_min_radius_. |
| FeatEkf.StrongestSurvives | src/vi_ekf/vi_ekf_feat.cpp:362-371 | A feature whose quality is strictly above every other feature's is never pruned. |
| FeatEkf.ClosePairKeepsBetter | src/vi_ekf/vi_ekf_feat.cpp:362-371 | Of two features closer than the radius, the one with lower quality goes. On a tie the first one stays. |
| FeatEkf.FarPairKeepsBoth | src/vi_ekf/vi_ekf_feat.cpp:360-376 | Two features at least the radius apart are both kept. |
| FeatEkf.Tick | src/vi_ekf/vi_ekf_feat.cpp:385-393 | The frame count goes up by one, and pixel and id stay. The quality changes only on a frame that is a multiple of patch_refresh_. |
| FeatEkf.ManageFeatures | src/vi_ekf/vi_ekf_feat.cpp:344-396 | After pruning and ageing, no two features are closer than the radius. The survivors' ids are a subsequence of the old ids, and each survivor is one tick of an original feature. The requested count is the room left, at least as much as before. |
| FeatEkf.AddPixel | src/vi_ekf/vi_ekf_feat.cpp:15-62 | init_feature with NaN depth appends one record, numbered next_feature_id_, when there is room, and otherwise changes nothing. |
| FeatEkf.Seed | src/vi_ekf/vi_ekf_feat.cpp:396-421 | Seeding with the chosen pixels adds exactly min(#pixels, NUM_FEATURES - len) features. They come in pixel order, numbered consecutively from next_feature_id_, with zero frames. The existing records and active state stay. |

## Left out

- Quaternion algebra is not interpreted. `boxplus`, `boxminus`, `from_two_unit_vectors`, `rot` and `invrot` are uninterpreted operators. Their round-trip laws are hypotheses, not theorems. Gravity enters only through `gravity_B = q.invrot(gravity)` inside the uninterpreted velocity blocks, so its value is not part of the model.
- Estimator.InitFeature: the corrected definition also refuses an id that is already tracked, which src/vi_ekf.cpp:183-184 does not (it refuses only a full filter). The guard keeps the id list distinct; `update` never reaches it, because it calls init_feature only for untracked ids.
- The nonlinear Jacobian entries of `dynamics` are left out: the rotation, skew and T_zeta blocks at src/vi_ekf.cpp:347-351, 355-367 and 398-422. Their values are opaque functions; only where each block lands is modelled.
- `h_feat` (src/vi_ekf.cpp:571-584) and `get_feat` are left out. Only their pinhole projection appears, as `Camera.Project`.
- `h_pixel_vel` (src/vi_ekf.cpp:605-612) is a stub in the source. Its prediction is a parameter.
- The Kalman gain and its matrix inverse (src/vi_ekf.cpp:475) are a parameter. The partial-update weights are a parameter too.
- Image processing is left out: `iterated_feature_update`, `image_update`, `sample_pixels`, `patch_error`, `multiLvlPatch` and the feature detector. `calculate_quality` enters as a function parameter.
- Logging and timing are left out: `now()`, the `log_` updates, `init_logger`, and the `NAN_CHECK`/`NEGATIVE_DEPTH` prints. The diagnostics they call are modelled.
- The Python data loaders and tests are left out.
- The header API declarations that belong to another generation of the class are left out.
- Floating-point rounding and negative zero are not modelled. `Flt` is exact apart from NaN and the infinities.
- `std::sort` is not stable, so its order among keypoints with equal response is unspecified. The model fixes one order, which is descending by response.
- NUM_FEATURES and AVG_DEPTH are macros whose definitions are not part of this model, so they are parameters of `Estimator.Config`.
- `init` (src/vi_ekf.cpp:19-64) is left out, because it only copies its arguments into the filter. The model takes the fields it sets as parameters of `Estimator.Config`. These are P0_feat_ (line 37), the camera centre and focal lengths (lines 51-53), and min_depth_ (line 58). P0_feat_ is built with `asDiagonal()`, so the model keeps only its diagonal, as `Estimator.P0FeatMatrix`.
- `global_to_local_feature_id` is not part of this model. It is taken to return the first position of the id in `current_feature_ids_`, and it is called only for tracked ids.
- FeatEkf.Tick: `frames` is an unbounded natural number. Its declared width is not shown, so unsigned wrap-around is not modelled.
- FeatEkf.PruneFrom: the closeness test `norm() < r` is written as r > 0 and squared distance < r². These agree for real numbers.
- FeatEkf.PruneFrom: `manage_features` erases through `clear_feature_state` while holding list iterators. The model uses positions instead. After an erase, the element now at the same position is examined next. Erasing `it1` restarts the inner scan from the front, as `hold_it1` does.
- FeatEkf.ManageFeatures: the re-seeding step is modelled separately, as `FeatEkf.Seed`, with the chosen pixels as input. The detector that produces them is image processing.
- Propagation.PropagateKeepsSymmetry: symmetry needs G and Qu to be finite. With NaN or infinity, the two off-diagonal sums need not match in IEEE arithmetic either.

## Findings

| source | as written | input that shows it | evidently intended | confidence | as-written member | corrected member |
|---|---|---|---|---|---|---|
| src/vi_ekf.cpp:203-204 | `init_feature(l, id, depth)` records `next_feature_id_` and ignores `id`, so `update` never finds the measurement's id in `current_feature_ids_` | a FEAT measurement with id 7 when next_feature_id_ is 0: both sightings initialise a new feature and id 7 is never tracked | record the caller's `id`, so the second sighting is a measurement update | not executed | Update.SecondSightingAsWrittenReinitialises | Update.SecondSightingIsMeasured |
| src/vi_ekf.cpp:191 | the vertical offset is scaled by F(1,1)/F(0,0), the inverse of the pinhole model used by `h_feat` and by the newer `init_feature` | fx = 1, fy = 2, centre (0,0), pixel (0,1): the ray projects to (0,4), not (0,1) | scale by F(0,0)/F(1,1), so that projecting the ray gives back the pixel | not executed | Camera.PixelRayAsWrittenCounterexample | Camera.ProjectUndoesPixelRay |
| src/vi_ekf/vi_ekf_feat.cpp:478 | `static double md2` is initialised once, from the `feature_detect_radius_` of the first call with feature_detect_radius_ >= 1 | first radius 1, current radius 10, keypoints (0.5,0.5) and (2.5,0.5): both are kept although they lie 2 pixels apart | compute md2 from the current radius on every call | not executed | Keypoints.StaticMd2Counterexample | Keypoints.CurrentMd2KeepsOne |

=== FILE: boxops.dfy ===
/**
  boxplus and boxminus of src/vi_ekf.cpp: x (+) dx and x1 (-) x2. The vector
  blocks (POS, VEL, B_A, B_G, MU, every active rho) are exact entrywise sums
  and differences; the attitude and bearing blocks go through the manifold
  operators. Only the active region of the output buffer is written.
 */
module BoxOps {
  import opened Flt
  import opened Buffers
  import opened Layout
  import opened Manifold

  /** The attitude quaternion x[6..10). */
  function AttQuat(x: seq<Flt>): Quat
    requires xZ <= |x|
  {
    QuatOf(x[xATT..xATT + 4])
  }

  /** The attitude tangent dx[6..9). */
  function AttDelta(dx: seq<Flt>): Vec3
    requires dxZ <= |dx|
  {
    Vec3Of(dx[dxATT..dxATT + 3])
  }

  /** The bearing quaternion of slot i, x[17+5i .. 17+5i+4). */
  function SlotQuat(x: seq<Flt>, i: nat): Quat
    requires XMax(i + 1) <= |x|
  {
    QuatOf(x[XZeta(i)..XZeta(i) + 4])
  }

  /** The bearing tangent of slot i, dx[16+3i .. 16+3i+2). */
  function SlotDelta(dx: seq<Flt>, i: nat): Vec2
    requires DxMax(i + 1) <= |dx|
  {
    Vec2Of(dx[DxZeta(i)..DxZeta(i) + 2])
  }

  /** The slot that state entry k >= xZ falls in. */
  function SlotIndex(k: nat): (j: nat)
    requires xZ <= k
    ensures XZeta(j) <= k < XZeta(j) + 5
  {
    (k - xZ) / 5
  }

  /** The slot that error-state entry m >= dxZ falls in. */
  function DeltaSlotIndex(m: nat): (j: nat)
    requires dxZ <= m
    ensures DxZeta(j) <= m < DxZeta(j) + 3
  {
    (m - dxZ) / 3
  }

  /** Entrywise a[at + j] + b[bs + j] for j < len. */
  function AddBlock(a: seq<Flt>, b: seq<Flt>, at: nat, bs: nat, len: nat): (r: seq<Flt>)
    requires at + len <= |a| && bs + len <= |b|
    ensures |r| == len
  {
    seq(len, j requires 0 <= j < len => Add(a[at + j], b[bs + j]))
  }

  /** Entrywise a[at + j] - b[at + j] for j < len. */
  function SubBlock(a: seq<Flt>, b: seq<Flt>, at: nat, len: nat): (r: seq<Flt>)
    requires at + len <= |a| && at + len <= |b|
    ensures |r| == len
  {
    seq(len, j requires 0 <= j < len => Sub(a[at + j], b[at + j]))
  }

  // ---------------------------------------------------------------------------
  // boxplus

  /**
    Entry k of `boxplus(x, dx, out)` with n active features: the block that k
    falls in decides how it is formed, and entries past the active region
    keep the value out has.
   */
  function BoxplusAt(ops: ManifoldOps, x: seq<Flt>, dx: seq<Flt>, n: nat, out: seq<Flt>, k: nat): Flt
    requires XMax(n) <= |x| == |out| && DxMax(n) <= |dx| && k < |out|
  {
    if k < xATT then Add(x[k], dx[k])
    else if k < xB_A then ops.qPlus(AttQuat(x), AttDelta(dx)).Elements()[k - xATT]
    else if k < xZ then Add(x[k], dx[k - 1])
    else if k < XMax(n) then
      var j := SlotIndex(k);
      if k < XRho(j) then ops.featPlus(SlotQuat(x, j), SlotDelta(dx, j)).Elements()[k - XZeta(j)]
      else Add(x[XRho(j)], dx[DxRho(j)])
    else out[k]
  }

  /** Entries k, k + 1, ... of `boxplus(x, dx, out)`, built one at a time. */
  function BoxplusFrom(ops: ManifoldOps, x: seq<Flt>, dx: seq<Flt>, n: nat, out: seq<Flt>, k: nat): (r: seq<Flt>)
    requires XMax(n) <= |x| == |out| && DxMax(n) <= |dx| && k <= |out|
    ensures |r| == |out| - k
    ensures forall j :: k <= j < |out| ==> r[j - k] == BoxplusAt(ops, x, dx, n, out, j)
    decreases |out| - k
  {
    if k == |out| then [] else [BoxplusAt(ops, x, dx, n, out, k)] + BoxplusFrom(ops, x, dx, n, out, k + 1)
  }

  /** Entry XZeta(j) + off lies in slot j. */
  lemma SlotOfEntry(j: nat, off: nat)
    requires off < 5
    ensures SlotIndex(XZeta(j) + off) == j
  {
  }

  /** Entry off of the bearing block of active slot j is entry off of featPlus of that slot. */
  lemma BoxplusBearingEntry(ops: ManifoldOps, x: seq<Flt>, dx: seq<Flt>, n: nat, out: seq<Flt>, j: nat, off: nat)
    requires XMax(n) <= |x| == |out| && DxMax(n) <= |dx| && j < n && off < 4
    ensures BoxplusAt(ops, x, dx, n, out, XZeta(j) + off) == ops.featPlus(SlotQuat(x, j), SlotDelta(dx, j)).Elements()[off]
  {
    SlotOfEntry(j, off);
  }

  /** The rho entry of active slot j is rho plus its step. */
  lemma BoxplusRhoEntry(ops: ManifoldOps, x: seq<Flt>, dx: seq<Flt>, n: nat, out: seq<Flt>, j: nat)
    requires XMax(n) <= |x| == |out| && DxMax(n) <= |dx| && j < n
    ensures BoxplusAt(ops, x, dx, n, out, XRho(j)) == Add(x[XRho(j)], dx[DxRho(j)])
  {
    SlotOfEntry(j, 4);
  }

  /** The bearing block and rho of active slot j of a pointwise boxplus. */
  lemma BoxplusSlotBlock(ops: ManifoldOps, x: seq<Flt>, dx: seq<Flt>, n: nat, out: seq<Flt>, r: seq<Flt>, j: nat)
    requires XMax(n) <= |x| == |out| && DxMax(n) <= |dx| && |r| == |out| && j < n
    requires forall k :: 0 <= k < |out| ==> r[k] == BoxplusAt(ops, x, dx, n, out, k)
    ensures SlotQuat(r, j) == ops.featPlus(SlotQuat(x, j), SlotDelta(dx, j))
    ensures r[XRho(j)] == Add(x[XRho(j)], dx[DxRho(j)])
  {
    var q := ops.featPlus(SlotQuat(x, j), SlotDelta(dx, j));
    forall off | 0 <= off < 4
      ensures r[XZeta(j) + off] == q.Elements()[off]
    {
      BoxplusBearingEntry(ops, x, dx, n, out, j, off);
    }
    assert r[XZeta(j)..XZeta(j) + 4] == q.Elements();
    BoxplusRhoEntry(ops, x, dx, n, out, j);
  }

  /** Every block of a pointwise boxplus, as the entry rule BoxplusAt builds it. */
  lemma BoxplusBlocks(ops: ManifoldOps, x: seq<Flt>, dx: seq<Flt>, n: nat, out: seq<Flt>, r: seq<Flt>)
    requires XMax(n) <= |x| == |out| && DxMax(n) <= |dx| && |r| == |out|
    requires forall k :: 0 <= k < |out| ==> r[k] == BoxplusAt(ops, x, dx, n, out, k)
    ensures forall k :: xPOS <= k < xATT ==> r[k] == Add(x[k], dx[k])
    ensures forall k :: xB_A <= k < xZ ==> r[k] == Add(x[k], dx[k - 1])
    ensures AttQuat(r) == ops.qPlus(AttQuat(x), AttDelta(dx))
    ensures forall j :: 0 <= j < n ==> SlotQuat(r, j) == ops.featPlus(SlotQuat(x, j), SlotDelta(dx, j))
    ensures forall j :: 0 <= j < n ==> r[XRho(j)] == Add(x[XRho(j)], dx[DxRho(j)])
    ensures forall k :: XMax(n) <= k < |out| ==> r[k] == out[k]
  {
    assert r[xATT..xATT + 4] == ops.qPlus(AttQuat(x), AttDelta(dx)).Elements();
    forall j | 0 <= j < n
      ensures SlotQuat(r, j) == ops.featPlus(SlotQuat(x, j), SlotDelta(dx, j))
      ensures r[XRho(j)] == Add(x[XRho(j)], dx[DxRho(j)])
    {
      BoxplusSlotBlock(ops, x, dx, n, out, r, j);
    }
  }

  /**
    `boxplus(x, dx, out)` with n active features: out with its active region
    replaced by x (+) dx.
   */
  function Boxplus(ops: ManifoldOps, x: seq<Flt>, dx: seq<Flt>, n: nat, out: seq<Flt>): (r: seq<Flt>)
    requires XMax(n) <= |x| == |out| && DxMax(n) <= |dx|
    ensures |r| == |out|
    ensures forall k :: xPOS <= k < xATT ==> r[k] == Add(x[k], dx[k])
    ensures forall k :: xB_A <= k < xZ ==> r[k] == Add(x[k], dx[k - 1])
    ensures AttQuat(r) == ops.qPlus(AttQuat(x), AttDelta(dx))
    ensures forall j :: 0 <= j < n ==> SlotQuat(r, j) == ops.featPlus(SlotQuat(x, j), SlotDelta(dx, j))
    ensures forall j :: 0 <= j < n ==> r[XRho(j)] == Add(x[XRho(j)], dx[DxRho(j)])
    ensures forall k :: XMax(n) <= k < |out| ==> r[k] == out[k]
  {
    var r := BoxplusFrom(ops, x, dx, n, out, 0);
    assert forall k :: 0 <= k < |out| ==> r[k] == r[k - 0];
    BoxplusBlocks(ops, x, dx, n, out, r);
    r
  }

  // ---------------------------------------------------------------------------
  // boxminus

  /**
    Entry m of `boxminus(x1, x2, out)` with n active features: the block that
    m falls in decides how it is formed, and entries past the active region
    keep the value out has.
   */
  function BoxminusAt(ops: ManifoldOps, x1: seq<Flt>, x2: seq<Flt>, n: nat, out: seq<Flt>, m: nat): Flt
    requires XMax(n) <= |x1| && XMax(n) <= |x2| && DxMax(n) <= |out| && m < |out|
  {
    if m < dxATT then Sub(x1[m], x2[m])
    else if m < dxB_A then ops.qMinus(AttQuat(x1), AttQuat(x2)).Elements()[m - dxATT]
    else if m < dxZ then Sub(x1[m + 1], x2[m + 1])
    else if m < DxMax(n) then
      var j := DeltaSlotIndex(m);
      if m < DxRho(j) then ops.featMinus(SlotQuat(x1, j), SlotQuat(x2, j)).Elements()[m - DxZeta(j)]
      else Sub(x1[XRho(j)], x2[XRho(j)])
    else out[m]
  }

  /** Entries m, m + 1, ... of `boxminus(x1, x2, out)`, built one at a time. */
  function BoxminusFrom(ops: ManifoldOps, x1: seq<Flt>, x2: seq<Flt>, n: nat, out: seq<Flt>, m: nat): (r: seq<Flt>)
    requires XMax(n) <= |x1| && XMax(n) <= |x2| && DxMax(n) <= |out| && m <= |out|
    ensures |r| == |out| - m
    ensures forall j :: m <= j < |out| ==> r[j - m] == BoxminusAt(ops, x1, x2, n, out, j)
    decreases |out| - m
  {
    if m == |out| then [] else [BoxminusAt(ops, x1, x2, n, out, m)] + BoxminusFrom(ops, x1, x2, n, out, m + 1)
  }

  /** Entry DxZeta(j) + off lies in slot j. */
  lemma SlotOfDeltaEntry(j: nat, off: nat)
    requires off < 3
    ensures DeltaSlotIndex(DxZeta(j) + off) == j
  {
  }

  /** Entry off of the bearing tangent of active slot j is entry off of featMinus of that slot. */
  lemma BoxminusBearingEntry(ops: ManifoldOps, x1: seq<Flt>, x2: seq<Flt>, n: nat, out: seq<Flt>, j: nat, off: nat)
    requires XMax(n) <= |x1| && XMax(n) <= |x2| && DxMax(n) <= |out| && j < n && off < 2
    ensures BoxminusAt(ops, x1, x2, n, out, DxZeta(j) + off) == ops.featMinus(SlotQuat(x1, j), SlotQuat(x2, j)).Elements()[off]
  {
    SlotOfDeltaEntry(j, off);
  }

  /** The rho entry of active slot j is the difference of the two rhos. */
  lemma BoxminusRhoEntry(ops: ManifoldOps, x1: seq<Flt>, x2: seq<Flt>, n: nat, out: seq<Flt>, j: nat)
    requires XMax(n) <= |x1| && XMax(n) <= |x2| && DxMax(n) <= |out| && j < n
    ensures BoxminusAt(ops, x1, x2, n, out, DxRho(j)) == Sub(x1[XRho(j)], x2[XRho(j)])
  {
    SlotOfDeltaEntry(j, 2);
  }

  /** The bearing tangent and rho difference of active slot j of a pointwise boxminus. */
  lemma BoxminusSlotBlock(ops: ManifoldOps, x1: seq<Flt>, x2: seq<Flt>, n: nat, out: seq<Flt>, r: seq<Flt>, j: nat)
    requires XMax(n) <= |x1| && XMax(n) <= |x2| && DxMax(n) <= |out| && |r| == |out| && j < n
    requires forall m :: 0 <= m < |out| ==> r[m] == BoxminusAt(ops, x1, x2, n, out, m)
    ensures SlotDelta(r, j) == ops.featMinus(SlotQuat(x1, j), SlotQuat(x2, j))
    ensures r[DxRho(j)] == Sub(x1[XRho(j)], x2[XRho(j)])
  {
    var d := ops.featMinus(SlotQuat(x1, j), SlotQuat(x2, j));
    forall off | 0 <= off < 2
      ensures r[DxZeta(j) + off] == d.Elements()[off]
    {
      BoxminusBearingEntry(ops, x1, x2, n, out, j, off);
    }
    assert r[DxZeta(j)..DxZeta(j) + 2] == d.Elements();
    BoxminusRhoEntry(ops, x1, x2, n, out, j);
  }

  /** Every block of a pointwise boxminus, as the entry rule BoxminusAt builds it. */
  lemma BoxminusBlocks(ops: ManifoldOps, x1: seq<Flt>, x2: seq<Flt>, n: nat, out: seq<Flt>, r: seq<Flt>)
    requires XMax(n) <= |x1| && XMax(n) <= |x2| && DxMax(n) <= |out| && |r| == |out|
    requires forall m :: 0 <= m < |out| ==> r[m] == BoxminusAt(ops, x1, x2, n, out, m)
    ensures forall k :: xPOS <= k < xATT ==> r[k] == Sub(x1[k], x2[k])
    ensures forall k :: xB_A <= k < xZ ==> r[k - 1] == Sub(x1[k], x2[k])
    ensures AttDelta(r) == ops.qMinus(AttQuat(x1), AttQuat(x2))
    ensures forall j :: 0 <= j < n ==> SlotDelta(r, j) == ops.featMinus(SlotQuat(x1, j), SlotQuat(x2, j))
    ensures forall j :: 0 <= j < n ==> r[DxRho(j)] == Sub(x1[XRho(j)], x2[XRho(j)])
    ensures forall k :: DxMax(n) <= k < |out| ==> r[k] == out[k]
  {
    assert r[dxATT..dxATT + 3] == ops.qMinus(AttQuat(x1), AttQuat(x2)).Elements();
    forall j | 0 <= j < n
      ensures SlotDelta(r, j) == ops.featMinus(SlotQuat(x1, j), SlotQuat(x2, j))
      ensures r[DxRho(j)] == Sub(x1[XRho(j)], x2[XRho(j)])
    {
      BoxminusSlotBlock(ops, x1, x2, n, out, r, j);
    }
  }

  /**
    `boxminus(x1, x2, out)` with n active features: out with its active
    region replaced by x1 (-) x2.
   */
  function Boxminus(ops: ManifoldOps, x1: seq<Flt>, x2: seq<Flt>, n: nat, out: seq<Flt>): (r: seq<Flt>)
    requires XMax(n) <= |x1| && XMax(n) <= |x2| && DxMax(n) <= |out|
    ensures |r| == |out|
    ensures forall k :: xPOS <= k < xATT ==> r[k] == Sub(x1[k], x2[k])
    ensures forall k :: xB_A <= k < xZ ==> r[k - 1] == Sub(x1[k], x2[k])
    ensures AttDelta(r) == ops.qMinus(AttQuat(x1), AttQuat(x2))
    ensures forall j :: 0 <= j < n ==> SlotDelta(r, j) == ops.featMinus(SlotQuat(x1, j), SlotQuat(x2, j))
    ensures forall j :: 0 <= j < n ==> r[DxRho(j)] == Sub(x1[XRho(j)], x2[XRho(j)])
    ensures forall k :: DxMax(n) <= k < |out| ==> r[k] == out[k]
  {
    var r := BoxminusFrom(ops, x1, x2, n, out, 0);
    assert forall m :: 0 <= m < |out| ==> r[m] == r[m - 0];
    BoxminusBlocks(ops, x1, x2, n, out, r);
    r
  }

  // ---------------------------------------------------------------------------
  // Laws

  /** The vector entries of the active region of x are finite. */
  ghost predicate VectorsFinite(x: seq<Flt>, n: nat)
    requires XMax(n) <= |x|
  {
    && (forall k :: 0 <= k < xATT || xB_A <= k < xZ ==> x[k].Num?)
    && (forall j :: 0 <= j < n ==> x[XRho(j)].Num?)
  }

  /** The vector entries of the active region of dx are finite. */
  ghost predicate DeltaFinite(dx: seq<Flt>, n: nat)
    requires DxMax(n) <= |dx|
  {
    && (forall m :: 0 <= m < dxATT || dxB_A <= m < dxZ ==> dx[m].Num?)
    && (forall j :: 0 <= j < n ==> dx[DxRho(j)].Num?)
  }

  /**
    boxminus undoes boxplus on the whole active region of dx, given the
    manifold round-trip laws for the attitude and bearing operators and
    finite vector entries (IEEE has no exact inverse for infinities).
   */
  lemma {:induction false} BoxminusUndoesBoxplus(ops: ManifoldOps, x: seq<Flt>, dx: seq<Flt>, n: nat, out: seq<Flt>, outd: seq<Flt>)
    requires RoundTrips(ops)
    requires XMax(n) <= |x| == |out| && DxMax(n) <= |dx| && DxMax(n) <= |outd|
    requires VectorsFinite(x, n) && DeltaFinite(dx, n)
    ensures Boxminus(ops, Boxplus(ops, x, dx, n, out), x, n, outd)[..DxMax(n)] == dx[..DxMax(n)]
  {
    var r := Boxminus(ops, Boxplus(ops, x, dx, n, out), x, n, outd);
    forall m | 0 <= m < DxMax(n)
      ensures r[m] == dx[m]
    {
      if m < dxZ {
        VehicleRoundTrip(ops, x, dx, n, out, outd, m);
      } else {
        var j := DeltaSlotIndex(m);
        SlotRoundTrip(ops, x, dx, n, out, outd, j, m - DxZeta(j));
      }
    }
  }

  lemma VehicleRoundTrip(ops: ManifoldOps, x: seq<Flt>, dx: seq<Flt>, n: nat, out: seq<Flt>, outd: seq<Flt>, m: nat)
    requires RoundTrips(ops)
    requires XMax(n) <= |x| == |out| && DxMax(n) <= |dx| && DxMax(n) <= |outd|
    requires VectorsFinite(x, n) && DeltaFinite(dx, n)
    requires m < dxZ
    ensures Boxminus(ops, Boxplus(ops, x, dx, n, out), x, n, outd)[m] == dx[m]
  {
    var y := Boxplus(ops, x, dx, n, out);
    var r := Boxminus(ops, y, x, n, outd);
    if m < dxATT {
      AddSubCancel(x[m], dx[m]);
    } else if m < dxB_A {
      assert AttDelta(r) == AttDelta(dx);
      assert AttDelta(r).Elements() == AttDelta(dx).Elements();
      assert r[m] == r[dxATT..dxATT + 3][m - dxATT];
    } else {
      AddSubCancel(x[m + 1], dx[m]);
    }
  }

  lemma SlotRoundTrip(ops: ManifoldOps, x: seq<Flt>, dx: seq<Flt>, n: nat, out: seq<Flt>, outd: seq<Flt>, j: nat, off: nat)
    requires RoundTrips(ops)
    requires XMax(n) <= |x| == |out| && DxMax(n) <= |dx| && DxMax(n) <= |outd|
    requires VectorsFinite(x, n) && DeltaFinite(dx, n)
    requires j < n && off < 3
    ensures Boxminus(ops, Boxplus(ops, x, dx, n, out), x, n, outd)[DxZeta(j) + off] == dx[DxZeta(j) + off]
  {
    var y := Boxplus(ops, x, dx, n, out);
    var r := Boxminus(ops, y, x, n, outd);
    if off == 2 {
      AddSubCancel(x[XRho(j)], dx[DxRho(j)]);
    } else {
      assert SlotDelta(r, j) == SlotDelta(dx, j);
      assert SlotDelta(r, j).Elements() == SlotDelta(dx, j).Elements();
      assert r[DxZeta(j) + off] == r[DxZeta(j)..DxZeta(j) + 2][off];
    }
  }

  /** boxplus by a dx whose vector entries are zero leaves every vector entry of x as it is. */
  lemma BoxplusZeroKeepsVectors(ops: ManifoldOps, x: seq<Flt>, dx: seq<Flt>, n: nat, out: seq<Flt>)
    requires XMax(n) <= |x| == |out| && DxMax(n) <= |dx|
    requires forall m :: 0 <= m < dxATT || dxB_A <= m < dxZ ==> dx[m] == Zero
    requires forall j :: 0 <= j < n ==> dx[DxRho(j)] == Zero
    ensures var r := Boxplus(ops, x, dx, n, out);
            && (forall k :: 0 <= k < xATT || xB_A <= k < xZ ==> r[k] == x[k])
            && (forall j :: 0 <= j < n ==> r[XRho(j)] == x[XRho(j)])
  {
    forall k | 0 <= k < |x| {
      AddZero(x[k]);
    }
  }
}

=== FILE: buffers.dfy ===
/**
  Fixed-length buffers and square matrices, with the block operations the
  estimator performs on them in place: overwrite a range, shift a tail up,
  zero a tail, overwrite a rectangular block. Every operation keeps the
  buffer's length, as writes into a preallocated Eigen buffer do.
 */
module Buffers {

  /** A square n-by-n matrix stored as a sequence of rows. */
  ghost predicate IsSquare<T>(m: seq<seq<T>>, n: nat)
  {
    |m| == n && forall r :: 0 <= r < n ==> |m[r]| == n
  }

  /** A matrix with `rows` rows of `cols` entries each. */
  ghost predicate IsMatrix<T>(m: seq<seq<T>>, rows: nat, cols: nat)
  {
    |m| == rows && forall r :: 0 <= r < rows ==> |m[r]| == cols
  }

  function Fill<T>(n: nat, v: T): (r: seq<T>)
    ensures |r| == n
    ensures forall i :: 0 <= i < n ==> r[i] == v
  {
    seq(n, _ => v)
  }

  function FillMatrix<T>(rows: nat, cols: nat, v: T): (m: seq<seq<T>>)
    ensures IsMatrix(m, rows, cols)
    ensures forall r, c :: 0 <= r < rows && 0 <= c < cols ==> m[r][c] == v
  {
    seq(rows, _ => Fill(cols, v))
  }

  /** Overwrites `s[at..at+|w|)` with `w`. */
  function WriteRange<T>(s: seq<T>, at: nat, w: seq<T>): (r: seq<T>)
    requires at + |w| <= |s|
    ensures |r| == |s|
    ensures forall i :: 0 <= i < at ==> r[i] == s[i]
    ensures forall i :: 0 <= i < |w| ==> r[at + i] == w[i]
    ensures forall i :: at + |w| <= i < |s| ==> r[i] == s[i]
  {
    s[..at] + w + s[at + |w|..]
  }

  /**
    `s.block(at, 0, |s|-(at+k), 1) = s.bottomRows(|s|-(at+k))`: everything
    from `at + k` on moves up by `k`; the last `k` entries keep their old
    values.
   */
  function ShiftDown<T>(s: seq<T>, at: nat, k: nat): (r: seq<T>)
    requires at + k <= |s|
    ensures |r| == |s|
    ensures forall i :: 0 <= i < at ==> r[i] == s[i]
    ensures forall i :: at <= i < |s| - k ==> r[i] == s[i + k]
    ensures forall i :: |s| - k <= i < |s| ==> r[i] == s[i]
  {
    s[..at] + s[at + k..] + s[|s| - k..]
  }

  /** `s.bottomRows(|s| - from).setZero()`. */
  function ZeroFrom<T>(s: seq<T>, from: nat, z: T): (r: seq<T>)
    requires from <= |s|
    ensures |r| == |s|
    ensures forall i :: 0 <= i < from ==> r[i] == s[i]
    ensures forall i :: from <= i < |s| ==> r[i] == z
  {
    s[..from] + Fill(|s| - from, z)
  }

  /** Row shift of a matrix: rows from `at + k` on move up by `k`. */
  function ShiftRowsUp<T>(m: seq<seq<T>>, at: nat, k: nat): (r: seq<seq<T>>)
    requires at + k <= |m|
    ensures |r| == |m|
    ensures forall i :: 0 <= i < at ==> r[i] == m[i]
    ensures forall i :: at <= i < |m| - k ==> r[i] == m[i + k]
    ensures forall i :: |m| - k <= i < |m| ==> r[i] == m[i]
  {
    ShiftDown(m, at, k)
  }

  /** Column shift of a matrix: in every row, columns from `at + k` on move left by `k`. */
  function ShiftColsLeft<T>(m: seq<seq<T>>, at: nat, k: nat, n: nat): (r: seq<seq<T>>)
    requires IsMatrix(m, |m|, n) && at + k <= n
    ensures IsMatrix(r, |m|, n)
    ensures forall i, j :: 0 <= i < |m| && 0 <= j < at ==> r[i][j] == m[i][j]
    ensures forall i, j :: 0 <= i < |m| && at <= j < n - k ==> r[i][j] == m[i][j + k]
    ensures forall i, j :: 0 <= i < |m| && n - k <= j < n ==> r[i][j] == m[i][j]
  {
    seq(|m|, i requires 0 <= i < |m| => ShiftDown(m[i], at, k))
  }

  /** Zeroes every row from `from` on. */
  function ZeroRowsFrom<T>(m: seq<seq<T>>, from: nat, n: nat, z: T): (r: seq<seq<T>>)
    requires IsMatrix(m, |m|, n) && from <= |m|
    ensures IsMatrix(r, |m|, n)
    ensures forall i :: 0 <= i < from ==> r[i] == m[i]
    ensures forall i, j :: from <= i < |m| && 0 <= j < n ==> r[i][j] == z
  {
    m[..from] + FillMatrix(|m| - from, n, z)
  }

  /** Zeroes every column from `from` on. */
  function ZeroColsFrom<T>(m: seq<seq<T>>, from: nat, n: nat, z: T): (r: seq<seq<T>>)
    requires IsMatrix(m, |m|, n) && from <= n
    ensures IsMatrix(r, |m|, n)
    ensures forall i, j :: 0 <= i < |m| && 0 <= j < from ==> r[i][j] == m[i][j]
    ensures forall i, j :: 0 <= i < |m| && from <= j < n ==> r[i][j] == z
  {
    seq(|m|, i requires 0 <= i < |m| => ZeroFrom(m[i], from, z))
  }

  /** `m.block(r0, c0, rows, cols) = b`. */
  function WriteBlock<T>(m: seq<seq<T>>, n: nat, r0: nat, c0: nat, b: seq<seq<T>>, cols: nat): (r: seq<seq<T>>)
    requires IsMatrix(m, |m|, n) && IsMatrix(b, |b|, cols)
    requires r0 + |b| <= |m| && c0 + cols <= n
    ensures IsMatrix(r, |m|, n)
    ensures forall i, j :: 0 <= i < |m| && 0 <= j < n ==>
              r[i][j] == if r0 <= i < r0 + |b| && c0 <= j < c0 + cols then b[i - r0][j - c0] else m[i][j]
  {
    seq(|m|, i requires 0 <= i < |m| =>
      seq(n, j requires 0 <= j < n =>
        if r0 <= i < r0 + |b| && c0 <= j < c0 + cols then b[i - r0][j - c0] else m[i][j]))
  }

  /** `m(i, j) = v`. */
  function SetEntry<T>(m: seq<seq<T>>, n: nat, i: nat, j: nat, v: T): (r: seq<seq<T>>)
    requires IsMatrix(m, |m|, n) && i < |m| && j < n
    ensures IsMatrix(r, |m|, n)
    ensures r[i][j] == v
    ensures forall a, b :: 0 <= a < |m| && 0 <= b < n && (a, b) != (i, j) ==> r[a][b] == m[a][b]
  {
    m[i := m[i][j := v]]
  }

  /** The diagonal-square leading block `m.topLeftCorner(k, k)`. */
  function TopLeft<T>(m: seq<seq<T>>, n: nat, k: nat): (r: seq<seq<T>>)
    requires IsMatrix(m, |m|, n) && k <= |m| && k <= n
    ensures IsSquare(r, k)
    ensures forall i, j :: 0 <= i < k && 0 <= j < k ==> r[i][j] == m[i][j]
  {
    seq(k, i requires 0 <= i < k => m[i][..k])
  }

  ghost predicate Symmetric<T>(m: seq<seq<T>>)
  {
    forall i, j :: 0 <= i < |m| && 0 <= j < |m| && j < |m[i]| && i < |m[j]| ==> m[i][j] == m[j][i]
  }
}

=== FILE: camera.dfy ===
/**
  The pinhole camera used to place a new feature: the inverse projection from
  a pixel to a bearing ray (the first step of init_feature) and the forward
  projection from a bearing to a pixel (the measurement h_feat predicts).
 */
module Camera {
  import opened Flt
  import opened Manifold

  /** `cam_center_` and the diagonal of `cam_F_`: focal lengths fx = F(0,0), fy = F(1,1). */
  datatype Intrinsics = Intrinsics(center: Vec2, fx: Flt, fy: Flt)

  ghost predicate Finite(k: Intrinsics)
  {
    k.center.a.Num? && k.center.b.Num? && k.fx.Num? && k.fy.Num? && k.fx.v != 0.0 && k.fy.v != 0.0
  }

  /**
    The ray of the filter generation in src/vi_ekf.cpp: the vertical pixel
    offset is scaled by fy/fx.
   */
  function PixelRayAsWritten(k: Intrinsics, l: Vec2): Vec3
  {
    Vec3(Sub(l.a, k.center.a), Mul(Sub(l.b, k.center.b), Div(k.fy, k.fx)), k.fx)
  }

  /**
    The ray of the filter generation in src/vi_ekf/vi_ekf_feat.cpp: the
    vertical pixel offset is scaled by fx/fy, which is the inverse of the
    pinhole projection.
   */
  function PixelRay(k: Intrinsics, l: Vec2): Vec3
  {
    Vec3(Sub(l.a, k.center.a), Mul(Sub(l.b, k.center.b), Div(k.fx, k.fy)), k.fx)
  }

  /** `cam_F_ * zeta / zeta_z + cam_center_`: the pixel a bearing projects to. */
  function Project(k: Intrinsics, z: Vec3): Vec2
  {
    Vec2(Add(Div(Mul(k.fx, z.a), z.c), k.center.a), Add(Div(Mul(k.fy, z.b), z.c), k.center.b))
  }

  function ScaleVec3(z: Vec3, s: Flt): Vec3
  {
    Vec3(Mul(z.a, s), Mul(z.b, s), Mul(z.c, s))
  }

  /** The projection of a finite ray with non-zero depth, in real arithmetic. */
  lemma ProjectFinite(k: Intrinsics, z: Vec3)
    requires Finite(k) && z.a.Num? && z.b.Num? && z.c.Num? && z.c.v != 0.0
    ensures Project(k, z) == Vec2(Num((k.fx.v * z.a.v) / z.c.v + k.center.a.v), Num((k.fy.v * z.b.v) / z.c.v + k.center.b.v))
  {
  }

  lemma RayFinite(k: Intrinsics, l: Vec2)
    requires Finite(k) && l.a.Num? && l.b.Num?
    ensures PixelRay(k, l) == Vec3(Num(l.a.v - k.center.a.v), Num((l.b.v - k.center.b.v) * (k.fx.v / k.fy.v)), k.fx)
    ensures PixelRayAsWritten(k, l) == Vec3(Num(l.a.v - k.center.a.v), Num((l.b.v - k.center.b.v) * (k.fy.v / k.fx.v)), k.fx)
  {
  }

  lemma QuotientScale(a: real, b: real, s: real, c: real)
    requires c != 0.0 && s != 0.0
    ensures (a * (b * s)) / (c * s) == (a * b) / c
  {
    assert (a * (b * s)) / (c * s) == ((a * b) * s) / (c * s);
  }

  /** The projection ignores the length of the ray, so normalising the ray first changes nothing. */
  lemma ProjectIgnoresScale(k: Intrinsics, z: Vec3, s: real)
    requires Finite(k) && z.a.Num? && z.b.Num? && z.c.Num? && z.c.v != 0.0 && s != 0.0
    ensures Project(k, ScaleVec3(z, Num(s))) == Project(k, z)
  {
    var z' := ScaleVec3(z, Num(s));
    assert z' == Vec3(Num(z.a.v * s), Num(z.b.v * s), Num(z.c.v * s));
    assert z.c.v * s != 0.0;
    ProjectFinite(k, z);
    ProjectFinite(k, z');
    QuotientScale(k.fx.v, z.a.v, s, z.c.v);
    QuotientScale(k.fy.v, z.b.v, s, z.c.v);
  }

  lemma RealUndo(f: real, g: real, u: real, v: real)
    requires f != 0.0 && g != 0.0
    ensures (f * u) / f == u
    ensures (g * (v * (f / g))) / f == v
  {
    assert g * (v * (f / g)) == v * f;
  }

  /** The corrected inverse projection: projecting the ray of a pixel gives the pixel back. */
  lemma ProjectUndoesPixelRay(k: Intrinsics, l: Vec2)
    requires Finite(k) && l.a.Num? && l.b.Num?
    ensures Project(k, PixelRay(k, l)) == l
  {
    RayFinite(k, l);
    ProjectFinite(k, PixelRay(k, l));
    RealUndo(k.fx.v, k.fy.v, l.a.v - k.center.a.v, l.b.v - k.center.b.v);
  }

  lemma RealAsWritten(f: real, g: real, v: real)
    requires f != 0.0 && g != 0.0
    ensures (g * (v * (g / f))) / f == v <==> (f * f == g * g || v == 0.0)
  {
    var w := (g * (v * (g / f))) / f;
    assert w == v * ((g * g) / (f * f));
    assert f * f > 0.0;
    if f * f == g * g {
      assert (g * g) / (f * f) == 1.0;
    }
    if w == v && v != 0.0 {
      assert (g * g) / (f * f) == 1.0;
    }
  }

  /**
    The ray as written round-trips exactly when the focal lengths have equal
    magnitude or the pixel lies on the centre row: otherwise the vertical
    offset comes back scaled by (fy/fx)^2.
   */
  lemma PixelRayAsWrittenRoundTripIff(k: Intrinsics, l: Vec2)
    requires Finite(k) && l.a.Num? && l.b.Num?
    ensures Project(k, PixelRayAsWritten(k, l)) == l <==> (k.fx.v * k.fx.v == k.fy.v * k.fy.v || l.b == k.center.b)
  {
    var f, g, v := k.fx.v, k.fy.v, l.b.v - k.center.b.v;
    var w := (g * (v * (g / f))) / f;
    var pr := Project(k, PixelRayAsWritten(k, l));
    RayFinite(k, l);
    ProjectFinite(k, PixelRayAsWritten(k, l));
    RealUndo(f, g, l.a.v - k.center.a.v, v);
    assert pr.a == l.a;
    assert pr.b == Num(w + k.center.b.v);
    RealAsWritten(f, g, v);
    assert pr == l <==> w == v;
  }

  /** A concrete camera (fx = 1, fy = 2) and pixel on which the ray as written fails to round-trip. */
  lemma PixelRayAsWrittenCounterexample(k: Intrinsics, l: Vec2)
    requires k == Intrinsics(Vec2(Zero, Zero), One, Num(2.0)) && l == Vec2(Zero, One)
    ensures Project(k, PixelRayAsWritten(k, l)) != l
  {
    PixelRayAsWrittenRoundTripIff(k, l);
  }
}

=== FILE: diagnostics.dfy ===
/**
  The health checks of src/vi_ekf/vi_ekf_error.cpp. Each is a loop over the
  buffers with an early exit, proved equal to a declarative predicate. The
  console dumps of NaNsInTheHouse are output only and are not modelled.
 */
module Diagnostics {
  import opened Flt
  import opened Buffers
  import opened Layout
  import opened Estimator

  /** The threshold BlowingUp compares against, 1e6. */
  const BlowUpLimit: Flt := Num(1000000.0)

  /** Some entry of the active part of x or P is NaN. */
  ghost predicate HasNaN(cfg: Config, s: Ekf)
    requires Wf(cfg, s)
  {
    || (exists k :: 0 <= k < XMax(s.len) && s.x[k].IsNaN())
    || (exists a, b :: 0 <= a < DxMax(s.len) && 0 <= b < DxMax(s.len) && s.p[a][b].IsNaN())
  }

  /** Some entry of the whole x or P buffer exceeds 1e6. */
  ghost predicate HasBlowUp(cfg: Config, s: Ekf)
    requires Wf(cfg, s)
  {
    || (exists k :: 0 <= k < |s.x| && Gt(s.x[k], BlowUpLimit))
    || (exists a, b :: 0 <= a < Side(cfg) && 0 <= b < Side(cfg) && Gt(s.p[a][b], BlowUpLimit))
  }

  /** Some active inverse depth is negative. */
  ghost predicate HasNegativeDepth(cfg: Config, s: Ekf)
    requires Wf(cfg, s)
  {
    exists i :: 0 <= i < s.len && Lt(s.x[XRho(i)], Zero)
  }

  /** `NaNsInTheHouse()`: a NaN in the first 17+5N entries of x or the top-left (16+3N)^2 block of P. */
  method NaNsInTheHouse(cfg: Config, s: Ekf) returns (b: bool)
    requires Wf(cfg, s)
    ensures b <==> HasNaN(cfg, s)
  {
    var xm := XMax(s.len);
    var dm := DxMax(s.len);
    var k := 0;
    while k < xm
      invariant 0 <= k <= xm
      invariant forall j :: 0 <= j < k ==> !s.x[j].IsNaN()
    {
      if s.x[k].IsNaN() {
        return true;
      }
      k := k + 1;
    }
    var a := 0;
    while a < dm
      invariant 0 <= a <= dm
      invariant forall i, j :: 0 <= i < a && 0 <= j < dm ==> !s.p[i][j].IsNaN()
    {
      var c := 0;
      while c < dm
        invariant 0 <= c <= dm
        invariant forall j :: 0 <= j < c ==> !s.p[a][j].IsNaN()
      {
        if s.p[a][c].IsNaN() {
          return true;
        }
        c := c + 1;
      }
      a := a + 1;
    }
    return false;
  }

  /** `BlowingUp()`: some entry of the whole x or P buffer is greater than 1e6. */
  method BlowingUp(cfg: Config, s: Ekf) returns (b: bool)
    requires Wf(cfg, s)
    ensures b <==> HasBlowUp(cfg, s)
  {
    var k := 0;
    while k < |s.x|
      invariant 0 <= k <= |s.x|
      invariant forall j :: 0 <= j < k ==> !Gt(s.x[j], BlowUpLimit)
    {
      if Gt(s.x[k], BlowUpLimit) {
        return true;
      }
      k := k + 1;
    }
    var side := Side(cfg);
    var a := 0;
    while a < side
      invariant 0 <= a <= side
      invariant forall i, j :: 0 <= i < a && 0 <= j < side ==> !Gt(s.p[i][j], BlowUpLimit)
    {
      var c := 0;
      while c < side
        invariant 0 <= c <= side
        invariant forall j :: 0 <= j < c ==> !Gt(s.p[a][j], BlowUpLimit)
      {
        if Gt(s.p[a][c], BlowUpLimit) {
          return true;
        }
        c := c + 1;
      }
      a := a + 1;
    }
    return false;
  }

  /** `NegativeDepth()`: some active slot has rho < 0. */
  method NegativeDepth(cfg: Config, s: Ekf) returns (b: bool)
    requires Wf(cfg, s)
    ensures b <==> HasNegativeDepth(cfg, s)
  {
    var i := 0;
    while i < s.len
      invariant 0 <= i <= s.len
      invariant forall j :: 0 <= j < i ==> !Lt(s.x[XRho(j)], Zero)
    {
      if Lt(s.x[XRho(i)], Zero) {
        return true;
      }
      i := i + 1;
    }
    return false;
  }

  // ---------------------------------------------------------------------------
  // Laws

  /** NaNsInTheHouse looks at the active region only: stale entries beyond it never raise it. */
  lemma NaNCheckIgnoresInactive(cfg: Config, s: Ekf, t: Ekf)
    requires Wf(cfg, s) && Wf(cfg, t) && s.len == t.len
    requires s.x[..XMax(s.len)] == t.x[..XMax(s.len)]
    requires TopLeft(s.p, Side(cfg), DxMax(s.len)) == TopLeft(t.p, Side(cfg), DxMax(s.len))
    ensures HasNaN(cfg, s) <==> HasNaN(cfg, t)
  {
    var m := DxMax(s.len);
    assert forall k :: 0 <= k < XMax(s.len) ==> s.x[k] == s.x[..XMax(s.len)][k] && t.x[k] == t.x[..XMax(s.len)][k];
    assert forall a, b :: 0 <= a < m && 0 <= b < m ==>
      s.p[a][b] == TopLeft(s.p, Side(cfg), m)[a][b] && t.p[a][b] == TopLeft(t.p, Side(cfg), m)[a][b];
  }

  /** NegativeDepth reads only the active rho entries. */
  lemma NegativeDepthReadsOnlyRho(cfg: Config, s: Ekf, t: Ekf)
    requires Wf(cfg, s) && Wf(cfg, t) && s.len == t.len
    requires forall i :: 0 <= i < s.len ==> s.x[XRho(i)] == t.x[XRho(i)]
    ensures HasNegativeDepth(cfg, s) <==> HasNegativeDepth(cfg, t)
  {
  }

  /** After fix_depth no active rho is negative, provided AVG_DEPTH is not itself negative. */
  lemma NoNegativeDepthAfterFix(cfg: Config, s: Ekf)
    requires Wf(cfg, s) && !Lt(cfg.avgDepth, Zero)
    ensures !HasNegativeDepth(cfg, FixDepth(cfg, s))
  {
    var r := FixDepth(cfg, s);
    forall i | 0 <= i < s.len
      ensures !Lt(r.x[XRho(i)], Zero)
    {
      assert r.x[XRho(i)] == FixRho(cfg, s.x[XRho(i)], s.p[DxRho(i)][DxRho(i)]).0;
    }
  }

  /**
    BlowingUp is one-sided: overwriting any x entry with a value that is not
    above 1e6 (a large negative, minus infinity, NaN) cannot raise it.
   */
  lemma BlowUpIsOneSided(cfg: Config, s: Ekf, k: nat, v: Flt)
    requires Wf(cfg, s) && k < |s.x| && !HasBlowUp(cfg, s) && !Gt(v, BlowUpLimit)
    ensures !HasBlowUp(cfg, s.(x := s.x[k := v]))
  {
  }

  /**
    BlowingUp looks at the whole buffers: a large stale entry beyond the
    active region raises it even when every active entry is small.
   */
  lemma BlowUpSeesInactive(cfg: Config, s: Ekf, k: nat)
    requires Wf(cfg, s) && XMax(s.len) <= k < |s.x| && Gt(s.x[k], BlowUpLimit)
    requires forall j :: 0 <= j < XMax(s.len) ==> !Gt(s.x[j], BlowUpLimit)
    ensures HasBlowUp(cfg, s)
  {
  }
}

=== FILE: dynamics.dfy ===
/**
  The sparsity pattern of `dynamics` in src/vi_ekf.cpp: the state derivative
  dx_, the state Jacobian A_ and the input Jacobian G_. The source zeroes the
  three buffers and then assigns blocks in a fixed order; here each buffer is
  that list of block writes applied in order to a zero matrix (dx_ is an
  Eigen column vector, so a matrix with one column).

  Blocks that the source computes with rotations, skew matrices, T_zeta and
  the camera extrinsics are uninterpreted: entry (r, c) of such a block is
  `nl.vehicle(term, x, u, r, c)` or, for slot i, `nl.feature(term, x, u, i, r, c)`.
  The blocks the source writes as constants, or from x and u alone, are
  computed: omega = u_G - b_g, the drag blocks, -I and I.
 */
module Dynamics {
  import opened Flt
  import opened Buffers
  import opened Layout
  import opened Linalg
  import opened Manifold

  /** The vehicle blocks computed through the attitude quaternion. */
  datatype VehicleTerm =
    | VelI         // dx(POS) = q.invrot(vel)
    | VelDotDrag   // dx(VEL) = acc_z + gravity_B - mu vel_xy
    | VelDotPlain  // dx(VEL) = acc + gravity_B
    | RotR         // A(POS, VEL) = q.R()
    | SkewVelI     // A(POS, ATT) = skew(vel_I)
    | SkewGravB    // A(VEL, ATT) = skew(gravity_B)

  /** The per-feature blocks computed through the bearing quaternion and the extrinsics. */
  datatype FeatureTerm =
    | ZetaDot | RhoDot
    | ZetaVel | ZetaBg | ZetaZeta | ZetaRho
    | RhoVel | RhoBg | RhoZeta | RhoRho
    | InputZeta | InputRho

  datatype Nonlinear = Nonlinear(
    vehicle: (VehicleTerm, seq<Flt>, seq<Flt>, nat, nat) -> Flt,
    feature: (FeatureTerm, seq<Flt>, seq<Flt>, nat, nat, nat) -> Flt)

  /** `m.block(r0, c0, |b|, cols) = b`. */
  datatype Write = Write(r0: nat, c0: nat, b: seq<seq<Flt>>, cols: nat)

  /** dx_ (one column), A_ and G_ after a call to `dynamics`. */
  datatype Derivatives = Derivatives(xdot: seq<seq<Flt>>, A: seq<seq<Flt>>, G: seq<seq<Flt>>)

  // ---------------------------------------------------------------------------
  // Block writes

  predicate Covers(w: Write, p: nat, q: nat)
  {
    w.r0 <= p < w.r0 + |w.b| && w.c0 <= q < w.c0 + w.cols
  }

  ghost predicate Fits(w: Write, rows: nat, cols: nat)
  {
    IsMatrix(w.b, |w.b|, w.cols) && w.r0 + |w.b| <= rows && w.c0 + w.cols <= cols
  }

  ghost predicate AllFit(ws: seq<Write>, rows: nat, cols: nat)
  {
    forall k :: 0 <= k < |ws| ==> Fits(ws[k], rows, cols)
  }

  /** The writes applied in order. */
  function Apply(m: seq<seq<Flt>>, n: nat, ws: seq<Write>): (r: seq<seq<Flt>>)
    requires IsMatrix(m, |m|, n) && AllFit(ws, |m|, n)
    ensures IsMatrix(r, |m|, n)
    decreases |ws|
  {
    if |ws| == 0 then m
    else
      assert Fits(ws[0], |m|, n);
      Apply(WriteBlock(m, n, ws[0].r0, ws[0].c0, ws[0].b, ws[0].cols), n, ws[1..])
  }

  /** An entry no write covers keeps its value. */
  lemma {:induction false} ApplyFrame(m: seq<seq<Flt>>, n: nat, ws: seq<Write>, p: nat, q: nat)
    requires IsMatrix(m, |m|, n) && AllFit(ws, |m|, n) && p < |m| && q < n
    requires forall k :: 0 <= k < |ws| ==> !Covers(ws[k], p, q)
    ensures Apply(m, n, ws)[p][q] == m[p][q]
    decreases |ws|
  {
    if |ws| > 0 {
      assert !Covers(ws[0], p, q);
      var m1 := WriteBlock(m, n, ws[0].r0, ws[0].c0, ws[0].b, ws[0].cols);
      assert forall k :: 0 <= k < |ws| - 1 ==> ws[1..][k] == ws[k + 1];
      ApplyFrame(m1, n, ws[1..], p, q);
    }
  }

  /** An entry takes its value from the last write that covers it. */
  lemma {:induction false} ApplyLast(m: seq<seq<Flt>>, n: nat, ws: seq<Write>, k: nat, p: nat, q: nat)
    requires IsMatrix(m, |m|, n) && AllFit(ws, |m|, n) && p < |m| && q < n
    requires k < |ws| && Covers(ws[k], p, q)
    requires forall j :: k < j < |ws| ==> !Covers(ws[j], p, q)
    ensures Apply(m, n, ws)[p][q] == ws[k].b[p - ws[k].r0][q - ws[k].c0]
    decreases |ws|
  {
    assert Fits(ws[0], |m|, n);
    var m1 := WriteBlock(m, n, ws[0].r0, ws[0].c0, ws[0].b, ws[0].cols);
    assert forall j :: 0 <= j < |ws| - 1 ==> ws[1..][j] == ws[j + 1];
    if k == 0 {
      ApplyFrame(m1, n, ws[1..], p, q);
    } else {
      ApplyLast(m1, n, ws[1..], k - 1, p, q);
    }
  }

  /** The position of the last write in ws covering (p, q), or -1 when none does. */
  function LastCover(ws: seq<Write>, p: nat, q: nat): (k: int)
    ensures -1 <= k < |ws|
    ensures k >= 0 ==> Covers(ws[k], p, q)
    ensures forall j :: k < j < |ws| ==> !Covers(ws[j], p, q)
  {
    if |ws| == 0 then -1
    else if Covers(ws[|ws| - 1], p, q) then |ws| - 1
    else LastCover(ws[..|ws| - 1], p, q)
  }

  /**
    What entry (p, q) of a rows x cols matrix holds after the writes ws: the
    matching entry of the last block covering it, or base when no block does.
   */
  function LastWritten(ws: seq<Write>, rows: nat, cols: nat, p: nat, q: nat, base: Flt): Flt
    requires AllFit(ws, rows, cols)
  {
    var k := LastCover(ws, p, q);
    if k < 0 then base
    else
      assert Fits(ws[k], rows, cols);
      ws[k].b[p - ws[k].r0][q - ws[k].c0]
  }

  /** Entry (p, q) after the writes ws is the last write covering it, or its old value. */
  lemma ApplyEntry(m: seq<seq<Flt>>, n: nat, ws: seq<Write>, p: nat, q: nat)
    requires IsMatrix(m, |m|, n) && AllFit(ws, |m|, n) && p < |m| && q < n
    ensures Apply(m, n, ws)[p][q] == LastWritten(ws, |m|, n, p, q, m[p][q])
  {
    var k := LastCover(ws, p, q);
    if k < 0 {
      ApplyFrame(m, n, ws, p, q);
    } else {
      ApplyLast(m, n, ws, k, p, q);
    }
  }

  /** Applying a list of writes sets each entry to the last write covering it, and leaves the others. */
  lemma ApplyEntries(m: seq<seq<Flt>>, n: nat, ws: seq<Write>)
    requires IsMatrix(m, |m|, n) && AllFit(ws, |m|, n)
    ensures forall p, q :: 0 <= p < |m| && 0 <= q < n ==> Apply(m, n, ws)[p][q] == LastWritten(ws, |m|, n, p, q, m[p][q])
  {
    forall p, q | 0 <= p < |m| && 0 <= q < n
      ensures Apply(m, n, ws)[p][q] == LastWritten(ws, |m|, n, p, q, m[p][q])
    {
      ApplyEntry(m, n, ws, p, q);
    }
  }

  /**
    Entry (p, q) of a prefix-then-loop list of writes comes from the last
    prefix write covering it, when no loop write covers it.
   */
  lemma ApplyLastBeforeLoop(m: seq<seq<Flt>>, n: nat, ws: seq<Write>, v: seq<Write>, l: seq<Write>, k: nat, p: nat, q: nat)
    requires ws == v + l
    requires IsMatrix(m, |m|, n) && AllFit(v, |m|, n) && AllFit(l, |m|, n) && p < |m| && q < n
    requires k < |v| && Covers(v[k], p, q)
    requires forall j :: k < j < |v| ==> !Covers(v[j], p, q)
    requires forall t :: 0 <= t < |l| ==> !Covers(l[t], p, q)
    ensures AllFit(ws, |m|, n)
    ensures Apply(m, n, ws)[p][q] == v[k].b[p - v[k].r0][q - v[k].c0]
  {
    AllFitAppend(v, l, |m|, n);
    assert ws[k] == v[k];
    forall j | k < j < |ws|
      ensures !Covers(ws[j], p, q)
    {
      if j >= |v| {
        assert ws[j] == l[j - |v|];
      }
    }
    ApplyLast(m, n, ws, k, p, q);
  }

  /** Entry (p, q) of a prefix-then-loop list of writes is untouched when no write covers it. */
  lemma ApplyMissesBoth(m: seq<seq<Flt>>, n: nat, ws: seq<Write>, v: seq<Write>, l: seq<Write>, p: nat, q: nat)
    requires ws == v + l
    requires IsMatrix(m, |m|, n) && AllFit(v, |m|, n) && AllFit(l, |m|, n) && p < |m| && q < n
    requires forall j :: 0 <= j < |v| ==> !Covers(v[j], p, q)
    requires forall t :: 0 <= t < |l| ==> !Covers(l[t], p, q)
    ensures AllFit(ws, |m|, n)
    ensures Apply(m, n, ws)[p][q] == m[p][q]
  {
    AllFitAppend(v, l, |m|, n);
    forall j | 0 <= j < |ws|
      ensures !Covers(ws[j], p, q)
    {
      if j >= |v| {
        assert ws[j] == l[j - |v|];
      }
    }
    ApplyFrame(m, n, ws, p, q);
  }

  /** A rows-by-cols block given entry by entry. */
  function Blk(rows: nat, cols: nat, f: (nat, nat) -> Flt): (b: seq<seq<Flt>>)
    ensures IsMatrix(b, rows, cols)
    ensures forall r, c :: 0 <= r < rows && 0 <= c < cols ==> b[r][c] == f(r, c)
  {
    seq(rows, r requires 0 <= r < rows => seq(cols, c requires 0 <= c < cols => f(r, c)))
  }

  const I3: seq<seq<Flt>> := [[One, Zero, Zero], [Zero, One, Zero], [Zero, Zero, One]]
  const I2x3: seq<seq<Flt>> := [[One, Zero, Zero], [Zero, One, Zero]]

  /** `-I_3x3` is -1 on the diagonal and zero elsewhere. */
  lemma NegatedIdentity(a: nat, b: nat)
    requires a < 3 && b < 3
    ensures MatNeg(I3, 3)[a][b] == if a == b then Num(-1.0) else Zero
  {
    assert MatNeg(I3, 3)[a][b] == Neg(I3[a][b]);
  }

  // ---------------------------------------------------------------------------
  // The writes of `dynamics`

  /** omega = u_G - b_g, the bias-corrected angular rate, as a column. */
  function Omega(x: seq<Flt>, u: seq<Flt>): (w: seq<seq<Flt>>)
    requires xZ <= |x| && uTOTAL <= |u|
    ensures IsMatrix(w, 3, 1)
  {
    Blk(3, 1, (k: nat, c: nat) => if k < 3 then Sub(u[uG + k], x[xB_G + k]) else Zero)
  }

  /** The vehicle writes to dx_. */
  function VehicleRateWrites(nl: Nonlinear, useDrag: bool, x: seq<Flt>, u: seq<Flt>): seq<Write>
    requires xZ <= |x| && uTOTAL <= |u|
  {
    var velDot := if useDrag then VelDotDrag else VelDotPlain;
    [ Write(dxPOS, 0, Blk(3, 1, (r: nat, c: nat) => nl.vehicle(VelI, x, u, r, 0)), 1),
      Write(dxVEL, 0, Blk(3, 1, (r: nat, c: nat) => nl.vehicle(velDot, x, u, r, 0)), 1),
      Write(dxATT, 0, Omega(x, u), 1) ]
  }

  /** `-mu * I_2x3^T * I_2x3`, evaluated left to right as Eigen does. */
  function DragBlock(mu: Flt): (b: seq<seq<Flt>>)
    ensures IsMatrix(b, 3, 3)
  {
    MatMul(MatScale(Transpose(I2x3, 3), 2, Neg(mu)), I2x3, 2, 3)
  }

  /** The vehicle writes to A_, in the source's order. */
  function VehicleJacobianWrites(nl: Nonlinear, useDrag: bool, x: seq<Flt>, u: seq<Flt>): seq<Write>
    requires xZ <= |x| && uTOTAL <= |u|
  {
    [ Write(dxPOS, dxVEL, Blk(3, 3, (r: nat, c: nat) => nl.vehicle(RotR, x, u, r, c)), 3),
      Write(dxPOS, dxATT, Blk(3, 3, (r: nat, c: nat) => nl.vehicle(SkewVelI, x, u, r, c)), 3) ]
    + (if useDrag then
         [ Write(dxVEL, dxVEL, DragBlock(x[xMU]), 3),
           Write(dxVEL, dxB_A, [[Zero, Zero, Zero], [Zero, Zero, Zero], [Zero, Zero, Num(-1.0)]], 3),
           Write(dxVEL, dxMU, [[Neg(x[xVEL])], [Neg(x[xVEL + 1])], [Neg(Zero)]], 1) ]
       else
         [ Write(dxVEL, dxB_A, MatNeg(I3, 3), 3) ])
    + [ Write(dxVEL, dxATT, Blk(3, 3, (r: nat, c: nat) => nl.vehicle(SkewGravB, x, u, r, c)), 3),
        Write(dxATT, dxB_G, MatNeg(I3, 3), 3) ]
  }

  /** The vehicle writes to G_. */
  function VehicleInputWrites(useDrag: bool): seq<Write>
  {
    [ Write(dxVEL, uA, if useDrag then [[Zero, Zero, Zero], [Zero, Zero, Zero], [Zero, Zero, One]] else I3, 3),
      Write(dxATT, uG, I3, 3) ]
  }

  /** The writes of slot i to dx_. */
  function SlotRateWrites(nl: Nonlinear, x: seq<Flt>, u: seq<Flt>, i: nat): seq<Write>
  {
    [ Write(DxZeta(i), 0, Blk(2, 1, (r: nat, c: nat) => nl.feature(ZetaDot, x, u, i, r, 0)), 1),
      Write(DxRho(i), 0, [[nl.feature(RhoDot, x, u, i, 0, 0)]], 1) ]
  }

  /** The eight writes of slot i to A_. */
  function SlotJacobianWrites(nl: Nonlinear, x: seq<Flt>, u: seq<Flt>, i: nat): seq<Write>
  {
    var z, h := DxZeta(i), DxRho(i);
    [ Write(z, dxVEL, Blk(2, 3, (r: nat, c: nat) => nl.feature(ZetaVel, x, u, i, r, c)), 3),
      Write(z, dxB_G, Blk(2, 3, (r: nat, c: nat) => nl.feature(ZetaBg, x, u, i, r, c)), 3),
      Write(z, z, Blk(2, 2, (r: nat, c: nat) => nl.feature(ZetaZeta, x, u, i, r, c)), 2),
      Write(z, h, Blk(2, 1, (r: nat, c: nat) => nl.feature(ZetaRho, x, u, i, r, c)), 1),
      Write(h, dxVEL, Blk(1, 3, (r: nat, c: nat) => nl.feature(RhoVel, x, u, i, r, c)), 3),
      Write(h, dxB_G, Blk(1, 3, (r: nat, c: nat) => nl.feature(RhoBg, x, u, i, r, c)), 3),
      Write(h, z, Blk(1, 2, (r: nat, c: nat) => nl.feature(RhoZeta, x, u, i, r, c)), 2),
      Write(h, h, [[nl.feature(RhoRho, x, u, i, 0, 0)]], 1) ]
  }

  /** The two writes of slot i to G_. */
  function SlotInputWrites(nl: Nonlinear, x: seq<Flt>, u: seq<Flt>, i: nat): seq<Write>
  {
    [ Write(DxZeta(i), uG, Blk(2, 3, (r: nat, c: nat) => nl.feature(InputZeta, x, u, i, r, c)), 3),
      Write(DxRho(i), uG, Blk(1, 3, (r: nat, c: nat) => nl.feature(InputRho, x, u, i, r, c)), 3) ]
  }

  /** Which of the three buffers a write goes to. */
  datatype Target = ToXdot | ToA | ToG

  function SlotWrites(target: Target, nl: Nonlinear, x: seq<Flt>, u: seq<Flt>, i: nat): seq<Write>
  {
    match target
    case ToXdot => SlotRateWrites(nl, x, u, i)
    case ToA => SlotJacobianWrites(nl, x, u, i)
    case ToG => SlotInputWrites(nl, x, u, i)
  }

  /** The write lists of `parts`, one after another. */
  function Concat(parts: seq<seq<Write>>): (ws: seq<Write>)
  {
    if |parts| == 0 then [] else Concat(parts[..|parts| - 1]) + parts[|parts| - 1]
  }

  /** Every write of a concatenation comes from one of its parts. */
  lemma {:induction false} ConcatFrom(parts: seq<seq<Write>>, t: nat) returns (j: nat, s: nat)
    requires t < |Concat(parts)|
    ensures j < |parts| && s < |parts[j]| && Concat(parts)[t] == parts[j][s]
  {
    var init := parts[..|parts| - 1];
    var prev := Concat(init);
    if t < |prev| {
      j, s := ConcatFrom(init, t);
      assert parts[j] == init[j];
    } else {
      j, s := |parts| - 1, t - |prev|;
    }
  }

  /** The feature loop: the writes of slots 0 .. k-1, in order. */
  function Loop(target: Target, nl: Nonlinear, x: seq<Flt>, u: seq<Flt>, k: nat): (ws: seq<Write>)
  {
    Concat(seq(k, i requires 0 <= i < k => SlotWrites(target, nl, x, u, i)))
  }

  /** Every write of the loop comes from some slot below k. */
  lemma LoopFrom(target: Target, nl: Nonlinear, x: seq<Flt>, u: seq<Flt>, k: nat, t: nat)
    returns (j: nat, s: nat)
    requires t < |Loop(target, nl, x, u, k)|
    ensures j < k && s < |SlotWrites(target, nl, x, u, j)|
    ensures Loop(target, nl, x, u, k)[t] == SlotWrites(target, nl, x, u, j)[s]
  {
    j, s := ConcatFrom(seq(k, i requires 0 <= i < k => SlotWrites(target, nl, x, u, i)), t);
  }

  /** The slot writes fit into the buffers of a filter with at least i + 1 slots. */
  lemma SlotWritesFit(target: Target, nl: Nonlinear, x: seq<Flt>, u: seq<Flt>, i: nat, side: nat)
    requires DxMax(i + 1) <= side
    ensures AllFit(SlotWrites(target, nl, x, u, i), side, Width(target, side))
  {
    match target
    case ToXdot => SlotRateWritesFit(nl, x, u, i, side);
    case ToA => SlotJacobianWritesFit(nl, x, u, i, side);
    case ToG => SlotInputWritesFit(nl, x, u, i, side);
  }

  lemma SlotRateWritesFit(nl: Nonlinear, x: seq<Flt>, u: seq<Flt>, i: nat, side: nat)
    requires DxMax(i + 1) <= side
    ensures AllFit(SlotRateWrites(nl, x, u, i), side, 1)
  {
  }

  lemma SlotJacobianWritesFit(nl: Nonlinear, x: seq<Flt>, u: seq<Flt>, i: nat, side: nat)
    requires DxMax(i + 1) <= side
    ensures AllFit(SlotJacobianWrites(nl, x, u, i), side, side)
  {
  }

  lemma SlotInputWritesFit(nl: Nonlinear, x: seq<Flt>, u: seq<Flt>, i: nat, side: nat)
    requires DxMax(i + 1) <= side
    ensures AllFit(SlotInputWrites(nl, x, u, i), side, uTOTAL)
  {
  }

  function Width(target: Target, side: nat): nat
  {
    match target
    case ToXdot => 1
    case ToA => side
    case ToG => uTOTAL
  }

  /** The loop's writes fit when every slot below k does. */
  lemma LoopFits(target: Target, nl: Nonlinear, x: seq<Flt>, u: seq<Flt>, k: nat, side: nat)
    requires DxMax(k) <= side
    ensures AllFit(Loop(target, nl, x, u, k), side, Width(target, side))
  {
    forall t | 0 <= t < |Loop(target, nl, x, u, k)|
      ensures Fits(Loop(target, nl, x, u, k)[t], side, Width(target, side))
    {
      var j, s := LoopFrom(target, nl, x, u, k, t);
      SlotWritesFit(target, nl, x, u, j, side);
    }
  }

  // ---------------------------------------------------------------------------
  // dynamics

  function RateWrites(nl: Nonlinear, useDrag: bool, x: seq<Flt>, u: seq<Flt>, n: nat): seq<Write>
    requires xZ <= |x| && uTOTAL <= |u|
  {
    VehicleRateWrites(nl, useDrag, x, u) + Loop(ToXdot, nl, x, u, n)
  }

  function JacobianWrites(nl: Nonlinear, useDrag: bool, x: seq<Flt>, u: seq<Flt>, n: nat): seq<Write>
    requires xZ <= |x| && uTOTAL <= |u|
  {
    VehicleJacobianWrites(nl, useDrag, x, u) + Loop(ToA, nl, x, u, n)
  }

  function InputWrites(nl: Nonlinear, useDrag: bool, x: seq<Flt>, u: seq<Flt>, n: nat): seq<Write>
  {
    VehicleInputWrites(useDrag) + Loop(ToG, nl, x, u, n)
  }

  lemma AllFitAppend(a: seq<Write>, b: seq<Write>, rows: nat, cols: nat)
    requires AllFit(a, rows, cols) && AllFit(b, rows, cols)
    ensures AllFit(a + b, rows, cols)
  {
    forall k | 0 <= k < |a + b|
      ensures Fits((a + b)[k], rows, cols)
    {
      if k >= |a| {
        assert (a + b)[k] == b[k - |a|];
      }
    }
  }

  lemma VehicleRateWritesFit(nl: Nonlinear, useDrag: bool, x: seq<Flt>, u: seq<Flt>, side: nat)
    requires xZ <= |x| && uTOTAL <= |u| && dxZ <= side
    ensures AllFit(VehicleRateWrites(nl, useDrag, x, u), side, 1)
  {
    var v := VehicleRateWrites(nl, useDrag, x, u);
    assert Fits(v[0], side, 1) && Fits(v[1], side, 1) && Fits(v[2], side, 1);
  }

  lemma VehicleJacobianWritesFit(nl: Nonlinear, useDrag: bool, x: seq<Flt>, u: seq<Flt>, side: nat)
    requires xZ <= |x| && uTOTAL <= |u| && dxZ <= side
    ensures AllFit(VehicleJacobianWrites(nl, useDrag, x, u), side, side)
  {
    var head := [ Write(dxPOS, dxVEL, Blk(3, 3, (r: nat, c: nat) => nl.vehicle(RotR, x, u, r, c)), 3),
                  Write(dxPOS, dxATT, Blk(3, 3, (r: nat, c: nat) => nl.vehicle(SkewVelI, x, u, r, c)), 3) ];
    assert Fits(head[0], side, side) && Fits(head[1], side, side);
    var mid := if useDrag then
         [ Write(dxVEL, dxVEL, DragBlock(x[xMU]), 3),
           Write(dxVEL, dxB_A, [[Zero, Zero, Zero], [Zero, Zero, Zero], [Zero, Zero, Num(-1.0)]], 3),
           Write(dxVEL, dxMU, [[Neg(x[xVEL])], [Neg(x[xVEL + 1])], [Neg(Zero)]], 1) ]
       else
         [ Write(dxVEL, dxB_A, MatNeg(I3, 3), 3) ];
    if useDrag {
      assert Fits(mid[0], side, side) && Fits(mid[1], side, side) && Fits(mid[2], side, side);
    } else {
      assert Fits(mid[0], side, side);
    }
    var tail := [ Write(dxVEL, dxATT, Blk(3, 3, (r: nat, c: nat) => nl.vehicle(SkewGravB, x, u, r, c)), 3),
                  Write(dxATT, dxB_G, MatNeg(I3, 3), 3) ];
    assert Fits(tail[0], side, side) && Fits(tail[1], side, side);
    AllFitAppend(head, mid, side, side);
    AllFitAppend(head + mid, tail, side, side);
    assert VehicleJacobianWrites(nl, useDrag, x, u) == head + mid + tail;
  }

  lemma VehicleInputWritesFit(useDrag: bool, side: nat)
    requires dxZ <= side
    ensures AllFit(VehicleInputWrites(useDrag), side, uTOTAL)
  {
    var v := VehicleInputWrites(useDrag);
    assert Fits(v[0], side, uTOTAL) && Fits(v[1], side, uTOTAL);
  }

  lemma RateWritesFit(nl: Nonlinear, useDrag: bool, x: seq<Flt>, u: seq<Flt>, n: nat, side: nat)
    requires xZ <= |x| && uTOTAL <= |u| && DxMax(n) <= side
    ensures AllFit(RateWrites(nl, useDrag, x, u, n), side, 1)
  {
    VehicleRateWritesFit(nl, useDrag, x, u, side);
    LoopFits(ToXdot, nl, x, u, n, side);
    AllFitAppend(VehicleRateWrites(nl, useDrag, x, u), Loop(ToXdot, nl, x, u, n), side, 1);
  }

  lemma JacobianWritesFit(nl: Nonlinear, useDrag: bool, x: seq<Flt>, u: seq<Flt>, n: nat, side: nat)
    requires xZ <= |x| && uTOTAL <= |u| && DxMax(n) <= side
    ensures AllFit(JacobianWrites(nl, useDrag, x, u, n), side, side)
  {
    VehicleJacobianWritesFit(nl, useDrag, x, u, side);
    LoopFits(ToA, nl, x, u, n, side);
    AllFitAppend(VehicleJacobianWrites(nl, useDrag, x, u), Loop(ToA, nl, x, u, n), side, side);
  }

  lemma InputWritesFit(nl: Nonlinear, useDrag: bool, x: seq<Flt>, u: seq<Flt>, n: nat, side: nat)
    requires DxMax(n) <= side
    ensures AllFit(InputWrites(nl, useDrag, x, u, n), side, uTOTAL)
  {
    VehicleInputWritesFit(useDrag, side);
    LoopFits(ToG, nl, x, u, n, side);
    AllFitAppend(VehicleInputWrites(useDrag), Loop(ToG, nl, x, u, n), side, uTOTAL);
  }

  /** All writes of `dynamics` stay inside the buffers. */
  lemma WritesFit(nl: Nonlinear, useDrag: bool, x: seq<Flt>, u: seq<Flt>, n: nat, side: nat)
    requires xZ <= |x| && uTOTAL <= |u| && DxMax(n) <= side
    ensures AllFit(RateWrites(nl, useDrag, x, u, n), side, 1)
    ensures AllFit(JacobianWrites(nl, useDrag, x, u, n), side, side)
    ensures AllFit(InputWrites(nl, useDrag, x, u, n), side, uTOTAL)
  {
    RateWritesFit(nl, useDrag, x, u, n, side);
    JacobianWritesFit(nl, useDrag, x, u, n, side);
    InputWritesFit(nl, useDrag, x, u, n, side);
  }

  /** dx_ after `dynamics(x, u)` with len_features_ = n active slots. */
  function Xdot(nl: Nonlinear, useDrag: bool, x: seq<Flt>, u: seq<Flt>, n: nat, side: nat): (r: seq<seq<Flt>>)
    requires xZ <= |x| && uTOTAL <= |u| && DxMax(n) <= side
    ensures IsMatrix(r, side, 1)
  {
    RateWritesFit(nl, useDrag, x, u, n, side);
    Apply(FillMatrix(side, 1, Zero), 1, RateWrites(nl, useDrag, x, u, n))
  }

  /** A_ after `dynamics(x, u)`. */
  function StateJacobian(nl: Nonlinear, useDrag: bool, x: seq<Flt>, u: seq<Flt>, n: nat, side: nat): (r: seq<seq<Flt>>)
    requires xZ <= |x| && uTOTAL <= |u| && DxMax(n) <= side
    ensures IsSquare(r, side)
  {
    JacobianWritesFit(nl, useDrag, x, u, n, side);
    Apply(FillMatrix(side, side, Zero), side, JacobianWrites(nl, useDrag, x, u, n))
  }

  /** G_ after `dynamics(x, u)`. */
  function InputJacobian(nl: Nonlinear, useDrag: bool, x: seq<Flt>, u: seq<Flt>, n: nat, side: nat): (r: seq<seq<Flt>>)
    requires xZ <= |x| && uTOTAL <= |u| && DxMax(n) <= side
    ensures IsMatrix(r, side, uTOTAL)
  {
    InputWritesFit(nl, useDrag, x, u, n, side);
    Apply(FillMatrix(side, uTOTAL, Zero), uTOTAL, InputWrites(nl, useDrag, x, u, n))
  }

  /** `dynamics(x, u)`: the three buffers together. */
  function Dynamics(nl: Nonlinear, useDrag: bool, x: seq<Flt>, u: seq<Flt>, n: nat, side: nat): (r: Derivatives)
    requires xZ <= |x| && uTOTAL <= |u| && DxMax(n) <= side
    ensures IsMatrix(r.xdot, side, 1) && IsSquare(r.A, side) && IsMatrix(r.G, side, uTOTAL)
  {
    Derivatives(Xdot(nl, useDrag, x, u, n, side), StateJacobian(nl, useDrag, x, u, n, side), InputJacobian(nl, useDrag, x, u, n, side))
  }

  /**
    Each buffer entry is the value of the last block write of `dynamics`
    that covers it, or zero when none does (the buffers start from setZero).
   */
  lemma XdotApplies(nl: Nonlinear, useDrag: bool, x: seq<Flt>, u: seq<Flt>, n: nat, side: nat)
    requires xZ <= |x| && uTOTAL <= |u| && DxMax(n) <= side
    ensures AllFit(RateWrites(nl, useDrag, x, u, n), side, 1)
    ensures forall p :: 0 <= p < side ==>
              Xdot(nl, useDrag, x, u, n, side)[p][0] == LastWritten(RateWrites(nl, useDrag, x, u, n), side, 1, p, 0, Zero)
  {
    var ws := RateWrites(nl, useDrag, x, u, n);
    RateWritesFit(nl, useDrag, x, u, n, side);
    var z := FillMatrix(side, 1, Zero);
    ApplyEntries(z, 1, ws);
    assert forall p :: 0 <= p < side ==> z[p][0] == Zero;
  }

  lemma StateJacobianApplies(nl: Nonlinear, useDrag: bool, x: seq<Flt>, u: seq<Flt>, n: nat, side: nat)
    requires xZ <= |x| && uTOTAL <= |u| && DxMax(n) <= side
    ensures AllFit(JacobianWrites(nl, useDrag, x, u, n), side, side)
    ensures forall p, q :: 0 <= p < side && 0 <= q < side ==>
              StateJacobian(nl, useDrag, x, u, n, side)[p][q] == LastWritten(JacobianWrites(nl, useDrag, x, u, n), side, side, p, q, Zero)
  {
    var ws := JacobianWrites(nl, useDrag, x, u, n);
    JacobianWritesFit(nl, useDrag, x, u, n, side);
    var z := FillMatrix(side, side, Zero);
    ApplyEntries(z, side, ws);
    assert forall p, q :: 0 <= p < side && 0 <= q < side ==> z[p][q] == Zero;
  }

  lemma InputJacobianApplies(nl: Nonlinear, useDrag: bool, x: seq<Flt>, u: seq<Flt>, n: nat, side: nat)
    requires xZ <= |x| && uTOTAL <= |u| && DxMax(n) <= side
    ensures AllFit(InputWrites(nl, useDrag, x, u, n), side, uTOTAL)
    ensures forall p, q :: 0 <= p < side && 0 <= q < uTOTAL ==>
              InputJacobian(nl, useDrag, x, u, n, side)[p][q] == LastWritten(InputWrites(nl, useDrag, x, u, n), side, uTOTAL, p, q, Zero)
  {
    var ws := InputWrites(nl, useDrag, x, u, n);
    InputWritesFit(nl, useDrag, x, u, n, side);
    var z := FillMatrix(side, uTOTAL, Zero);
    ApplyEntries(z, uTOTAL, ws);
    assert forall p, q :: 0 <= p < side && 0 <= q < uTOTAL ==> z[p][q] == Zero;
  }

  /** The writes of each buffer, and their two halves, fit. */
  lemma RateWritesFitParts(nl: Nonlinear, useDrag: bool, x: seq<Flt>, u: seq<Flt>, n: nat, side: nat)
    requires xZ <= |x| && uTOTAL <= |u| && DxMax(n) <= side
    ensures AllFit(VehicleRateWrites(nl, useDrag, x, u), side, 1) && AllFit(Loop(ToXdot, nl, x, u, n), side, 1)
  {
    VehicleRateWritesFit(nl, useDrag, x, u, side);
    LoopFits(ToXdot, nl, x, u, n, side);
  }

  lemma JacobianWritesFitParts(nl: Nonlinear, useDrag: bool, x: seq<Flt>, u: seq<Flt>, n: nat, side: nat)
    requires xZ <= |x| && uTOTAL <= |u| && DxMax(n) <= side
    ensures AllFit(VehicleJacobianWrites(nl, useDrag, x, u), side, side) && AllFit(Loop(ToA, nl, x, u, n), side, side)
  {
    VehicleJacobianWritesFit(nl, useDrag, x, u, side);
    LoopFits(ToA, nl, x, u, n, side);
  }

  lemma InputWritesFitParts(nl: Nonlinear, useDrag: bool, x: seq<Flt>, u: seq<Flt>, n: nat, side: nat)
    requires xZ <= |x| && uTOTAL <= |u| && DxMax(n) <= side
    ensures AllFit(VehicleInputWrites(useDrag), side, uTOTAL) && AllFit(Loop(ToG, nl, x, u, n), side, uTOTAL)
  {
    VehicleInputWritesFit(useDrag, side);
    LoopFits(ToG, nl, x, u, n, side);
  }

  /** dx_ as a vector. */
  function Rates(d: Derivatives, side: nat): (v: seq<Flt>)
    requires IsMatrix(d.xdot, side, 1)
    ensures |v| == side
    ensures forall p :: 0 <= p < side ==> v[p] == d.xdot[p][0]
  {
    seq(side, p requires 0 <= p < side => d.xdot[p][0])
  }

  /** Entry p of dx_, the rate of error-state entry p (zero past the buffer). */
  function RateOf(d: Derivatives, p: nat): Flt
  {
    if p < |d.xdot| && 0 < |d.xdot[p]| then d.xdot[p][0] else Zero
  }

  /** Axis a of the bias-corrected gyro reading, u_G - b_g. */
  function GyroRate(x: seq<Flt>, u: seq<Flt>, a: nat): Flt
    requires xZ <= |x| && uTOTAL <= |u| && a < 3
  {
    Sub(u[uG + a], x[xB_G + a])
  }

  /** The attitude rows of dx_ times dt. */
  function Spin(d: Derivatives, dt: Flt): Vec3
  {
    Vec3(Mul(RateOf(d, dxATT), dt), Mul(RateOf(d, dxATT + 1), dt), Mul(RateOf(d, dxATT + 2), dt))
  }

  /** The bias-corrected gyro reading times dt. */
  function GyroSpin(x: seq<Flt>, u: seq<Flt>, dt: Flt): Vec3
    requires xZ <= |x| && uTOTAL <= |u|
  {
    Vec3(Mul(GyroRate(x, u, 0), dt), Mul(GyroRate(x, u, 1), dt), Mul(GyroRate(x, u, 2), dt))
  }

  // ---------------------------------------------------------------------------
  // Where the writes land

  /** Columns a row of slot `slot` may have written in A_: VEL, B_G and the slot's own three. */
  predicate FeatureColumn(slot: nat, c: nat)
  {
    || dxVEL <= c < dxVEL + 3
    || dxB_G <= c < dxB_G + 3
    || DxZeta(slot) <= c < DxZeta(slot) + 3
  }

  predicate InSlotRows(i: nat, p: nat)
  {
    DxZeta(i) <= p < DxZeta(i) + 3
  }

  lemma SlotRowsDisjoint(i: nat, j: nat, p: nat)
    requires InSlotRows(i, p) && InSlotRows(j, p)
    ensures i == j
  {
  }

  /** Slot i writes only its own rows of A_, and there only VEL, B_G and its own columns. */
  lemma SlotJacobianWritesLand(nl: Nonlinear, x: seq<Flt>, u: seq<Flt>, i: nat, s: nat, p: nat, q: nat)
    requires s < |SlotJacobianWrites(nl, x, u, i)| && Covers(SlotJacobianWrites(nl, x, u, i)[s], p, q)
    ensures InSlotRows(i, p) && FeatureColumn(i, q)
  {
  }

  /** Slot i writes only its own rows of dx_ and G_. */
  lemma SlotRateAndInputWritesLand(nl: Nonlinear, x: seq<Flt>, u: seq<Flt>, i: nat, s: nat, p: nat, q: nat)
    ensures s < |SlotRateWrites(nl, x, u, i)| && Covers(SlotRateWrites(nl, x, u, i)[s], p, q) ==> InSlotRows(i, p)
    ensures s < |SlotInputWrites(nl, x, u, i)| && Covers(SlotInputWrites(nl, x, u, i)[s], p, q) ==> InSlotRows(i, p) && uG <= q
  {
  }

  /** Every write of the list stays above row dxB_A and left of column c. */
  ghost predicate VehicleBlock(ws: seq<Write>, c: nat)
  {
    forall s :: 0 <= s < |ws| ==> ws[s].r0 + |ws[s].b| <= dxB_A && ws[s].c0 + ws[s].cols <= c
  }

  /** The vehicle writes stay in the POS, VEL and ATT rows and the vehicle columns. */
  lemma VehicleRateWritesLand(nl: Nonlinear, useDrag: bool, x: seq<Flt>, u: seq<Flt>)
    requires xZ <= |x| && uTOTAL <= |u|
    ensures VehicleBlock(VehicleRateWrites(nl, useDrag, x, u), 1)
  {
  }

  lemma VehicleJacobianWritesLand(nl: Nonlinear, useDrag: bool, x: seq<Flt>, u: seq<Flt>)
    requires xZ <= |x| && uTOTAL <= |u|
    ensures VehicleBlock(VehicleJacobianWrites(nl, useDrag, x, u), dxZ)
  {
    var v := VehicleJacobianWrites(nl, useDrag, x, u);
    forall s | 0 <= s < |v|
      ensures v[s].r0 + |v[s].b| <= dxB_A && v[s].c0 + v[s].cols <= dxZ
    {
    }
  }

  lemma VehicleInputWritesLand(useDrag: bool)
    ensures VehicleBlock(VehicleInputWrites(useDrag), uTOTAL)
  {
  }

  /** A vehicle block never reaches a row at or past dxB_A. */
  lemma VehicleBlockMisses(ws: seq<Write>, c: nat, p: nat, q: nat)
    requires VehicleBlock(ws, c) && (dxB_A <= p || c <= q)
    ensures forall s :: 0 <= s < |ws| ==> !Covers(ws[s], p, q)
  {
  }

  /** Whether a write of slot j to the given buffer may reach entry (p, q). */
  predicate SlotReaches(target: Target, j: nat, p: nat, q: nat)
  {
    && InSlotRows(j, p)
    && (target == ToA ==> FeatureColumn(j, q))
    && (target == ToG ==> uG <= q)
  }

  /** A write of slot j reaches only entries SlotReaches allows. */
  lemma SlotWritesLand(target: Target, nl: Nonlinear, x: seq<Flt>, u: seq<Flt>, j: nat, s: nat, p: nat, q: nat)
    requires s < |SlotWrites(target, nl, x, u, j)| && Covers(SlotWrites(target, nl, x, u, j)[s], p, q)
    ensures SlotReaches(target, j, p, q)
  {
    match target
    case ToA => SlotJacobianWritesLand(nl, x, u, j, s, p, q);
    case _ => SlotRateAndInputWritesLand(nl, x, u, j, s, p, q);
  }

  /** The feature loop leaves entry (p, q) alone when no active slot may reach it. */
  lemma LoopMisses(target: Target, nl: Nonlinear, x: seq<Flt>, u: seq<Flt>, n: nat, p: nat, q: nat)
    requires forall j :: 0 <= j < n ==> !SlotReaches(target, j, p, q)
    ensures forall t :: 0 <= t < |Loop(target, nl, x, u, n)| ==> !Covers(Loop(target, nl, x, u, n)[t], p, q)
  {
    forall t | 0 <= t < |Loop(target, nl, x, u, n)|
      ensures !Covers(Loop(target, nl, x, u, n)[t], p, q)
    {
      var j, s := LoopFrom(target, nl, x, u, n, t);
      if Covers(Loop(target, nl, x, u, n)[t], p, q) {
        SlotWritesLand(target, nl, x, u, j, s, p, q);
      }
    }
  }

  // ---------------------------------------------------------------------------
  // Sparsity

  /** Whether the row (or column) p of the error state is a B_A, B_G or MU one. */
  predicate BiasRow(p: nat)
  {
    dxB_A <= p < dxZ
  }

  /** Entry (p, q) of A_ is zero when no vehicle or slot write reaches it. */
  lemma JacobianZeroUnlessWritten(nl: Nonlinear, useDrag: bool, x: seq<Flt>, u: seq<Flt>, n: nat, side: nat, p: nat, q: nat)
    requires xZ <= |x| && uTOTAL <= |u| && DxMax(n) <= side && p < side && q < side
    requires !(p < dxB_A && q < dxZ)
    requires forall j :: 0 <= j < n ==> !(InSlotRows(j, p) && FeatureColumn(j, q))
    ensures StateJacobian(nl, useDrag, x, u, n, side)[p][q] == Zero
  {
    JacobianWritesFitParts(nl, useDrag, x, u, n, side);
    var v := VehicleJacobianWrites(nl, useDrag, x, u);
    VehicleJacobianWritesLand(nl, useDrag, x, u);
    VehicleBlockMisses(v, dxZ, p, q);
    LoopMisses(ToA, nl, x, u, n, p, q);
    ApplyMissesBoth(FillMatrix(side, side, Zero), side, JacobianWrites(nl, useDrag, x, u, n), v, Loop(ToA, nl, x, u, n), p, q);
  }

  /** Entry p of dx_ is zero when no vehicle or slot write reaches it. */
  lemma RateZeroUnlessWritten(nl: Nonlinear, useDrag: bool, x: seq<Flt>, u: seq<Flt>, n: nat, side: nat, p: nat)
    requires xZ <= |x| && uTOTAL <= |u| && DxMax(n) <= side && p < side
    requires dxB_A <= p && forall j :: 0 <= j < n ==> !InSlotRows(j, p)
    ensures Xdot(nl, useDrag, x, u, n, side)[p][0] == Zero
  {
    RateWritesFitParts(nl, useDrag, x, u, n, side);
    var v := VehicleRateWrites(nl, useDrag, x, u);
    VehicleRateWritesLand(nl, useDrag, x, u);
    VehicleBlockMisses(v, 1, p, 0);
    LoopMisses(ToXdot, nl, x, u, n, p, 0);
    ApplyMissesBoth(FillMatrix(side, 1, Zero), 1, RateWrites(nl, useDrag, x, u, n), v, Loop(ToXdot, nl, x, u, n), p, 0);
  }

  /** Entry (p, q) of G_ is zero when no vehicle or slot write reaches row p. */
  lemma InputZeroUnlessWritten(nl: Nonlinear, useDrag: bool, x: seq<Flt>, u: seq<Flt>, n: nat, side: nat, p: nat, q: nat)
    requires xZ <= |x| && uTOTAL <= |u| && DxMax(n) <= side && p < side && q < uTOTAL
    requires dxB_A <= p && forall j :: 0 <= j < n ==> !InSlotRows(j, p)
    ensures InputJacobian(nl, useDrag, x, u, n, side)[p][q] == Zero
  {
    InputWritesFitParts(nl, useDrag, x, u, n, side);
    var v := VehicleInputWrites(useDrag);
    VehicleInputWritesLand(useDrag);
    VehicleBlockMisses(v, uTOTAL, p, q);
    LoopMisses(ToG, nl, x, u, n, p, q);
    ApplyMissesBoth(FillMatrix(side, uTOTAL, Zero), uTOTAL, InputWrites(nl, useDrag, x, u, n), v, Loop(ToG, nl, x, u, n), p, q);
  }

  /** Row p of dx_ and G_ is zero when no vehicle or slot write reaches it. */
  lemma RowZeroUnlessWritten(nl: Nonlinear, useDrag: bool, x: seq<Flt>, u: seq<Flt>, n: nat, side: nat, p: nat)
    requires xZ <= |x| && uTOTAL <= |u| && DxMax(n) <= side && p < side
    requires dxB_A <= p && forall j :: 0 <= j < n ==> !InSlotRows(j, p)
    ensures var d := Dynamics(nl, useDrag, x, u, n, side);
            d.xdot[p][0] == Zero && forall q :: 0 <= q < uTOTAL ==> d.G[p][q] == Zero
  {
    RateZeroUnlessWritten(nl, useDrag, x, u, n, side, p);
    forall q | 0 <= q < uTOTAL
      ensures Dynamics(nl, useDrag, x, u, n, side).G[p][q] == Zero
    {
      InputZeroUnlessWritten(nl, useDrag, x, u, n, side, p, q);
    }
  }

  /** The B_A, B_G and MU rows of dx_, A_ and G_ are never written: they stay zero. */
  lemma BiasRowsStayZero(nl: Nonlinear, useDrag: bool, x: seq<Flt>, u: seq<Flt>, n: nat, side: nat, p: nat)
    requires xZ <= |x| && uTOTAL <= |u| && DxMax(n) <= side && BiasRow(p)
    ensures var d := Dynamics(nl, useDrag, x, u, n, side);
            && d.xdot[p][0] == Zero
            && (forall q :: 0 <= q < side ==> d.A[p][q] == Zero)
            && (forall q :: 0 <= q < uTOTAL ==> d.G[p][q] == Zero)
  {
    RowZeroUnlessWritten(nl, useDrag, x, u, n, side, p);
    forall q | 0 <= q < side
      ensures Dynamics(nl, useDrag, x, u, n, side).A[p][q] == Zero
    {
      JacobianZeroUnlessWritten(nl, useDrag, x, u, n, side, p, q);
    }
  }

  /**
    No A_ block couples two distinct feature slots: the rows of slot i are
    zero in the columns of every other slot j, active or not.
   */
  lemma SlotsDecoupled(nl: Nonlinear, useDrag: bool, x: seq<Flt>, u: seq<Flt>, n: nat, side: nat, i: nat, j: nat, p: nat, q: nat)
    requires xZ <= |x| && uTOTAL <= |u| && DxMax(n) <= side
    requires i != j && InSlotRows(i, p) && InSlotRows(j, q) && p < side && q < side
    ensures Dynamics(nl, useDrag, x, u, n, side).A[p][q] == Zero
  {
    forall k | 0 <= k < n
      ensures !(InSlotRows(k, p) && FeatureColumn(k, q))
    {
      if InSlotRows(k, p) {
        SlotRowsDisjoint(i, k, p);
      }
    }
    JacobianZeroUnlessWritten(nl, useDrag, x, u, n, side, p, q);
  }

  /** Rows and columns past the active slots are zero in A_; their rows are zero in dx_ and G_ too. */
  lemma InactiveSlotsZero(nl: Nonlinear, useDrag: bool, x: seq<Flt>, u: seq<Flt>, n: nat, side: nat, p: nat)
    requires xZ <= |x| && uTOTAL <= |u| && DxMax(n) <= p < side
    ensures var d := Dynamics(nl, useDrag, x, u, n, side);
            && d.xdot[p][0] == Zero
            && (forall q :: 0 <= q < side ==> d.A[p][q] == Zero && d.A[q][p] == Zero)
            && (forall q :: 0 <= q < uTOTAL ==> d.G[p][q] == Zero)
  {
    RowZeroUnlessWritten(nl, useDrag, x, u, n, side, p);
    forall q | 0 <= q < side
      ensures Dynamics(nl, useDrag, x, u, n, side).A[p][q] == Zero
      ensures Dynamics(nl, useDrag, x, u, n, side).A[q][p] == Zero
    {
      JacobianZeroUnlessWritten(nl, useDrag, x, u, n, side, p, q);
      forall k | 0 <= k < n
        ensures !(InSlotRows(k, q) && FeatureColumn(k, p))
      {
      }
      JacobianZeroUnlessWritten(nl, useDrag, x, u, n, side, q, p);
    }
  }

  /** A write list whose third write is omega at row ATT, with nothing after it reaching those rows. */
  lemma OmegaWins(side: nat, ws: seq<Write>, v: seq<Write>, l: seq<Write>, x: seq<Flt>, u: seq<Flt>, a: nat)
    requires ws == v + l && dxZ <= side && a < 3 && xZ <= |x| && uTOTAL <= |u|
    requires AllFit(v, side, 1) && AllFit(l, side, 1)
    requires |v| == 3 && v[2] == Write(dxATT, 0, Omega(x, u), 1)
    requires forall t :: 0 <= t < |l| ==> !Covers(l[t], dxATT + a, 0)
    ensures AllFit(ws, side, 1)
    ensures Apply(FillMatrix(side, 1, Zero), 1, ws)[dxATT + a][0] == Sub(u[uG + a], x[xB_G + a])
  {
    ApplyLastBeforeLoop(FillMatrix(side, 1, Zero), 1, ws, v, l, 2, dxATT + a, 0);
  }

  /** dx(ATT) = u_G - b_g: the third vehicle write is the last to reach the attitude rows of dx_. */
  lemma AttitudeRate(nl: Nonlinear, useDrag: bool, x: seq<Flt>, u: seq<Flt>, n: nat, side: nat, a: nat)
    requires xZ <= |x| && uTOTAL <= |u| && DxMax(n) <= side && a < 3
    ensures Xdot(nl, useDrag, x, u, n, side)[dxATT + a][0] == Sub(u[uG + a], x[xB_G + a])
  {
    RateWritesFitParts(nl, useDrag, x, u, n, side);
    XdotApplies(nl, useDrag, x, u, n, side);
    LoopMisses(ToXdot, nl, x, u, n, dxATT + a, 0);
    OmegaWins(side, RateWrites(nl, useDrag, x, u, n), VehicleRateWrites(nl, useDrag, x, u), Loop(ToXdot, nl, x, u, n), x, u, a);
  }

  /** The last vehicle write to A_ is `A(ATT, B_G) = -I`. */
  lemma VehicleJacobianLast(nl: Nonlinear, useDrag: bool, x: seq<Flt>, u: seq<Flt>)
    requires xZ <= |x| && uTOTAL <= |u|
    ensures var v := VehicleJacobianWrites(nl, useDrag, x, u);
            |v| == (if useDrag then 7 else 5) && v[|v| - 1] == Write(dxATT, dxB_G, MatNeg(I3, 3), 3)
  {
  }

  /** A write list whose last prefix write is `-I` at (ATT, B_G), and whose loop misses that block. */
  lemma NegIdentityWins(side: nat, ws: seq<Write>, v: seq<Write>, l: seq<Write>, a: nat, b: nat)
    requires ws == v + l && dxZ <= side && a < 3 && b < 3
    requires AllFit(v, side, side) && AllFit(l, side, side)
    requires |v| > 0 && v[|v| - 1] == Write(dxATT, dxB_G, MatNeg(I3, 3), 3)
    requires forall t :: 0 <= t < |l| ==> !Covers(l[t], dxATT + a, dxB_G + b)
    ensures AllFit(ws, side, side)
    ensures Apply(FillMatrix(side, side, Zero), side, ws)[dxATT + a][dxB_G + b] == if a == b then Num(-1.0) else Zero
  {
    ApplyLastBeforeLoop(FillMatrix(side, side, Zero), side, ws, v, l, |v| - 1, dxATT + a, dxB_G + b);
    NegatedIdentity(a, b);
  }

  /** A(ATT, B_G) = -I: the last vehicle write to A_ is the last to reach that block. */
  lemma AttitudeJacobian(nl: Nonlinear, useDrag: bool, x: seq<Flt>, u: seq<Flt>, n: nat, side: nat, a: nat, b: nat)
    requires xZ <= |x| && uTOTAL <= |u| && DxMax(n) <= side && a < 3 && b < 3
    ensures StateJacobian(nl, useDrag, x, u, n, side)[dxATT + a][dxB_G + b] == if a == b then Num(-1.0) else Zero
  {
    JacobianWritesFitParts(nl, useDrag, x, u, n, side);
    StateJacobianApplies(nl, useDrag, x, u, n, side);
    VehicleJacobianLast(nl, useDrag, x, u);
    LoopMisses(ToA, nl, x, u, n, dxATT + a, dxB_G + b);
    NegIdentityWins(side, JacobianWrites(nl, useDrag, x, u, n), VehicleJacobianWrites(nl, useDrag, x, u), Loop(ToA, nl, x, u, n), a, b);
  }

  /** A write list whose second and last prefix write is I at (ATT, u_G), and whose loop misses that block. */
  lemma IdentityWins(side: nat, ws: seq<Write>, v: seq<Write>, l: seq<Write>, a: nat, b: nat)
    requires ws == v + l && dxZ <= side && a < 3 && b < 3
    requires AllFit(v, side, uTOTAL) && AllFit(l, side, uTOTAL)
    requires |v| == 2 && v[1] == Write(dxATT, uG, I3, 3)
    requires forall t :: 0 <= t < |l| ==> !Covers(l[t], dxATT + a, uG + b)
    ensures AllFit(ws, side, uTOTAL)
    ensures Apply(FillMatrix(side, uTOTAL, Zero), uTOTAL, ws)[dxATT + a][uG + b] == if a == b then One else Zero
  {
    ApplyLastBeforeLoop(FillMatrix(side, uTOTAL, Zero), uTOTAL, ws, v, l, 1, dxATT + a, uG + b);
  }

  /** G(ATT, u_G) = I: the second vehicle write to G_ is the last to reach that block. */
  lemma AttitudeInput(nl: Nonlinear, useDrag: bool, x: seq<Flt>, u: seq<Flt>, n: nat, side: nat, a: nat, b: nat)
    requires xZ <= |x| && uTOTAL <= |u| && DxMax(n) <= side && a < 3 && b < 3
    ensures InputJacobian(nl, useDrag, x, u, n, side)[dxATT + a][uG + b] == if a == b then One else Zero
  {
    InputWritesFitParts(nl, useDrag, x, u, n, side);
    InputJacobianApplies(nl, useDrag, x, u, n, side);
    LoopMisses(ToG, nl, x, u, n, dxATT + a, uG + b);
    IdentityWins(side, InputWrites(nl, useDrag, x, u, n), VehicleInputWrites(useDrag), Loop(ToG, nl, x, u, n), a, b);
  }

  // ---------------------------------------------------------------------------
  // The rates in dx_, read through RateOf

  /** `dynamics` leaves the B_A, B_G and MU entries of dx_ at zero. */
  lemma BiasRate(nl: Nonlinear, useDrag: bool, x: seq<Flt>, u: seq<Flt>, n: nat, side: nat, p: nat)
    requires xZ <= |x| && uTOTAL <= |u| && DxMax(n) <= side && BiasRow(p)
    ensures RateOf(Dynamics(nl, useDrag, x, u, n, side), p) == Zero
  {
    RateZeroUnlessWritten(nl, useDrag, x, u, n, side, p);
  }

  /** `dynamics` gives each attitude axis the bias-corrected gyro reading as its rate. */
  lemma GyroRates(nl: Nonlinear, useDrag: bool, x: seq<Flt>, u: seq<Flt>, n: nat, side: nat)
    requires xZ <= |x| && uTOTAL <= |u| && DxMax(n) <= side
    ensures forall a :: 0 <= a < 3 ==> GyroRate(x, u, a) == RateOf(Dynamics(nl, useDrag, x, u, n, side), dxATT + a)
  {
    forall a | 0 <= a < 3
      ensures GyroRate(x, u, a) == RateOf(Dynamics(nl, useDrag, x, u, n, side), dxATT + a)
    {
      AttitudeRate(nl, useDrag, x, u, n, side, a);
    }
  }

  /** Over any dt, the attitude rows of dx_ turn the attitude by the bias-corrected gyro reading. */
  lemma GyroSpins(nl: Nonlinear, useDrag: bool, x: seq<Flt>, u: seq<Flt>, n: nat, side: nat, dt: Flt)
    requires xZ <= |x| && uTOTAL <= |u| && DxMax(n) <= side
    ensures GyroSpin(x, u, dt) == Spin(Dynamics(nl, useDrag, x, u, n, side), dt)
  {
    GyroRates(nl, useDrag, x, u, n, side);
    assert GyroRate(x, u, 0) == RateOf(Dynamics(nl, useDrag, x, u, n, side), dxATT + 0);
  }
}

=== FILE: estimator.dfy ===
/**
  The filter state of src/vi_ekf.cpp and its feature-slot lifecycle:
  init_feature, clear_feature, keep_only_features, the vector blocks of
  boxplus/boxminus, get_depths/get_depth and fix_depth.

  x is the preallocated buffer of length 17 + 5*NUM_FEATURES, P the square
  buffer of side 16 + 3*NUM_FEATURES; only the first 17 + 5*len entries of x
  and the leading (16 + 3*len)^2 block of P are meaningful.
 */
module Estimator {
  import opened Flt
  import opened Buffers
  import opened Layout
  import opened Manifold
  import opened Slots
  import Camera

  /**
    Configuration fixed at construction: NUM_FEATURES (cap), the diagonal of
    P0_feat_, min_depth_, AVG_DEPTH, and the camera intrinsics.
   */
  datatype Config = Config(cap: nat, p0Feat: Vec3, minDepth: Flt, avgDepth: Flt, camera: Camera.Intrinsics)

  function Side(cfg: Config): nat
  {
    DxMax(cfg.cap)
  }

  /** `P0_feat_ = P0_feat.asDiagonal()`. */
  function P0FeatMatrix(cfg: Config): (m: seq<seq<Flt>>)
    ensures IsSquare(m, 3)
  {
    [[cfg.p0Feat.a, Zero, Zero], [Zero, cfg.p0Feat.b, Zero], [Zero, Zero, cfg.p0Feat.c]]
  }

  /**
    The mutable part of the filter: x_, P_, len_features_, next_feature_id_,
    current_feature_ids_, prev_t_ and start_t_.
   */
  datatype Ekf = Ekf(x: seq<Flt>, p: seq<seq<Flt>>, len: nat, nextId: int, ids: seq<int>, prevT: real, startT: real)

  /** Buffer sizes and the id list agree with the configuration and the feature count. */
  ghost predicate Wf(cfg: Config, s: Ekf)
  {
    && |s.x| == XMax(cfg.cap)
    && IsSquare(s.p, Side(cfg))
    && s.len <= cfg.cap
    && |s.ids| == s.len
    && Distinct(s.ids)
  }

  /** Ids handed out so far are all below the counter, so a fresh counter value is never in use. */
  ghost predicate IdsBelowCounter(s: Ekf)
  {
    forall k :: 0 <= k < |s.ids| ==> s.ids[k] < s.nextId
  }

  // ---------------------------------------------------------------------------
  // init_feature

  /** The inverse depth a new feature starts at: 1/depth, or 1/(2 min_depth) when depth is NaN. */
  function InitialRho(cfg: Config, depth: Flt): (rho: Flt)
    ensures depth.IsNaN() ==> rho == Recip(Mul(Num(2.0), cfg.minDepth))
    ensures !depth.IsNaN() ==> rho == Recip(depth)
  {
    Recip(if depth.IsNaN() then Mul(Num(2.0), cfg.minDepth) else depth)
  }

  /**
    The common tail of init_feature once there is room: record `newId`, bump
    the counters, write slot len with bearing q and inverse depth rho, and
    reset the new covariance rows and columns.
   */
  function AddSlot(cfg: Config, s: Ekf, q: Quat, rho: Flt, newId: int): (r: Ekf)
    requires Wf(cfg, s) && s.len < cfg.cap && newId !in s.ids
    ensures Wf(cfg, r)
    ensures r.len == s.len + 1 && r.ids == s.ids + [newId] && r.nextId == s.nextId + 1
    ensures r.prevT == s.prevT && r.startT == s.startT
    ensures SlotsOf(r.x, r.len) == SlotsOf(s.x, s.len) + [q.Elements() + [rho]]
    ensures r.x[..XMax(s.len)] == s.x[..XMax(s.len)]
    ensures forall k :: XMax(r.len) <= k < |s.x| ==> r.x[k] == s.x[k]
    ensures GrownBy(r.p, s.p, Side(cfg), s.len, P0FeatMatrix(cfg))
  {
    var x := AppendSlotX(s.x, s.len, q.Elements(), rho);
    var p := AppendSlotP(s.p, Side(cfg), s.len, P0FeatMatrix(cfg));
    AppendSlotXAppends(s.x, s.len, q.Elements(), rho);
    AppendSlotPGrows(s.p, Side(cfg), s.len, P0FeatMatrix(cfg));
    assert Distinct(s.ids + [newId]);
    Ekf(x, p, s.len + 1, s.nextId + 1, s.ids + [newId], s.prevT, s.startT)
  }

  /**
    `init_feature(l, id, depth)` exactly as written in src/vi_ekf.cpp: when
    full it refuses and changes nothing; otherwise the bearing comes from the
    fy/fx-scaled ray and the id recorded is next_feature_id_, not `id`.
   */
  function InitFeatureAsWritten(cfg: Config, ops: ManifoldOps, s: Ekf, l: Vec2, id: int, depth: Flt): (r: (Ekf, bool))
    requires Wf(cfg, s) && IdsBelowCounter(s)
    ensures Wf(cfg, r.0) && IdsBelowCounter(r.0)
    ensures s.len >= cfg.cap ==> r == (s, false)
    ensures s.len < cfg.cap ==>
              && r.1
              && r.0.len == s.len + 1
              && r.0.ids == s.ids + [s.nextId]
              && r.0.nextId == s.nextId + 1
              && SlotsOf(r.0.x, r.0.len) == SlotsOf(s.x, s.len)
                   + [ops.bearing(Camera.PixelRayAsWritten(cfg.camera, l)).Elements() + [InitialRho(cfg, depth)]]
              && r.0.x[..XMax(s.len)] == s.x[..XMax(s.len)]
              && (forall k :: XMax(s.len + 1) <= k < |s.x| ==> r.0.x[k] == s.x[k])
              && GrownBy(r.0.p, s.p, Side(cfg), s.len, P0FeatMatrix(cfg))
  {
    if s.len >= cfg.cap then (s, false)
    else
      var q := ops.bearing(Camera.PixelRayAsWritten(cfg.camera, l));
      (AddSlot(cfg, s, q, InitialRho(cfg, depth), s.nextId), true)
  }

  /**
    `init_feature` as evidently intended: the bearing comes from the inverse
    of the pinhole projection (fx/fy scaling, as in vi_ekf_feat.cpp) and the
    caller's id is recorded, so that update's membership test finds it. An id
    already in use is refused like a full filter.
   */
  function InitFeature(cfg: Config, ops: ManifoldOps, s: Ekf, l: Vec2, id: int, depth: Flt): (r: (Ekf, bool))
    requires Wf(cfg, s)
    ensures Wf(cfg, r.0)
    ensures s.len >= cfg.cap || id in s.ids ==> r == (s, false)
    ensures s.len < cfg.cap && id !in s.ids ==>
              && r.1
              && r.0.len == s.len + 1
              && r.0.ids == s.ids + [id]
              && id in r.0.ids
              && SlotsOf(r.0.x, r.0.len) == SlotsOf(s.x, s.len)
                   + [ops.bearing(Camera.PixelRay(cfg.camera, l)).Elements() + [InitialRho(cfg, depth)]]
              && r.0.x[..XMax(s.len)] == s.x[..XMax(s.len)]
              && (forall k :: XMax(s.len + 1) <= k < |s.x| ==> r.0.x[k] == s.x[k])
              && GrownBy(r.0.p, s.p, Side(cfg), s.len, P0FeatMatrix(cfg))
  {
    if s.len >= cfg.cap || id in s.ids then (s, false)
    else (AddSlot(cfg, s, ops.bearing(Camera.PixelRay(cfg.camera, l)), InitialRho(cfg, depth), id), true)
  }

  // ---------------------------------------------------------------------------
  // clear_feature and keep_only_features

  /** `global_to_local_feature_id(id)`: the position of id in the id list. */
  function LocalIndex(s: Ekf, id: int): (i: nat)
    requires id in s.ids
    ensures i < |s.ids| && s.ids[i] == id
  {
    IndexOf(s.ids, id)
  }

  /** The features as (id, slot) pairs, in slot order. */
  function Features(cfg: Config, s: Ekf): (f: seq<(int, seq<Flt>)>)
    requires Wf(cfg, s)
    ensures |f| == s.len
  {
    seq(s.len, i requires 0 <= i < s.len => (s.ids[i], SlotAt(s.x, i)))
  }

  /**
    `clear_feature(id)`: deletes id from the id list and its slot from x and
    P, shifting later slots up; removing the last slot moves nothing.
   */
  function ClearFeature(cfg: Config, s: Ekf, id: int): (r: Ekf)
    requires Wf(cfg, s) && id in s.ids
    ensures Wf(cfg, r)
    ensures r.len == s.len - 1 && r.nextId == s.nextId && r.prevT == s.prevT && r.startT == s.startT
    ensures r.ids == DeleteAt(s.ids, LocalIndex(s, id))
    ensures id !in r.ids && forall v :: v in r.ids <==> v in s.ids && v != id
    ensures SlotsOf(r.x, r.len) == DeleteAt(SlotsOf(s.x, s.len), LocalIndex(s, id))
    ensures r.x[..xZ] == s.x[..xZ]
    ensures forall k :: 0 <= k < XZeta(LocalIndex(s, id)) ==> r.x[k] == s.x[k]
    ensures LocalIndex(s, id) == s.len - 1 ==> r.x == s.x && r.p == s.p
    ensures forall a, b :: 0 <= a < DxMax(r.len) && 0 <= b < DxMax(r.len) ==>
              r.p[a][b] == s.p[Skip(LocalIndex(s, id), a)][Skip(LocalIndex(s, id), b)]
  {
    var i := LocalIndex(s, id);
    RemoveSlotXDeletes(s.x, i, s.len);
    RemoveSlotPReindexes(s.p, Side(cfg), i, s.len);
    DeleteAtKeepsDistinct(s.ids, i);
    Ekf(RemoveSlotX(s.x, i, s.len), RemoveSlotP(s.p, Side(cfg), i, s.len), s.len - 1, s.nextId, DeleteAt(s.ids, i), s.prevT, s.startT)
  }

  lemma ClearFeatureDeletesFeature(cfg: Config, s: Ekf, id: int)
    requires Wf(cfg, s) && id in s.ids
    ensures Features(cfg, ClearFeature(cfg, s, id)) == DeleteAt(Features(cfg, s), LocalIndex(s, id))
  {
    var r := ClearFeature(cfg, s, id);
    var i := LocalIndex(s, id);
    var a := Features(cfg, r);
    var b := DeleteAt(Features(cfg, s), i);
    forall j | 0 <= j < r.len ensures a[j] == b[j]
    {
      assert SlotAt(r.x, j) == SlotsOf(r.x, r.len)[j];
      if j < i {
        assert SlotsOf(r.x, r.len)[j] == SlotsOf(s.x, s.len)[j];
      } else {
        assert SlotsOf(r.x, r.len)[j] == SlotsOf(s.x, s.len)[j + 1];
      }
    }
  }

  /** The elements of s that satisfy keep, in order. */
  function Filter<T(!new)>(s: seq<T>, keep: T -> bool): (r: seq<T>)
    ensures |r| <= |s|
    ensures forall v :: v in r <==> v in s && keep(v)
  {
    if |s| == 0 then []
    else if keep(s[0]) then [s[0]] + Filter(s[1..], keep)
    else Filter(s[1..], keep)
  }

  /** Clears each id of `remove` in turn, as the second loop of keep_only_features does. */
  function ClearAll(cfg: Config, s: Ekf, remove: seq<int>): (r: Ekf)
    requires Wf(cfg, s) && Distinct(remove) && forall v :: v in remove ==> v in s.ids
    ensures Wf(cfg, r)
    ensures r.len == s.len - |remove| && r.nextId == s.nextId
    decreases |remove|
  {
    if |remove| == 0 then s
    else
      var s1 := ClearFeature(cfg, s, remove[0]);
      assert forall v :: v in remove[1..] ==> v in s1.ids by {
        forall v | v in remove[1..] ensures v in s1.ids
        {
          var k :| 1 <= k < |remove| && remove[k] == v;
          assert remove[0] != remove[k];
        }
      }
      ClearAll(cfg, s1, remove[1..])
  }

  /**
    `keep_only_features(features)`: clears every current feature whose id is
    not among `features`, in slot order.
   */
  function KeepOnlyFeatures(cfg: Config, s: Ekf, features: seq<int>): (r: Ekf)
    requires Wf(cfg, s)
    ensures Wf(cfg, r)
    ensures r.ids == Filter(s.ids, id => id in features)
    ensures Features(cfg, r) == Filter(Features(cfg, s), (f: (int, seq<Flt>)) => f.0 in features)
  {
    var remove := Filter(s.ids, id => id !in features);
    FilterKeepsDistinct(s.ids, id => id !in features);
    var r := ClearAll(cfg, s, remove);
    ClearAllFilters(cfg, s, remove);
    FilterAgrees(Features(cfg, s), (f: (int, seq<Flt>)) => f.0 !in remove, (f: (int, seq<Flt>)) => f.0 in features);
    IdsOfFeatures(cfg, r);
    IdsOfFeatures(cfg, s);
    FilterFirsts(Features(cfg, s), (f: (int, seq<Flt>)) => f.0 in features, id => id in features);
    r
  }

  // Lemmas behind KeepOnlyFeatures

  function Firsts(f: seq<(int, seq<Flt>)>): (r: seq<int>)
    ensures |r| == |f| && forall k :: 0 <= k < |f| ==> r[k] == f[k].0
  {
    seq(|f|, k requires 0 <= k < |f| => f[k].0)
  }

  lemma IdsOfFeatures(cfg: Config, s: Ekf)
    requires Wf(cfg, s)
    ensures Firsts(Features(cfg, s)) == s.ids
  {
  }

  lemma {:induction false} FilterFirsts(f: seq<(int, seq<Flt>)>, keep: ((int, seq<Flt>)) -> bool, keepId: int -> bool)
    requires forall k :: 0 <= k < |f| ==> keep(f[k]) == keepId(f[k].0)
    ensures Firsts(Filter(f, keep)) == Filter(Firsts(f), keepId)
  {
    if |f| > 0 {
      FilterFirsts(f[1..], keep, keepId);
      assert Firsts(f[1..]) == Firsts(f)[1..];
    }
  }

  lemma {:induction false} FilterKeepsDistinct<T(!new)>(s: seq<T>, keep: T -> bool)
    requires Distinct(s)
    ensures Distinct(Filter(s, keep))
  {
    if |s| > 0 {
      FilterKeepsDistinct(s[1..], keep);
      assert s[0] !in s[1..];
    }
  }

  lemma {:induction false} FilterAgrees<T(!new)>(s: seq<T>, p: T -> bool, q: T -> bool)
    requires forall k :: 0 <= k < |s| ==> p(s[k]) == q(s[k])
    ensures Filter(s, p) == Filter(s, q)
  {
    if |s| > 0 {
      FilterAgrees(s[1..], p, q);
    }
  }

  /** Filtering out an element the filter rejects anyway gives the same result. */
  lemma {:induction false} FilterDeleteRejected<T(!new)>(s: seq<T>, i: nat, keep: T -> bool)
    requires i < |s| && !keep(s[i])
    ensures Filter(DeleteAt(s, i), keep) == Filter(s, keep)
  {
    if i > 0 {
      FilterDeleteRejected(s[1..], i - 1, keep);
      assert DeleteAt(s, i) == [s[0]] + DeleteAt(s[1..], i - 1);
    } else {
      assert DeleteAt(s, 0) == s[1..];
    }
  }

  lemma {:induction false} ClearAllFilters(cfg: Config, s: Ekf, remove: seq<int>)
    requires Wf(cfg, s) && Distinct(remove) && forall v :: v in remove ==> v in s.ids
    ensures Features(cfg, ClearAll(cfg, s, remove)) == Filter(Features(cfg, s), (f: (int, seq<Flt>)) => f.0 !in remove)
    decreases |remove|
  {
    var all := (f: (int, seq<Flt>)) => f.0 !in remove;
    if |remove| == 0 {
      FilterAgrees(Features(cfg, s), all, f => true);
      FilterAll(Features(cfg, s));
    } else {
      var id := remove[0];
      var s1 := ClearFeature(cfg, s, id);
      var rest := (f: (int, seq<Flt>)) => f.0 !in remove[1..];
      assert forall v :: v in remove[1..] ==> v in s1.ids by {
        forall v | v in remove[1..] ensures v in s1.ids
        {
          var k :| 1 <= k < |remove| && remove[k] == v;
          assert remove[0] != remove[k];
        }
      }
      ClearAllFilters(cfg, s1, remove[1..]);
      ClearFeatureDeletesFeature(cfg, s, id);
      var f := Features(cfg, s);
      var i := LocalIndex(s, id);
      var f1 := DeleteAt(f, i);
      assert f1 == Features(cfg, s1);
      IdsOfFeatures(cfg, s1);
      assert forall k :: 0 <= k < |f1| ==> f1[k].0 != id by {
        forall k | 0 <= k < |f1| ensures f1[k].0 != id
        {
          assert f1[k].0 == s1.ids[k];
        }
      }
      FilterAgrees(f1, rest, all);
      FilterDeleteRejected(f, i, all);
    }
  }

  lemma {:induction false} FilterAll<T(!new)>(s: seq<T>)
    ensures Filter(s, _ => true) == s
  {
    if |s| > 0 {
      FilterAll(s[1..]);
    }
  }

  // ---------------------------------------------------------------------------
  // Depths

  /** `get_depths()`: 1/rho of every active feature, in slot order. */
  function GetDepths(cfg: Config, s: Ekf): (d: seq<Flt>)
    requires Wf(cfg, s)
    ensures |d| == s.len
    ensures forall i :: 0 <= i < s.len ==> d[i] == Recip(SlotAt(s.x, i)[4])
  {
    seq(s.len, i requires 0 <= i < s.len => Recip(s.x[XRho(i)]))
  }

  /** `get_depth(id)`: 1/rho of the feature with that id. */
  function GetDepth(cfg: Config, s: Ekf, id: int): (d: Flt)
    requires Wf(cfg, s) && id in s.ids
    ensures d == GetDepths(cfg, s)[LocalIndex(s, id)]
  {
    Recip(s.x[XRho(LocalIndex(s, id))])
  }

  /** Clearing a feature removes exactly its depth from get_depths, keeping the others in order. */
  lemma GetDepthsAfterClear(cfg: Config, s: Ekf, id: int)
    requires Wf(cfg, s) && id in s.ids
    ensures GetDepths(cfg, ClearFeature(cfg, s, id)) == DeleteAt(GetDepths(cfg, s), LocalIndex(s, id))
  {
    var r := ClearFeature(cfg, s, id);
    var i := LocalIndex(s, id);
    var a := GetDepths(cfg, r);
    var b := DeleteAt(GetDepths(cfg, s), i);
    forall j | 0 <= j < r.len
      ensures a[j] == b[j]
    {
      assert SlotAt(r.x, j) == SlotsOf(r.x, r.len)[j];
      if j < i {
        assert SlotsOf(r.x, r.len)[j] == SlotsOf(s.x, s.len)[j];
      } else {
        assert SlotsOf(r.x, r.len)[j] == SlotsOf(s.x, s.len)[j + 1];
      }
    }
  }

  /** A successful init_feature appends the reciprocal of the new feature's inverse depth to get_depths. */
  lemma GetDepthsAfterInit(cfg: Config, ops: ManifoldOps, s: Ekf, l: Vec2, id: int, depth: Flt)
    requires Wf(cfg, s) && s.len < cfg.cap && id !in s.ids
    ensures GetDepths(cfg, InitFeature(cfg, ops, s, l, id, depth).0) == GetDepths(cfg, s) + [Recip(InitialRho(cfg, depth))]
  {
    var r := InitFeature(cfg, ops, s, l, id, depth).0;
    var a := GetDepths(cfg, r);
    var b := GetDepths(cfg, s) + [Recip(InitialRho(cfg, depth))];
    forall j | 0 <= j < r.len
      ensures a[j] == b[j]
    {
      assert SlotAt(r.x, j) == SlotsOf(r.x, r.len)[j];
      if j < s.len {
        assert SlotsOf(r.x, r.len)[j] == SlotsOf(s.x, s.len)[j];
      }
    }
  }

  /** A feature initialised with a finite, non-zero depth reports that depth back. */
  lemma InitFeatureDepthRoundTrip(cfg: Config, ops: ManifoldOps, s: Ekf, l: Vec2, id: int, d: real)
    requires Wf(cfg, s) && s.len < cfg.cap && id !in s.ids && d != 0.0
    ensures var r := InitFeature(cfg, ops, s, l, id, Num(d)).0;
            id in r.ids && GetDepth(cfg, r, id) == Num(d)
  {
    var r := InitFeature(cfg, ops, s, l, id, Num(d)).0;
    assert LocalIndex(r, id) == s.len by {
      assert r.ids[s.len] == id;
      assert forall k :: 0 <= k < s.len ==> r.ids[k] == s.ids[k];
    }
    assert SlotAt(r.x, s.len) == SlotsOf(r.x, r.len)[s.len];
    assert SlotAt(r.x, s.len)[4] == Recip(Num(d));
    assert 1.0 / (1.0 / d) == d;
  }

  // ---------------------------------------------------------------------------
  // fix_depth

  /**
    The clamp fix_depth applies to one inverse depth and its variance, in the
    source's order: a NaN is first replaced by AVG_DEPTH; then a negative value
    is reset to AVG_DEPTH with (AVG_DEPTH - rho)^2 added to its variance, or a
    value above 100 is reset to AVG_DEPTH with its variance set to P0_feat(2,2).
   */
  function FixRho(cfg: Config, rho: Flt, variance: Flt): (r: (Flt, Flt))
    ensures rho.IsNaN() && !Lt(cfg.avgDepth, Zero) && !Gt(cfg.avgDepth, Num(100.0)) ==> r == (cfg.avgDepth, variance)
    ensures Lt(rho, Zero) ==> r == (cfg.avgDepth, Add(variance, Mul(Sub(cfg.avgDepth, rho), Sub(cfg.avgDepth, rho))))
    ensures Gt(rho, Num(100.0)) ==> r == (cfg.avgDepth, cfg.p0Feat.c)
    ensures !rho.IsNaN() && !Lt(rho, Zero) && !Gt(rho, Num(100.0)) ==> r == (rho, variance)
  {
    var r1 := if rho.IsNaN() then cfg.avgDepth else rho;
    if Lt(r1, Zero) then
      var err := Sub(cfg.avgDepth, r1);
      (cfg.avgDepth, Add(variance, Mul(err, err)))
    else if Gt(r1, Num(100.0)) then (cfg.avgDepth, cfg.p0Feat.c)
    else (r1, variance)
  }

  /** Whatever AVG_DEPTH is, a NaN inverse depth is clamped exactly as AVG_DEPTH itself would be. */
  lemma FixRhoNaNIsAvgDepth(cfg: Config, rho: Flt, variance: Flt)
    requires rho.IsNaN()
    ensures FixRho(cfg, rho, variance) == FixRho(cfg, cfg.avgDepth, variance)
  {
  }

  /** fix_depth's loop after its first k iterations. */
  function FixDepthUpTo(cfg: Config, x: seq<Flt>, p: seq<seq<Flt>>, k: nat): (r: (seq<Flt>, seq<seq<Flt>>))
    requires |x| == XMax(cfg.cap) && IsSquare(p, Side(cfg)) && k <= cfg.cap
    ensures |r.0| == |x| && IsSquare(r.1, Side(cfg))
    ensures forall j :: 0 <= j < k ==>
              (r.0[XRho(j)], r.1[DxRho(j)][DxRho(j)]) == FixRho(cfg, x[XRho(j)], p[DxRho(j)][DxRho(j)])
    ensures forall m :: 0 <= m < |x| && (forall j :: 0 <= j < k ==> m != XRho(j)) ==> r.0[m] == x[m]
    ensures forall a, b :: 0 <= a < Side(cfg) && 0 <= b < Side(cfg) && (a != b || forall j :: 0 <= j < k ==> a != DxRho(j))
              ==> r.1[a][b] == p[a][b]
  {
    if k == 0 then (x, p)
    else
      var prev := FixDepthUpTo(cfg, x, p, k - 1);
      var i := k - 1;
      var fixed := FixRho(cfg, prev.0[XRho(i)], prev.1[DxRho(i)][DxRho(i)]);
      (prev.0[XRho(i) := fixed.0], SetEntry(prev.1, Side(cfg), DxRho(i), DxRho(i), fixed.1))
  }

  /** `fix_depth()`: the clamp applied to every active inverse depth. */
  function FixDepth(cfg: Config, s: Ekf): (r: Ekf)
    requires Wf(cfg, s)
    ensures Wf(cfg, r)
    ensures r.len == s.len && r.ids == s.ids && r.nextId == s.nextId && r.prevT == s.prevT && r.startT == s.startT
    ensures forall j :: 0 <= j < s.len ==>
              (r.x[XRho(j)], r.p[DxRho(j)][DxRho(j)]) == FixRho(cfg, s.x[XRho(j)], s.p[DxRho(j)][DxRho(j)])
    ensures forall m :: 0 <= m < |s.x| && (forall j :: 0 <= j < s.len ==> m != XRho(j)) ==> r.x[m] == s.x[m]
    ensures forall a, b :: 0 <= a < Side(cfg) && 0 <= b < Side(cfg) && (a != b || forall j :: 0 <= j < s.len ==> a != DxRho(j))
              ==> r.p[a][b] == s.p[a][b]
  {
    var r := FixDepthUpTo(cfg, s.x, s.p, s.len);
    s.(x := r.0, p := r.1)
  }

  /** With AVG_DEPTH finite and in [0, 100], the clamp always yields a finite rho in [0, 100]. */
  lemma FixRhoInRange(cfg: Config, rho: Flt, variance: Flt)
    requires cfg.avgDepth.Num? && 0.0 <= cfg.avgDepth.v <= 100.0
    ensures var r := FixRho(cfg, rho, variance).0;
            !r.IsNaN() && !Lt(r, Zero) && !Gt(r, Num(100.0))
  {
  }

  /** With AVG_DEPTH in [0, 100], fix_depth is idempotent. */
  lemma FixDepthIdempotent(cfg: Config, s: Ekf)
    requires Wf(cfg, s) && cfg.avgDepth.Num? && 0.0 <= cfg.avgDepth.v <= 100.0
    ensures FixDepth(cfg, FixDepth(cfg, s)) == FixDepth(cfg, s)
  {
    var r := FixDepth(cfg, s);
    var r2 := FixDepth(cfg, r);
    forall j | 0 <= j < s.len
      ensures r2.x[XRho(j)] == r.x[XRho(j)] && r2.p[DxRho(j)][DxRho(j)] == r.p[DxRho(j)][DxRho(j)]
    {
      FixRhoInRange(cfg, s.x[XRho(j)], s.p[DxRho(j)][DxRho(j)]);
    }
    forall m | 0 <= m < |r.x|
      ensures r2.x[m] == r.x[m]
    {
      if exists j :: 0 <= j < s.len && m == XRho(j) {
        var j :| 0 <= j < s.len && m == XRho(j);
      }
    }
    forall a | 0 <= a < Side(cfg)
      ensures r2.p[a] == r.p[a]
    {
      forall b | 0 <= b < Side(cfg) ensures r2.p[a][b] == r.p[a][b]
      {
        if a == b && exists j :: 0 <= j < s.len && a == DxRho(j) {
          var j :| 0 <= j < s.len && a == DxRho(j);
        }
      }
    }
  }
}

=== FILE: featekf.dfy ===
/**
  The feature-tracking generation of the filter in src/vi_ekf/vi_ekf_feat.cpp.
  Every active slot carries a feature_t record (pixel, quality, frame count,
  global id) in features_; init_feature places a new slot from a pixel,
  clear_feature_state removes one and zeroes everything outside the active
  region, and manage_features prunes features that crowd each other, ages the
  survivors and asks for as many new features as there is room for.

  Pixels are exact reals (Keypoints.Point); image patches and the quality
  measure itself are outside the model, the quality enters as a number.
 */
module FeatEkf {
  import opened Flt
  import opened Buffers
  import opened Layout
  import opened Manifold
  import opened Slots
  import Camera
  import Keypoints
  import opened Estimator

  /** feature_t without its image patch. */
  datatype Feature = Feature(pix: Keypoints.Point, quality: real, frames: nat, globalId: int)

  /** The filter state together with features_, one record per active slot. */
  datatype Tracker = Tracker(ekf: Ekf, features: seq<Feature>)

  /** The global ids of a feature list, in order. */
  function GlobalIds(fs: seq<Feature>): (ids: seq<int>)
    ensures |ids| == |fs|
    ensures forall k :: 0 <= k < |fs| ==> ids[k] == fs[k].globalId
  {
    seq(|fs|, k requires 0 <= k < |fs| => fs[k].globalId)
  }

  /**
    The buffers are well formed, ids come from the counter, and the id list
    that global_to_local_feature_id searches is the list of the records' ids,
    so record k describes slot k.
   */
  ghost predicate TrackerWf(cfg: Config, t: Tracker)
  {
    && Wf(cfg, t.ekf)
    && IdsBelowCounter(t.ekf)
    && t.ekf.ids == GlobalIds(t.features)
  }

  /** Each feature record paired with its slot of x, in slot order. */
  function Entries(cfg: Config, t: Tracker): (e: seq<(Feature, seq<Flt>)>)
    requires TrackerWf(cfg, t)
    ensures |e| == |t.features| == t.ekf.len
    ensures forall k :: 0 <= k < |e| ==> e[k].0 == t.features[k] && |e[k].1| == 5
  {
    seq(|t.features|, k requires 0 <= k < |t.features| => (t.features[k], SlotAt(t.ekf.x, k)))
  }

  /** Record k of a well-formed tracker is found at local index k. */
  lemma LocalIndexOfRecord(cfg: Config, t: Tracker, k: nat)
    requires TrackerWf(cfg, t) && k < |t.features|
    ensures t.features[k].globalId in t.ekf.ids
    ensures LocalIndex(t.ekf, t.features[k].globalId) == k
  {
    assert t.ekf.ids[k] == t.features[k].globalId;
    var i := LocalIndex(t.ekf, t.features[k].globalId);
    if i != k {
      assert t.ekf.ids[i] == t.ekf.ids[k];
    }
  }

  /** Two records of a well-formed tracker at different slots differ. */
  lemma RecordsDiffer(cfg: Config, t: Tracker, a: nat, b: nat)
    requires TrackerWf(cfg, t) && a < |t.features| && b < |t.features| && a != b
    ensures t.features[a] != t.features[b]
  {
    assert t.ekf.ids[a] != t.ekf.ids[b];
  }

  // ---------------------------------------------------------------------------
  // Order-preserving subsequences

  /** idx picks a out of b: a[k] == b[idx[k]] along strictly increasing indices. */
  ghost predicate Picks<T>(idx: seq<nat>, a: seq<T>, b: seq<T>)
  {
    && |idx| == |a|
    && (forall k :: 0 <= k < |idx| ==> idx[k] < |b| && a[k] == b[idx[k]])
    && (forall k, l :: 0 <= k < l < |idx| ==> idx[k] < idx[l])
  }

  ghost predicate SubsequenceOf<T>(a: seq<T>, b: seq<T>)
  {
    exists idx :: Picks(idx, a, b)
  }

  lemma SubsequenceRefl<T>(s: seq<T>)
    ensures SubsequenceOf(s, s)
  {
    var idx: seq<nat> := seq(|s|, k requires 0 <= k < |s| => k);
    assert Picks(idx, s, s);
  }

  lemma DeleteAtSubsequence<T>(s: seq<T>, i: nat)
    requires i < |s|
    ensures SubsequenceOf(DeleteAt(s, i), s)
  {
    var idx: seq<nat> := seq(|s| - 1, k requires 0 <= k < |s| - 1 => if k < i then k else k + 1);
    assert Picks(idx, DeleteAt(s, i), s);
  }

  lemma SubsequenceTrans<T>(a: seq<T>, b: seq<T>, c: seq<T>)
    requires SubsequenceOf(a, b) && SubsequenceOf(b, c)
    ensures SubsequenceOf(a, c)
  {
    var i1 :| Picks(i1, a, b);
    var i2 :| Picks(i2, b, c);
    var idx: seq<nat> := seq(|a|, k requires 0 <= k < |a| => i2[i1[k]]);
    assert Picks(idx, a, c);
  }

  // ---------------------------------------------------------------------------
  // init_feature(z, depth)

  /** A pixel as the filter's scalar pair. */
  function PixelOf(z: Keypoints.Point): Vec2
  {
    Vec2(Num(z.x), Num(z.y))
  }

  /** The number of new features manage_features asks for: NUM_FEATURES - len_features_. */
  function NumNewFeatures(cfg: Config, t: Tracker): (n: int)
    requires TrackerWf(cfg, t)
    ensures n >= 0
    ensures n == 0 <==> t.ekf.len == cfg.cap
  {
    cfg.cap - t.ekf.len
  }

  /**
    `init_feature(z, depth)`: when full it refuses and changes nothing;
    otherwise it appends a record with global id next_feature_id_ and zero
    frames, and a slot holding the bearing of the pixel's ray and the initial
    inverse depth, with fresh covariance rows and columns.
   */
  function InitFeaturePixel(cfg: Config, ops: ManifoldOps, t: Tracker, z: Keypoints.Point, depth: Flt, quality: real): (r: (Tracker, bool))
    requires TrackerWf(cfg, t)
    ensures TrackerWf(cfg, r.0)
    ensures r.1 <==> NumNewFeatures(cfg, t) > 0
    ensures !r.1 ==> r.0 == t
    ensures r.1 ==>
              && r.0.ekf.len == t.ekf.len + 1
              && r.0.ekf.nextId == t.ekf.nextId + 1
              && t.ekf.nextId !in t.ekf.ids
              && Entries(cfg, r.0) == Entries(cfg, t)
                   + [(Feature(z, quality, 0, t.ekf.nextId),
                       ops.bearing(Camera.PixelRay(cfg.camera, PixelOf(z))).Elements() + [InitialRho(cfg, depth)])]
              && r.0.ekf.x[..XMax(t.ekf.len)] == t.ekf.x[..XMax(t.ekf.len)]
              && GrownBy(r.0.ekf.p, t.ekf.p, Side(cfg), t.ekf.len, P0FeatMatrix(cfg))
  {
    if t.ekf.len >= cfg.cap then (t, false)
    else
      var id := t.ekf.nextId;
      var f := Feature(z, quality, 0, id);
      var q := ops.bearing(Camera.PixelRay(cfg.camera, PixelOf(z)));
      var e := AddSlot(cfg, t.ekf, q, InitialRho(cfg, depth), id);
      var r := Tracker(e, t.features + [f]);
      assert GlobalIds(r.features) == GlobalIds(t.features) + [id];
      var lhs := Entries(cfg, r);
      var rhs := Entries(cfg, t) + [(f, q.Elements() + [InitialRho(cfg, depth)])];
      assert forall k :: 0 <= k < |lhs| ==> lhs[k] == rhs[k] by {
        forall k | 0 <= k < |lhs|
          ensures lhs[k] == rhs[k]
        {
          assert SlotAt(e.x, k) == SlotsOf(e.x, e.len)[k];
          if k < t.ekf.len {
            assert SlotAt(t.ekf.x, k) == SlotsOf(t.ekf.x, t.ekf.len)[k];
          }
        }
      }
      (r, true)
  }

  // ---------------------------------------------------------------------------
  // clear_feature_state(id)

  /**
    `clear_feature_state(id)`: the record and slot of id go, later slots move
    up, and x past the active slots and every P row and column past the
    active block are zeroed.
   */
  function ClearFeatureState(cfg: Config, t: Tracker, id: int): (r: Tracker)
    requires TrackerWf(cfg, t) && id in t.ekf.ids
    ensures TrackerWf(cfg, r)
    ensures r.ekf.len == t.ekf.len - 1 && r.ekf.nextId == t.ekf.nextId
    ensures r.features == DeleteAt(t.features, LocalIndex(t.ekf, id))
    ensures Entries(cfg, r) == DeleteAt(Entries(cfg, t), LocalIndex(t.ekf, id))
    ensures r.ekf.x[..xZ] == t.ekf.x[..xZ]
  {
    var i := LocalIndex(t.ekf, id);
    var c := ClearFeature(cfg, t.ekf, id);
    var r := Tracker(Tidy(cfg, c), DeleteAt(t.features, i));
    assert GlobalIds(r.features) == DeleteAt(t.ekf.ids, i);
    ClearedEntries(cfg, t, id, r);
    r
  }

  /** The clean-up at the end of clear_feature_state: zero x and P outside the active region. */
  function Tidy(cfg: Config, c: Ekf): (e: Ekf)
    requires Wf(cfg, c)
    ensures Wf(cfg, e) && e.ids == c.ids && e.len == c.len && e.nextId == c.nextId
    ensures e.prevT == c.prevT && e.startT == c.startT
    ensures e.x[..XMax(c.len)] == c.x[..XMax(c.len)]
    ensures forall k :: XMax(c.len) <= k < |e.x| ==> e.x[k] == Zero
    ensures forall a, b :: 0 <= a < Side(cfg) && 0 <= b < Side(cfg) ==>
              e.p[a][b] == (if a < DxMax(c.len) && b < DxMax(c.len) then c.p[a][b] else Zero)
  {
    ZeroInactiveEntries(c.x, c.p, Side(cfg), c.len);
    c.(x := ZeroInactiveX(c.x, c.len), p := ZeroInactiveP(c.p, Side(cfg), c.len))
  }

  /** Entry k of the tidied tracker is entry k, or k + 1 past the removed slot, of the old one. */
  lemma ClearedEntry(cfg: Config, t: Tracker, id: int, r: Tracker, k: nat)
    requires TrackerWf(cfg, t) && id in t.ekf.ids
    requires r == Tracker(Tidy(cfg, ClearFeature(cfg, t.ekf, id)), DeleteAt(t.features, LocalIndex(t.ekf, id)))
    requires TrackerWf(cfg, r) && k < r.ekf.len
    ensures Entries(cfg, r)[k] == DeleteAt(Entries(cfg, t), LocalIndex(t.ekf, id))[k]
  {
    var i := LocalIndex(t.ekf, id);
    var c := ClearFeature(cfg, t.ekf, id);
    assert SlotAt(r.ekf.x, k) == r.ekf.x[..XMax(c.len)][XZeta(k)..XZeta(k) + 5];
    assert SlotAt(r.ekf.x, k) == SlotAt(c.x, k);
    assert SlotAt(c.x, k) == SlotsOf(c.x, c.len)[k];
    if k < i {
      assert SlotsOf(t.ekf.x, t.ekf.len)[k] == SlotAt(t.ekf.x, k);
    } else {
      assert SlotsOf(t.ekf.x, t.ekf.len)[k + 1] == SlotAt(t.ekf.x, k + 1);
    }
  }

  lemma ClearedEntries(cfg: Config, t: Tracker, id: int, r: Tracker)
    requires TrackerWf(cfg, t) && id in t.ekf.ids
    requires r == Tracker(Tidy(cfg, ClearFeature(cfg, t.ekf, id)), DeleteAt(t.features, LocalIndex(t.ekf, id)))
    requires TrackerWf(cfg, r)
    ensures Entries(cfg, r) == DeleteAt(Entries(cfg, t), LocalIndex(t.ekf, id))
  {
    var lhs := Entries(cfg, r);
    var rhs := DeleteAt(Entries(cfg, t), LocalIndex(t.ekf, id));
    forall k | 0 <= k < |lhs|
      ensures lhs[k] == rhs[k]
    {
      ClearedEntry(cfg, t, id, r, k);
    }
  }

  /**
    clear_feature_state leaves zeros past the active slots of x and in every
    P row and column past the active block; inside it, P holds the old
    entries re-indexed around the removed slot.
   */
  lemma ClearFeatureStateZeroesTail(cfg: Config, t: Tracker, id: int)
    requires TrackerWf(cfg, t) && id in t.ekf.ids
    ensures var r := ClearFeatureState(cfg, t, id);
            var i := LocalIndex(t.ekf, id);
            && (forall k :: XMax(r.ekf.len) <= k < |r.ekf.x| ==> r.ekf.x[k] == Zero)
            && (forall a, b :: 0 <= a < Side(cfg) && 0 <= b < Side(cfg) ==>
                  r.ekf.p[a][b] == (if a < DxMax(r.ekf.len) && b < DxMax(r.ekf.len)
                                    then t.ekf.p[Skip(i, a)][Skip(i, b)]
                                    else Zero))
  {
  }

  /**
    clear_feature_state and clear_feature of src/vi_ekf.cpp agree on
    everything the filter reads: the id list, the active part of x and the
    active block of P. They differ only outside it, where clear_feature_state
    leaves zeros.
   */
  lemma ClearFeatureStateAgrees(cfg: Config, t: Tracker, id: int)
    requires TrackerWf(cfg, t) && id in t.ekf.ids
    ensures var r := ClearFeatureState(cfg, t, id);
            var c := ClearFeature(cfg, t.ekf, id);
            && r.ekf.ids == c.ids && r.ekf.len == c.len
            && r.ekf.x[..XMax(r.ekf.len)] == c.x[..XMax(c.len)]
            && TopLeft(r.ekf.p, Side(cfg), DxMax(r.ekf.len)) == TopLeft(c.p, Side(cfg), DxMax(c.len))
  {
    var r := ClearFeatureState(cfg, t, id);
    var c := ClearFeature(cfg, t.ekf, id);
    ZeroInactiveEntries(c.x, c.p, Side(cfg), c.len);
    var t1 := TopLeft(r.ekf.p, Side(cfg), DxMax(r.ekf.len));
    var t2 := TopLeft(c.p, Side(cfg), DxMax(c.len));
    forall a | 0 <= a < DxMax(c.len)
      ensures t1[a] == t2[a]
    {
    }
  }

  /** Clearing the feature that was just initialised gives back the records and slots of before. */
  lemma InitThenClearRestores(cfg: Config, ops: ManifoldOps, t: Tracker, z: Keypoints.Point, depth: Flt, quality: real)
    requires TrackerWf(cfg, t) && t.ekf.len < cfg.cap
    ensures var s := InitFeaturePixel(cfg, ops, t, z, depth, quality).0;
            t.ekf.nextId in s.ekf.ids &&
            var r := ClearFeatureState(cfg, s, t.ekf.nextId);
            r.features == t.features && Entries(cfg, r) == Entries(cfg, t)
  {
    var s := InitFeaturePixel(cfg, ops, t, z, depth, quality).0;
    var n := t.ekf.len;
    LocalIndexOfRecord(cfg, s, n);
    assert DeleteAt(s.features, n) == t.features;
    assert DeleteAt(Entries(cfg, s), n) == Entries(cfg, t);
  }

  /** Removing a slot right after adding it restores the active region of x and P. */
  lemma AddThenClearBuffers(cfg: Config, e: Ekf, q: Quat, rho: Flt, id: int)
    requires Wf(cfg, e) && e.len < cfg.cap && id !in e.ids
    ensures id in AddSlot(cfg, e, q, rho, id).ids
    ensures var c := ClearFeature(cfg, AddSlot(cfg, e, q, rho, id), id);
            && c.len == e.len
            && c.x[..XMax(e.len)] == e.x[..XMax(e.len)]
            && forall a, b :: 0 <= a < DxMax(e.len) && 0 <= b < DxMax(e.len) ==> c.p[a][b] == e.p[a][b]
  {
    var s := AddSlot(cfg, e, q, rho, id);
    assert s.ids[e.len] == id;
    assert LocalIndex(s, id) == e.len;
  }

  /**
    Clearing the feature that was just initialised gives back the active
    part of x and the active block of P of before.
   */
  lemma InitThenClearRestoresBuffers(cfg: Config, ops: ManifoldOps, t: Tracker, z: Keypoints.Point, depth: Flt, quality: real)
    requires TrackerWf(cfg, t) && t.ekf.len < cfg.cap
    ensures var s := InitFeaturePixel(cfg, ops, t, z, depth, quality).0;
            t.ekf.nextId in s.ekf.ids &&
            var r := ClearFeatureState(cfg, s, t.ekf.nextId);
            && r.ekf.x[..XMax(t.ekf.len)] == t.ekf.x[..XMax(t.ekf.len)]
            && TopLeft(r.ekf.p, Side(cfg), DxMax(t.ekf.len)) == TopLeft(t.ekf.p, Side(cfg), DxMax(t.ekf.len))
  {
    var n := t.ekf.len;
    var id := t.ekf.nextId;
    var q := ops.bearing(Camera.PixelRay(cfg.camera, PixelOf(z)));
    var rho := InitialRho(cfg, depth);
    var s := InitFeaturePixel(cfg, ops, t, z, depth, quality).0;
    assert s.ekf == AddSlot(cfg, t.ekf, q, rho, id);
    AddThenClearBuffers(cfg, t.ekf, q, rho, id);
    var c := ClearFeature(cfg, s.ekf, id);
    var r := ClearFeatureState(cfg, s, id);
    assert r.ekf == Tidy(cfg, c);
    var t1 := TopLeft(r.ekf.p, Side(cfg), DxMax(n));
    var t2 := TopLeft(t.ekf.p, Side(cfg), DxMax(n));
    forall a | 0 <= a < DxMax(n)
      ensures t1[a] == t2[a]
    {
      forall b | 0 <= b < DxMax(n)
        ensures t1[a][b] == t2[a][b]
      {
        assert r.ekf.p[a][b] == c.p[a][b];
      }
    }
  }

  // ---------------------------------------------------------------------------
  // manage_features: pruning

  /**
    `(p - q).norm() < radius`. The norm is the square root of the squared
    distance, so it lies below radius exactly when radius is positive and
    the squared distance lies below radius squared.
   */
  predicate Close(p: Keypoints.Point, q: Keypoints.Point, radius: real)
  {
    radius > 0.0 && (p.x - q.x) * (p.x - q.x) + (p.y - q.y) * (p.y - q.y) < radius * radius
  }

  lemma CloseSymmetric(p: Keypoints.Point, q: Keypoints.Point, radius: real)
    ensures Close(p, q, radius) == Close(q, p, radius)
  {
    assert (p.x - q.x) * (p.x - q.x) == (q.x - p.x) * (q.x - p.x);
    assert (p.y - q.y) * (p.y - q.y) == (q.y - p.y) * (q.y - p.y);
  }

  /** No two features of fs lie closer than radius. */
  ghost predicate Spaced(fs: seq<Feature>, radius: real)
  {
    forall a, b :: 0 <= a < |fs| && 0 <= b < |fs| && a != b ==> !Close(fs[a].pix, fs[b].pix, radius)
  }

  /** Of a close pair at it1 = a and it2 = b, the position erased: it1 when it has the lower quality, else it2. */
  function Loser(fs: seq<Feature>, a: nat, b: nat): (k: nat)
    requires a < |fs| && b < |fs|
    ensures k == a || k == b
    ensures k == a <==> fs[a].quality < fs[b].quality || a == b
  {
    if fs[a].quality < fs[b].quality then a else b
  }

  /**
    The pruning loop on the feature list alone, from outer position a and
    inner position b. it1 and it2 are positions in features_: erasing an
    element keeps every position and moves the later elements down by one.
    Erasing it1 restarts the inner loop; erasing it2 re-examines position b.
   */
  function PruneSeq(fs: seq<Feature>, radius: real, a: nat, b: nat): seq<Feature>
    decreases |fs|, |fs| - a, |fs| - b
  {
    if a >= |fs| then fs
    else if b >= |fs| then PruneSeq(fs, radius, a + 1, 0)
    else if a == b then PruneSeq(fs, radius, a, b + 1)
    else if Close(fs[a].pix, fs[b].pix, radius) then
      var gone := Loser(fs, a, b);
      PruneSeq(DeleteAt(fs, gone), radius, a, if gone == a then 0 else b)
    else PruneSeq(fs, radius, a, b + 1)
  }

  /** `clear_feature_state(features_[k].global_id)`: erases record and slot k. */
  function Erase(cfg: Config, t: Tracker, k: nat): (r: Tracker)
    requires TrackerWf(cfg, t) && k < |t.features|
    ensures TrackerWf(cfg, r)
    ensures r.features == DeleteAt(t.features, k)
    ensures r.ekf.nextId == t.ekf.nextId && r.ekf.x[..xZ] == t.ekf.x[..xZ]
    ensures Entries(cfg, r) == DeleteAt(Entries(cfg, t), k)
  {
    LocalIndexOfRecord(cfg, t, k);
    ClearFeatureState(cfg, t, t.features[k].globalId)
  }

  /**
    The pruning loop on the whole filter: the same walk as PruneSeq, where
    each erasure is a clear_feature_state of the loser's global id.
   */
  function PruneFrom(cfg: Config, t: Tracker, radius: real, a: nat, b: nat): (r: Tracker)
    requires TrackerWf(cfg, t)
    ensures TrackerWf(cfg, r)
    ensures r.ekf.nextId == t.ekf.nextId && r.ekf.x[..xZ] == t.ekf.x[..xZ]
    ensures r.features == PruneSeq(t.features, radius, a, b)
    ensures |r.features| <= |t.features|
    ensures SubsequenceOf(r.features, t.features)
    ensures SubsequenceOf(Entries(cfg, r), Entries(cfg, t))
    decreases |t.features|, |t.features| - a, |t.features| - b
  {
    var fs := t.features;
    if a >= |fs| then
      SubsequenceRefl(fs);
      SubsequenceRefl(Entries(cfg, t));
      t
    else if b >= |fs| then PruneFrom(cfg, t, radius, a + 1, 0)
    else if a == b then PruneFrom(cfg, t, radius, a, b + 1)
    else if Close(fs[a].pix, fs[b].pix, radius) then
      var gone := Loser(fs, a, b);
      var t1 := Erase(cfg, t, gone);
      var r := PruneFrom(cfg, t1, radius, a, if gone == a then 0 else b);
      DeleteAtSubsequence(fs, gone);
      DeleteAtSubsequence(Entries(cfg, t), gone);
      SubsequenceTrans(r.features, t1.features, fs);
      SubsequenceTrans(Entries(cfg, r), Entries(cfg, t1), Entries(cfg, t));
      r
    else PruneFrom(cfg, t, radius, a, b + 1)
  }

  /** The pruning loop of manage_features. */
  function Prune(cfg: Config, t: Tracker, radius: real): (r: Tracker)
    requires TrackerWf(cfg, t)
    ensures TrackerWf(cfg, r)
    ensures r.features == PruneSeq(t.features, radius, 0, 0)
    ensures SubsequenceOf(r.features, t.features)
    ensures SubsequenceOf(Entries(cfg, r), Entries(cfg, t))
  {
    PruneFrom(cfg, t, radius, 0, 0)
  }

  /** Every feature before position a has been compared with all others and is clear of them. */
  ghost predicate DoneBelow(fs: seq<Feature>, a: nat, radius: real)
  {
    forall d, j :: 0 <= d < a && d < |fs| && 0 <= j < |fs| && d != j ==> !Close(fs[d].pix, fs[j].pix, radius)
  }

  /** The feature at a is clear of every other feature before position b. */
  ghost predicate CheckedBelow(fs: seq<Feature>, a: nat, b: nat, radius: real)
    requires a < |fs|
  {
    forall j :: 0 <= j < b && j < |fs| && j != a ==> !Close(fs[a].pix, fs[j].pix, radius)
  }

  lemma DeleteKeepsDone(fs: seq<Feature>, a: nat, i: nat, radius: real)
    requires i < |fs| && a <= i && DoneBelow(fs, a, radius)
    ensures DoneBelow(DeleteAt(fs, i), a, radius)
  {
    var gs := DeleteAt(fs, i);
    forall d, j | 0 <= d < a && d < |gs| && 0 <= j < |gs| && d != j
      ensures !Close(gs[d].pix, gs[j].pix, radius)
    {
      assert gs[d] == fs[d];
      if j >= i {
        assert gs[j] == fs[j + 1];
      }
    }
  }

  /** Erasing the loser of a close pair keeps both loop invariants; the loser is never before a. */
  lemma EraseKeepsInvariants(fs: seq<Feature>, radius: real, a: nat, b: nat)
    requires a < |fs| && b < |fs| && a != b
    requires DoneBelow(fs, a, radius) && CheckedBelow(fs, a, b, radius)
    requires Close(fs[a].pix, fs[b].pix, radius)
    ensures a <= Loser(fs, a, b)
    ensures var gs := DeleteAt(fs, Loser(fs, a, b));
            && DoneBelow(gs, a, radius)
            && (a < |gs| ==> CheckedBelow(gs, a, if Loser(fs, a, b) == a then 0 else b, radius))
  {
    var gone := Loser(fs, a, b);
    DeleteKeepsDone(fs, a, gone, radius);
    var gs := DeleteAt(fs, gone);
    if gone == b && a < |gs| {
      forall j | 0 <= j < b && j < |gs| && j != a
        ensures !Close(gs[a].pix, gs[j].pix, radius)
      {
        assert gs[a] == fs[a] && gs[j] == fs[j];
      }
    }
  }

  /** After the walk from (a, b) with the loop invariants holding, no two survivors are close. */
  lemma {:induction false} PruneSeqSpaces(fs: seq<Feature>, radius: real, a: nat, b: nat)
    requires DoneBelow(fs, a, radius)
    requires a < |fs| ==> CheckedBelow(fs, a, b, radius)
    ensures Spaced(PruneSeq(fs, radius, a, b), radius)
    decreases |fs|, |fs| - a, |fs| - b
  {
    if a >= |fs| {
    } else if b >= |fs| {
      PruneSeqSpaces(fs, radius, a + 1, 0);
    } else if a == b {
      PruneSeqSpaces(fs, radius, a, b + 1);
    } else if Close(fs[a].pix, fs[b].pix, radius) {
      var gone := Loser(fs, a, b);
      EraseKeepsInvariants(fs, radius, a, b);
      PruneSeqSpaces(DeleteAt(fs, gone), radius, a, if gone == a then 0 else b);
    } else {
      PruneSeqSpaces(fs, radius, a, b + 1);
    }
  }

  /** After the pruning loop no two remaining features lie closer than radius. */
  lemma PruneSpaces(cfg: Config, t: Tracker, radius: real)
    requires TrackerWf(cfg, t)
    ensures Spaced(Prune(cfg, t, radius).features, radius)
  {
    PruneSeqSpaces(t.features, radius, 0, 0);
  }

  /** f is in fs and every other feature of fs has strictly lower quality. */
  ghost predicate Strongest(fs: seq<Feature>, f: Feature)
  {
    f in fs && forall k :: 0 <= k < |fs| && fs[k] != f ==> fs[k].quality < f.quality
  }

  lemma DeleteKeepsStrongest(fs: seq<Feature>, i: nat, f: Feature)
    requires i < |fs| && fs[i] != f && Strongest(fs, f)
    ensures Strongest(DeleteAt(fs, i), f)
  {
    var gs := DeleteAt(fs, i);
    var k :| 0 <= k < |fs| && fs[k] == f;
    if k < i {
      assert gs[k] == f;
    } else {
      assert gs[k - 1] == f;
    }
    forall j | 0 <= j < |gs| && gs[j] != f
      ensures gs[j].quality < f.quality
    {
      if j >= i {
        assert gs[j] == fs[j + 1];
      }
    }
  }

  /** The loser of two distinct positions is not the strongest feature, so erasing it keeps f strongest. */
  lemma LoserIsNotStrongest(fs: seq<Feature>, a: nat, b: nat, f: Feature)
    requires Distinct(fs) && Strongest(fs, f) && a < |fs| && b < |fs| && a != b
    ensures Distinct(DeleteAt(fs, Loser(fs, a, b))) && Strongest(DeleteAt(fs, Loser(fs, a, b)), f)
  {
    var gone := Loser(fs, a, b);
    assert fs[a] != fs[b];
    DeleteKeepsStrongest(fs, gone, f);
    DeleteAtKeepsDistinct(fs, gone);
  }

  /** A feature of strictly highest quality is never erased by the walk. */
  lemma {:induction false} StrongestSurvivesSeq(fs: seq<Feature>, radius: real, a: nat, b: nat, f: Feature)
    requires Distinct(fs) && Strongest(fs, f)
    ensures f in PruneSeq(fs, radius, a, b)
    decreases |fs|, |fs| - a, |fs| - b
  {
    if a >= |fs| {
    } else if b >= |fs| {
      StrongestSurvivesSeq(fs, radius, a + 1, 0, f);
    } else if a == b {
      StrongestSurvivesSeq(fs, radius, a, b + 1, f);
    } else if Close(fs[a].pix, fs[b].pix, radius) {
      var gone := Loser(fs, a, b);
      LoserIsNotStrongest(fs, a, b, f);
      StrongestSurvivesSeq(DeleteAt(fs, gone), radius, a, if gone == a then 0 else b, f);
    } else {
      StrongestSurvivesSeq(fs, radius, a, b + 1, f);
    }
  }

  /** A feature of strictly highest quality survives pruning. */
  lemma StrongestSurvives(cfg: Config, t: Tracker, radius: real, f: Feature)
    requires TrackerWf(cfg, t) && Strongest(t.features, f)
    ensures f in Prune(cfg, t, radius).features
  {
    forall i, j | 0 <= i < j < |t.features|
      ensures t.features[i] != t.features[j]
    {
      RecordsDiffer(cfg, t, i, j);
    }
    StrongestSurvivesSeq(t.features, radius, 0, 0, f);
  }

  /**
    Of two close features the one of higher quality stays; on equal quality
    the first one (it1) stays and the second (it2) goes.
   */
  lemma ClosePairKeepsBetter(cfg: Config, t: Tracker, radius: real)
    requires TrackerWf(cfg, t) && |t.features| == 2
    requires Close(t.features[0].pix, t.features[1].pix, radius)
    ensures Prune(cfg, t, radius).features ==
              [if t.features[0].quality < t.features[1].quality then t.features[1] else t.features[0]]
  {
    var fs := t.features;
    var gone := Loser(fs, 0, 1);
    var gs := DeleteAt(fs, gone);
    assert PruneSeq(fs, radius, 0, 0) == PruneSeq(fs, radius, 0, 1);
    assert PruneSeq(fs, radius, 0, 1) == PruneSeq(gs, radius, 0, if gone == 0 then 0 else 1);
    assert PruneSeq(gs, radius, 0, 0) == PruneSeq(gs, radius, 0, 1);
    assert PruneSeq(gs, radius, 0, 1) == PruneSeq(gs, radius, 1, 0) == gs;
  }

  /** Two features that are not close both stay. */
  lemma FarPairKeepsBoth(cfg: Config, t: Tracker, radius: real)
    requires TrackerWf(cfg, t) && |t.features| == 2
    requires !Close(t.features[0].pix, t.features[1].pix, radius)
    ensures Prune(cfg, t, radius).features == t.features
  {
    var fs := t.features;
    CloseSymmetric(fs[0].pix, fs[1].pix, radius);
    assert PruneSeq(fs, radius, 0, 0) == PruneSeq(fs, radius, 0, 1);
    assert PruneSeq(fs, radius, 0, 1) == PruneSeq(fs, radius, 0, 2);
    assert PruneSeq(fs, radius, 0, 2) == PruneSeq(fs, radius, 1, 0);
    assert PruneSeq(fs, radius, 1, 0) == PruneSeq(fs, radius, 1, 1);
    assert PruneSeq(fs, radius, 1, 1) == PruneSeq(fs, radius, 1, 2);
    assert PruneSeq(fs, radius, 1, 2) == PruneSeq(fs, radius, 2, 0) == fs;
  }

  // ---------------------------------------------------------------------------
  // manage_features: bookkeeping

  /**
    One frame of bookkeeping for a surviving feature: the frame count goes up
    by one and, every patchRefresh frames, the quality is recomputed at the
    feature's pixel (refresh stands for calculate_quality).
   */
  function Tick(f: Feature, patchRefresh: nat, refresh: Keypoints.Point -> real): (g: Feature)
    requires patchRefresh > 0
    ensures g.pix == f.pix && g.globalId == f.globalId && g.frames == f.frames + 1
    ensures g.frames % patchRefresh != 0 ==> g.quality == f.quality
  {
    var frames := f.frames + 1;
    f.(frames := frames, quality := if frames % patchRefresh == 0 then refresh(f.pix) else f.quality)
  }

  function Age(fs: seq<Feature>, patchRefresh: nat, refresh: Keypoints.Point -> real): (r: seq<Feature>)
    requires patchRefresh > 0
    ensures |r| == |fs|
    ensures forall k :: 0 <= k < |fs| ==> r[k] == Tick(fs[k], patchRefresh, refresh)
  {
    seq(|fs|, k requires 0 <= k < |fs| => Tick(fs[k], patchRefresh, refresh))
  }

  /** The records init_feature creates for the first m pixels of pts, numbered from id0. */
  function Fresh(pts: seq<Keypoints.Point>, refresh: Keypoints.Point -> real, id0: int, m: nat): (fs: seq<Feature>)
    requires m <= |pts|
    ensures |fs| == m
    ensures forall k :: 0 <= k < m ==> fs[k] == Feature(pts[k], refresh(pts[k]), 0, id0 + k)
  {
    seq(m, k requires 0 <= k < m => Feature(pts[k], refresh(pts[k]), 0, id0 + k))
  }

  lemma FreshSnoc(pts: seq<Keypoints.Point>, refresh: Keypoints.Point -> real, id0: int, m: nat)
    requires m < |pts|
    ensures Fresh(pts, refresh, id0, m + 1) == Fresh(pts, refresh, id0, m) + [Feature(pts[m], refresh(pts[m]), 0, id0 + m)]
  {
  }

  /** init_feature(pixel, NAN) as manage_features calls it, seen from the feature list. */
  function AddPixel(cfg: Config, ops: ManifoldOps, t: Tracker, z: Keypoints.Point, refresh: Keypoints.Point -> real): (r: Tracker)
    requires TrackerWf(cfg, t)
    ensures TrackerWf(cfg, r)
    ensures t.ekf.len == cfg.cap ==> r == t
    ensures t.ekf.len < cfg.cap ==>
              && r.ekf.len == t.ekf.len + 1
              && r.ekf.nextId == t.ekf.nextId + 1
              && r.features == t.features + [Feature(z, refresh(z), 0, t.ekf.nextId)]
              && r.ekf.x[..XMax(t.ekf.len)] == t.ekf.x[..XMax(t.ekf.len)]
  {
    var r := InitFeaturePixel(cfg, ops, t, z, NaN, refresh(z)).0;
    assert t.ekf.len < cfg.cap ==> r.features == t.features + [Feature(z, refresh(z), 0, t.ekf.nextId)] by {
      if t.ekf.len < cfg.cap {
        var e, e0 := Entries(cfg, r), Entries(cfg, t);
        assert |r.features| == |t.features| + 1;
        forall k | 0 <= k < |r.features|
          ensures r.features[k] == (t.features + [Feature(z, refresh(z), 0, t.ekf.nextId)])[k]
        {
          assert e[k].0 == r.features[k];
          if k < |t.features| { assert e0[k].0 == t.features[k]; }
        }
      }
    }
    r
  }

  /**
    The end of manage_features: init_feature(pixel, NAN) for each chosen
    keypoint in turn. Exactly min(|pts|, NUM_FEATURES - len) of them become
    features, in pixel order and numbered consecutively from
    next_feature_id_; the vehicle state and the existing slots stay.
   */
  method Seed(cfg: Config, ops: ManifoldOps, t: Tracker, pts: seq<Keypoints.Point>, refresh: Keypoints.Point -> real)
    returns (r: Tracker)
    requires TrackerWf(cfg, t)
    ensures TrackerWf(cfg, r)
    ensures var m := Keypoints.Min(|pts|, NumNewFeatures(cfg, t));
            && r.ekf.len == t.ekf.len + m
            && r.ekf.nextId == t.ekf.nextId + m
            && r.features == t.features + Fresh(pts, refresh, t.ekf.nextId, m)
            && r.ekf.x[..XMax(t.ekf.len)] == t.ekf.x[..XMax(t.ekf.len)]
  {
    r := t;
    var i := 0;
    while i < |pts|
      invariant i <= |pts|
      invariant TrackerWf(cfg, r)
      invariant var m := Keypoints.Min(i, cfg.cap - t.ekf.len);
                && r.ekf.len == t.ekf.len + m
                && r.ekf.nextId == t.ekf.nextId + m
                && r.features == t.features + Fresh(pts, refresh, t.ekf.nextId, m)
      invariant r.ekf.x[..XMax(t.ekf.len)] == t.ekf.x[..XMax(t.ekf.len)]
    {
      var r1 := AddPixel(cfg, ops, r, pts[i], refresh);
      if r.ekf.len < cfg.cap {
        FreshSnoc(pts, refresh, t.ekf.nextId, i);
        assert r1.ekf.x[..XMax(t.ekf.len)] == r1.ekf.x[..XMax(r.ekf.len)][..XMax(t.ekf.len)];
      }
      r, i := r1, i + 1;
    }
  }

  /**
    `manage_features` up to the keypoint search: prune, age the survivors,
    and return how many new features to look for.
   */
  function ManageFeatures(cfg: Config, t: Tracker, radius: real, patchRefresh: nat, refresh: Keypoints.Point -> real): (r: (Tracker, int))
    requires TrackerWf(cfg, t) && patchRefresh > 0
    ensures TrackerWf(cfg, r.0)
    ensures Spaced(r.0.features, radius)
    ensures r.1 == NumNewFeatures(cfg, r.0) && r.1 >= cfg.cap - t.ekf.len
    ensures SubsequenceOf(GlobalIds(r.0.features), GlobalIds(t.features))
    ensures forall k :: 0 <= k < |r.0.features| ==>
              exists j :: 0 <= j < |t.features| && r.0.features[k] == Tick(t.features[j], patchRefresh, refresh)
  {
    var p := Prune(cfg, t, radius);
    PruneSpaces(cfg, t, radius);
    var aged := Age(p.features, patchRefresh, refresh);
    var r := Tracker(p.ekf, aged);
    assert GlobalIds(aged) == GlobalIds(p.features);
    assert SubsequenceOf(GlobalIds(aged), GlobalIds(t.features))
           && forall k :: 0 <= k < |aged| ==>
                exists j :: 0 <= j < |t.features| && aged[k] == Tick(t.features[j], patchRefresh, refresh) by {
      var idx :| Picks(idx, p.features, t.features);
      assert Picks(idx, GlobalIds(p.features), GlobalIds(t.features));
      forall k | 0 <= k < |aged|
        ensures exists j :: 0 <= j < |t.features| && aged[k] == Tick(t.features[j], patchRefresh, refresh)
      {
        assert aged[k] == Tick(t.features[idx[k]], patchRefresh, refresh);
      }
    }
    (r, NumNewFeatures(cfg, r))
  }
}

=== FILE: flt.dfy ===
/**
  Double-precision values as the estimator sees them: an exact real, NaN, or
  a signed infinity. Rounding and signed zero are not modelled; the special
  values follow IEEE 754 (NaN absorbs, NaN compares false with everything,
  inf - inf and inf * 0 are NaN, 1/0 is +inf).
 */
module Flt {

  datatype Flt = Num(v: real) | NaN | Inf(neg: bool)
  {
    /** `x != x` in the source: true exactly for NaN. */
    predicate IsNaN() { NaN? }

    predicate IsFinite() { Num? }
  }

  const Zero: Flt := Num(0.0)
  const One: Flt := Num(1.0)

  function Neg(a: Flt): (r: Flt)
    ensures a.IsNaN() <==> r.IsNaN()
    ensures a.Num? ==> r == Num(-a.v)
  {
    match a
    case Num(x) => Num(-x)
    case NaN => NaN
    case Inf(n) => Inf(!n)
  }

  function Add(a: Flt, b: Flt): (r: Flt)
    ensures a.IsNaN() || b.IsNaN() ==> r.IsNaN()
    ensures a.Num? && b.Num? ==> r == Num(a.v + b.v)
  {
    match (a, b)
    case (NaN, _) => NaN
    case (_, NaN) => NaN
    case (Inf(n), Inf(m)) => if n == m then Inf(n) else NaN
    case (Inf(n), Num(_)) => Inf(n)
    case (Num(_), Inf(m)) => Inf(m)
    case (Num(x), Num(y)) => Num(x + y)
  }

  function Sub(a: Flt, b: Flt): Flt
  {
    Add(a, Neg(b))
  }

  function Mul(a: Flt, b: Flt): (r: Flt)
    ensures a.IsNaN() || b.IsNaN() ==> r.IsNaN()
    ensures a.Num? && b.Num? ==> r == Num(a.v * b.v)
  {
    if a.NaN? || b.NaN? then NaN
    else if a.Num? && b.Num? then Num(a.v * b.v)
    else if a.Inf? && b.Inf? then Inf(a.neg != b.neg)
    else if a.Inf? then (if b.v == 0.0 then NaN else Inf(a.neg != (b.v < 0.0)))
    else if a.v == 0.0 then NaN else Inf(b.neg != (a.v < 0.0))
  }

  /** `1.0 / a`; a zero divisor is taken as +0, so the quotient is +inf. */
  function Recip(a: Flt): (r: Flt)
    ensures a.IsNaN() <==> r.IsNaN()
    ensures a.Num? && a.v != 0.0 ==> r == Num(1.0 / a.v)
    ensures a == Zero ==> r == Inf(false)
  {
    match a
    case NaN => NaN
    case Inf(_) => Zero
    case Num(x) => if x == 0.0 then Inf(false) else Num(1.0 / x)
  }

  /** `a / b`, as the product with the reciprocal (exact for reals, same special values). */
  function Div(a: Flt, b: Flt): (r: Flt)
    ensures a.IsNaN() || b.IsNaN() ==> r.IsNaN()
    ensures a.Num? && b.Num? && b.v != 0.0 ==> r == Num(a.v / b.v)
  {
    Mul(a, Recip(b))
  }

  /** `a < b`; false whenever either side is NaN. */
  predicate Lt(a: Flt, b: Flt)
  {
    match (a, b)
    case (NaN, _) => false
    case (_, NaN) => false
    case (Inf(n), Inf(m)) => n && !m
    case (Inf(n), Num(_)) => n
    case (Num(_), Inf(m)) => !m
    case (Num(x), Num(y)) => x < y
  }

  predicate Gt(a: Flt, b: Flt)
  {
    Lt(b, a)
  }

  lemma LtIsStrictOrder(a: Flt, b: Flt)
    ensures !(Lt(a, b) && Lt(b, a))
    ensures !Lt(a, a)
    ensures a.IsNaN() || b.IsNaN() ==> !Lt(a, b) && !Lt(b, a)
  {
  }

  lemma AddComm(a: Flt, b: Flt)
    ensures Add(a, b) == Add(b, a)
  {
  }

  lemma MulComm(a: Flt, b: Flt)
    ensures Mul(a, b) == Mul(b, a)
  {
  }

  /** The two-sided triple product used by G Qu G^T is symmetric for finite factors. */
  lemma MulSwapOuter(a: Flt, q: Flt, b: Flt)
    requires a.Num? && q.Num? && b.Num?
    ensures Mul(Mul(a, q), b) == Mul(Mul(b, q), a)
  {
    assert (a.v * q.v) * b.v == (b.v * q.v) * a.v;
  }

  /** Adding and then subtracting the same finite value is exact in this model. */
  lemma AddSubCancel(x: Flt, d: Flt)
    requires x.Num? && d.Num?
    ensures Sub(Add(x, d), x) == d
  {
  }

  lemma AddZero(x: Flt)
    ensures x.Num? ==> Add(x, Zero) == x
    ensures !x.Num? ==> Add(x, Zero) == x
  {
  }
}

=== FILE: keypoints.dfy ===
/**
  choose_keypoints of src/vi_ekf/vi_ekf_feat.cpp. Keypoints sorted by
  descending response are kept greedily: a keypoint survives unless an
  already-kept one in its own or a neighbouring grid cell lies at squared
  distance below md2. The first num_new_points survivors are returned.
  Coordinates are exact reals; the source's float rounding is not modelled.
 */
module Keypoints {

  datatype Point = Point(x: real, y: real)

  /** The fields of cv::KeyPoint the selection reads: position and response. */
  datatype Keypoint = Keypoint(pt: Point, response: real)

  // ---------------------------------------------------------------------------
  // Sorting by descending response

  ghost predicate Descending(s: seq<Keypoint>)
  {
    forall i, j :: 0 <= i < j < |s| ==> s[i].response >= s[j].response
  }

  /** Inserts k before the first entry of s with a smaller response. */
  function Insert(k: Keypoint, s: seq<Keypoint>): (r: seq<Keypoint>)
    requires Descending(s)
    ensures Descending(r)
    ensures multiset(r) == multiset(s) + multiset{k}
    ensures forall v :: v in r <==> v == k || v in s
  {
    if |s| == 0 || k.response > s[0].response then [k] + s
    else
      var rest := Insert(k, s[1..]);
      InsertBelowHead(k, s, rest);
      [s[0]] + rest
  }

  /** Putting the head of s back in front of k inserted into the tail keeps the order. */
  lemma InsertBelowHead(k: Keypoint, s: seq<Keypoint>, rest: seq<Keypoint>)
    requires |s| > 0 && Descending(s) && k.response <= s[0].response
    requires Descending(rest) && multiset(rest) == multiset(s[1..]) + multiset{k}
    requires forall v :: v in rest <==> v == k || v in s[1..]
    ensures var r := [s[0]] + rest;
            Descending(r) && multiset(r) == multiset(s) + multiset{k} && forall v :: v in r <==> v == k || v in s
  {
    assert s == [s[0]] + s[1..];
    forall v | v in rest ensures v.response <= s[0].response
    {
      if v != k {
        var j :| 0 <= j < |s[1..]| && s[1..][j] == v;
        assert s[j + 1] == v;
      }
    }
    var r := [s[0]] + rest;
    forall a, b | 0 <= a < b < |r| ensures r[a].response >= r[b].response
    {
      if a == 0 {
        assert r[b] == rest[b - 1] && r[b] in rest;
      } else {
        assert r[a] == rest[a - 1] && r[b] == rest[b - 1];
      }
    }
    assert multiset(r) == multiset{s[0]} + multiset(rest);
  }

  /** `std::sort(keypoints, keypoint_sort_key())`: a descending permutation of the input. */
  function SortByResponse(s: seq<Keypoint>): (r: seq<Keypoint>)
    ensures Descending(r)
    ensures multiset(r) == multiset(s)
  {
    if |s| == 0 then []
    else
      assert s == [s[0]] + s[1..];
      Insert(s[0], SortByResponse(s[1..]))
  }

  // ---------------------------------------------------------------------------
  // The grid

  /** C's `(int)v`: truncation toward zero. */
  function Trunc(v: real): int
  {
    if v >= 0.0 then v.Floor else -((-v).Floor)
  }

  /** C's integer division by a positive divisor: truncation toward zero. */
  function CDiv(a: int, b: nat): int
    requires b >= 1
  {
    if a >= 0 then a / b else -((-a) / b)
  }

  /** cell_size, grid_width and grid_height. */
  datatype Geometry = Geometry(cs: nat, gw: nat, gh: nat)

  /** The grid for a detection radius of at least 1 and an image of the given size. */
  function GeometryOf(radius: real, width: nat, height: nat): (g: Geometry)
    requires radius >= 1.0
    ensures GridFor(g, width, height)
  {
    var cs := radius.Floor;
    Geometry(cs, CDiv(width + cs - 1, cs), CDiv(height + cs - 1, cs))
  }

  /** g partitions a width-by-height image into cells of side cs, rounding up. */
  ghost predicate GridFor(g: Geometry, width: nat, height: nat)
  {
    && g.cs >= 1
    && g.gw == (width + g.cs - 1) / g.cs
    && g.gh == (height + g.cs - 1) / g.cs
  }

  /** `(int)v / cell_size`. */
  function Cell(v: real, cs: nat): int
    requires cs >= 1
  {
    CDiv(Trunc(v), cs)
  }

  /** The flat index `y_cell * grid_width + x_cell` of the cell p falls in. */
  function FlatCell(g: Geometry, p: Point): int
    requires g.cs >= 1
  {
    Cell(p.y, g.cs) * g.gw + Cell(p.x, g.cs)
  }

  ghost predicate InImage(p: Point, width: nat, height: nat)
  {
    0.0 <= p.x < width as real && 0.0 <= p.y < height as real
  }

  /** The cells of a and b are the same or neighbours, diagonals included. */
  predicate Adjacent(cs: nat, a: Point, b: Point)
    requires cs >= 1
  {
    && -1 <= Cell(a.x, cs) - Cell(b.x, cs) <= 1
    && -1 <= Cell(a.y, cs) - Cell(b.y, cs) <= 1
  }

  function Dist2(a: Point, b: Point): real
  {
    (a.x - b.x) * (a.x - b.x) + (a.y - b.y) * (a.y - b.y)
  }

  // ---------------------------------------------------------------------------
  // The greedy selection, as a reference definition

  /** Some kept keypoint in a neighbouring cell of pts[i] lies closer than md2. */
  predicate Conflict(pts: seq<Keypoint>, kept: seq<nat>, i: nat, cs: nat, md2: real)
    requires i < |pts| && cs >= 1
  {
    exists k :: 0 <= k < |kept| && kept[k] < |pts| && Adjacent(cs, pts[kept[k]].pt, pts[i].pt)
                && Dist2(pts[i].pt, pts[kept[k]].pt) < md2
  }

  /** The indices among the first n keypoints that the greedy pass keeps, in order. */
  function Greedy(pts: seq<Keypoint>, cs: nat, md2: real, n: nat): (kept: seq<nat>)
    requires n <= |pts| && cs >= 1
    ensures forall k :: 0 <= k < |kept| ==> kept[k] < n
    ensures forall a, b :: 0 <= a < b < |kept| ==> kept[a] < kept[b]
  {
    if n == 0 then []
    else
      var prev := Greedy(pts, cs, md2, n - 1);
      if Conflict(pts, prev, n - 1, cs, md2) then prev else prev + [n - 1]
  }

  function Gather(pts: seq<Keypoint>, idx: seq<nat>): (r: seq<Keypoint>)
    requires forall k :: 0 <= k < |idx| ==> idx[k] < |pts|
    ensures |r| == |idx| && forall k :: 0 <= k < |idx| ==> r[k] == pts[idx[k]]
  {
    seq(|idx|, k requires 0 <= k < |idx| => pts[idx[k]])
  }

  /** Every keypoint when the radius is below 1; otherwise the greedy survivors. */
  function Survivors(pts: seq<Keypoint>, width: nat, height: nat, radius: real, md2: real): seq<Keypoint>
  {
    if radius >= 1.0 then Gather(pts, Greedy(pts, GeometryOf(radius, width, height).cs, md2, |pts|)) else pts
  }

  /**
    The final pop_back loop: the first n entries. A negative n converts to a
    huge size_t in the comparison, so nothing is removed.
   */
  function Take<T>(s: seq<T>, n: int): (r: seq<T>)
    ensures n >= 0 ==> |r| == if n < |s| then n else |s|
    ensures n < 0 ==> r == s
    ensures r == s[..|r|]
  {
    if 0 <= n < |s| then s[..n] else s
  }

  // ---------------------------------------------------------------------------
  // The grid-accelerated pass

  /** The kept points whose cell has flat index c, in the order they were kept. */
  function CellPoints(pts: seq<Keypoint>, kept: seq<nat>, g: Geometry, c: int): (r: seq<Point>)
    requires g.cs >= 1 && forall k :: 0 <= k < |kept| ==> kept[k] < |pts|
  {
    if |kept| == 0 then []
    else
      var last := pts[kept[|kept| - 1]].pt;
      CellPoints(pts, kept[..|kept| - 1], g, c) + (if FlatCell(g, last) == c then [last] else [])
  }

  /** Entry j of grid cell (xx, yy) is closer to p than md2. */
  predicate Hit(grid: seq<seq<Point>>, g: Geometry, p: Point, md2: real, xx: int, yy: int, j: int)
  {
    && 0 <= xx < g.gw && 0 <= yy < g.gh && |grid| == g.gw * g.gh
    && (FlatInRange(g, xx, yy);
        0 <= j < |grid[yy * g.gw + xx]| && Dist2(p, grid[yy * g.gw + xx][j]) < md2)
  }

  /**
    The neighbourhood scan: cells x1..x2 by y1..y2, stopping at the first
    point closer than md2 (the `goto break_out`).
   */
  method Search(grid: seq<seq<Point>>, g: Geometry, p: Point, x1: int, x2: int, y1: int, y2: int, md2: real)
    returns (found: bool)
    requires |grid| == g.gw * g.gh && 0 <= x1 && x2 < g.gw && 0 <= y1 && y2 < g.gh
    ensures found <==> exists xx, yy, j :: x1 <= xx <= x2 && y1 <= yy <= y2 && Hit(grid, g, p, md2, xx, yy, j)
  {
    var yy := y1;
    while yy <= y2
      invariant y1 <= yy && (y1 <= y2 ==> yy <= y2 + 1)
      invariant forall a, b, j :: x1 <= a <= x2 && y1 <= b < yy ==> !Hit(grid, g, p, md2, a, b, j)
    {
      var xx := x1;
      while xx <= x2
        invariant x1 <= xx && (x1 <= x2 ==> xx <= x2 + 1)
        invariant forall a, b, j :: x1 <= a <= x2 && y1 <= b < yy ==> !Hit(grid, g, p, md2, a, b, j)
        invariant forall a, j :: x1 <= a < xx ==> !Hit(grid, g, p, md2, a, yy, j)
      {
        FlatInRange(g, xx, yy);
        var m := grid[yy * g.gw + xx];
        var j := 0;
        while j < |m|
          invariant 0 <= j <= |m|
          invariant forall jj :: 0 <= jj < j ==> !Hit(grid, g, p, md2, xx, yy, jj)
        {
          var dx := p.x - m[j].x;
          var dy := p.y - m[j].y;
          if dx * dx + dy * dy < md2 {
            assert Hit(grid, g, p, md2, xx, yy, j);
            return true;
          }
          j := j + 1;
        }
        assert forall jj :: !Hit(grid, g, p, md2, xx, yy, jj);
        xx := xx + 1;
      }
      yy := yy + 1;
    }
    return false;
  }

  /**
    The selection on keypoints already sorted: the greedy grid pass when the
    radius is at least 1, every keypoint otherwise, then the first n.
   */
  method Select(pts: seq<Keypoint>, width: nat, height: nat, n: int, radius: real, md2: real)
    returns (good: seq<Keypoint>)
    requires radius >= 1.0 ==> forall i :: 0 <= i < |pts| ==> InImage(pts[i].pt, width, height)
    ensures good == Take(Survivors(pts, width, height, radius, md2), n)
  {
    if radius >= 1.0 {
      good := GridPass(pts, width, height, radius, md2);
    } else {
      good := pts;
    }
    good := PopBack(good, n);
  }

  /**
    The grid pass over keypoints sorted by response. Every grid index it
    reads or writes is in range because every keypoint lies in the image.
   */
  method GridPass(pts: seq<Keypoint>, width: nat, height: nat, radius: real, md2: real)
    returns (good: seq<Keypoint>)
    requires radius >= 1.0 && forall i :: 0 <= i < |pts| ==> InImage(pts[i].pt, width, height)
    ensures good == Gather(pts, Greedy(pts, GeometryOf(radius, width, height).cs, md2, |pts|))
  {
    var g := GeometryOf(radius, width, height);
    var grid: seq<seq<Point>> := seq(g.gw * g.gh, _ => []);
    ghost var kept: seq<nat> := [];
    good := [];
    for i := 0 to |pts|
      invariant kept == Greedy(pts, g.cs, md2, i)
      invariant good == Gather(pts, kept)
      invariant GridHolds(pts, kept, grid, g, width, height)
    {
      grid, good, kept := Visit(pts, width, height, g, md2, i, grid, good, kept);
    }
  }

  /** Gathering one more index appends that keypoint. */
  lemma GatherSnoc(pts: seq<Keypoint>, idx: seq<nat>, i: nat)
    requires (forall k :: 0 <= k < |idx| ==> idx[k] < |pts|) && i < |pts|
    ensures Gather(pts, idx + [i]) == Gather(pts, idx) + [pts[i]]
  {
  }

  /** One iteration of the grid pass: keypoint i is kept unless its neighbourhood scan hits. */
  method Visit(pts: seq<Keypoint>, width: nat, height: nat, g: Geometry, md2: real, i: nat,
               grid: seq<seq<Point>>, good: seq<Keypoint>, ghost kept: seq<nat>)
    returns (grid': seq<seq<Point>>, good': seq<Keypoint>, ghost kept': seq<nat>)
    requires GridHolds(pts, kept, grid, g, width, height) && i < |pts|
    requires kept == Greedy(pts, g.cs, md2, i) && good == Gather(pts, kept)
    ensures kept' == Greedy(pts, g.cs, md2, i + 1) && good' == Gather(pts, kept')
    ensures good' == Gather(pts, Greedy(pts, g.cs, md2, i + 1))
    ensures GridHolds(pts, kept', grid', g, width, height)
  {
    var p := pts[i].pt;
    var xCell, yCell := Cell(p.x, g.cs), Cell(p.y, g.cs);
    CellInGrid(g, width, height, p);
    var x1, y1 := Max(0, xCell - 1), Max(0, yCell - 1);
    var x2, y2 := Min(g.gw - 1, xCell + 1), Min(g.gh - 1, yCell + 1);
    var found := Search(grid, g, p, x1, x2, y1, y2, md2);
    SearchFindsConflict(pts, kept, grid, g, width, height, i, md2);
    if !found {
      KeepExtendsGrid(pts, kept, grid, g, width, height, i);
      var c := yCell * g.gw + xCell;
      grid' := grid[c := grid[c] + [p]];
      good' := good + [pts[i]];
      kept' := kept + [i];
      assert kept' == Greedy(pts, g.cs, md2, i + 1);
      GatherSnoc(pts, kept, i);
    } else {
      grid', good', kept' := grid, good, kept;
      assert kept' == Greedy(pts, g.cs, md2, i + 1);
    }
  }

  /** The closing `while (good.size() > n) good.pop_back()`. */
  method PopBack<T>(all: seq<T>, n: int) returns (good: seq<T>)
    ensures good == Take(all, n)
  {
    good := all;
    while n >= 0 && |good| > n
      invariant good == all[..|good|]
      invariant n >= 0 && n < |all| ==> n <= |good|
      invariant n < 0 || |all| <= n ==> good == all
      decreases |good|
    {
      good := good[..|good| - 1];
    }
  }

  function Max(a: int, b: int): int { if a >= b then a else b }

  function Min(a: int, b: int): int { if a <= b then a else b }

  /**
    `choose_keypoints(keypoints, good, width, height, num_new_points)` with
    md2 the square of the current detection radius.
   */
  method ChooseKeypoints(keypoints: seq<Keypoint>, width: nat, height: nat, n: int, radius: real)
    returns (good: seq<Keypoint>)
    requires radius >= 1.0 ==> forall i :: 0 <= i < |keypoints| ==> InImage(keypoints[i].pt, width, height)
    ensures good == Take(Survivors(SortByResponse(keypoints), width, height, radius, radius * radius), n)
    ensures n >= 0 ==> |good| <= n
    ensures multiset(good) <= multiset(keypoints)
    ensures Descending(good)
  {
    var sorted := SortByResponse(keypoints);
    SortedStaysInImage(keypoints, sorted, width, height);
    good := Select(sorted, width, height, n, radius, radius * radius);
    SurvivorsAreSubsequence(sorted, width, height, radius, radius * radius, n);
  }

  /**
    choose_keypoints exactly as written: md2 is a function-local static,
    set to the square of the radius of the first call with a radius of at
    least 1 (the static sits inside that branch) and never updated.
   */
  method ChooseKeypointsAsWritten(keypoints: seq<Keypoint>, width: nat, height: nat, n: int, radius: real, firstRadius: real)
    returns (good: seq<Keypoint>)
    requires radius >= 1.0 ==> forall i :: 0 <= i < |keypoints| ==> InImage(keypoints[i].pt, width, height)
    ensures good == Take(Survivors(SortByResponse(keypoints), width, height, radius, firstRadius * firstRadius), n)
    ensures n >= 0 ==> |good| <= n
  {
    var sorted := SortByResponse(keypoints);
    SortedStaysInImage(keypoints, sorted, width, height);
    good := Select(sorted, width, height, n, radius, firstRadius * firstRadius);
  }

  // ---------------------------------------------------------------------------
  // Grid arithmetic

  /** A cell inside the grid has a flat index inside the grid. */
  lemma FlatInRange(g: Geometry, xx: int, yy: int)
    requires 0 <= xx < g.gw && 0 <= yy < g.gh
    ensures 0 <= yy * g.gw + xx < g.gw * g.gh
  {
    assert yy * g.gw <= (g.gh - 1) * g.gw;
  }

  /** Flat indices of cells inside the grid are distinct. */
  lemma FlatInjective(gw: nat, x1: int, y1: int, x2: int, y2: int)
    requires 0 <= x1 < gw && 0 <= x2 < gw && 0 <= y1 && 0 <= y2
    requires y1 * gw + x1 == y2 * gw + x2
    ensures x1 == x2 && y1 == y2
  {
    MulMono(y1 + 1, y2, gw);
    MulMono(y2 + 1, y1, gw);
  }

  /** Multiplying by a non-negative factor keeps order. */
  lemma MulMono(a: int, b: int, c: int)
    ensures a <= b && c >= 0 ==> a * c <= b * c
  {
    if a <= b && c >= 0 {
      assert b * c - a * c == (b - a) * c;
    }
  }

  /** Euclidean division by a positive divisor brackets the dividend. */
  lemma DivBounds(a: int, cs: nat)
    requires cs >= 1
    ensures cs * (a / cs) <= a < cs * (a / cs) + cs
  {
  }

  /** For a point of the image, the cell coordinate is floor(v) / cs. */
  lemma CellOfImagePoint(v: real, cs: nat)
    requires v >= 0.0 && cs >= 1
    ensures Cell(v, cs) == v.Floor / cs && v.Floor >= 0
  {
  }

  /** The cell of a point of the image lies in the grid, as does its flat index. */
  lemma CellInGrid(g: Geometry, width: nat, height: nat, p: Point)
    requires GridFor(g, width, height) && InImage(p, width, height)
    ensures 0 <= Cell(p.x, g.cs) < g.gw && 0 <= Cell(p.y, g.cs) < g.gh
    ensures 0 <= FlatCell(g, p) < g.gw * g.gh
  {
    CellBelow(p.x, width, g.cs);
    CellBelow(p.y, height, g.cs);
    FlatInRange(g, Cell(p.x, g.cs), Cell(p.y, g.cs));
  }

  /** 0 <= v < w gives 0 <= floor(v) / cs < (w + cs - 1) / cs. */
  lemma CellBelow(v: real, w: nat, cs: nat)
    requires 0.0 <= v < w as real && cs >= 1
    ensures 0 <= Cell(v, cs) < (w + cs - 1) / cs
  {
    CellOfImagePoint(v, cs);
    var f := v.Floor;
    var c := f / cs;
    var top := (w + cs - 1) / cs;
    DivBounds(f, cs);
    DivBounds(w + cs - 1, cs);
    assert f <= w - 1;
    MulMono(top, c, cs);
    assert top * cs == cs * top && c * cs == cs * c;
  }

  // ---------------------------------------------------------------------------
  // The grid pass finds exactly the greedy conflicts

  /** A point lies in cell c's list exactly when some kept keypoint in cell c is at it. */
  lemma {:induction false} InCellPoints(pts: seq<Keypoint>, kept: seq<nat>, g: Geometry, c: int, q: Point)
    requires g.cs >= 1 && forall k :: 0 <= k < |kept| ==> kept[k] < |pts|
    ensures q in CellPoints(pts, kept, g, c) <==>
              exists k :: 0 <= k < |kept| && FlatCell(g, pts[kept[k]].pt) == c && pts[kept[k]].pt == q
  {
    if |kept| > 0 {
      var init := kept[..|kept| - 1];
      InCellPoints(pts, init, g, c, q);
      if q in CellPoints(pts, init, g, c) {
        var k :| 0 <= k < |init| && FlatCell(g, pts[init[k]].pt) == c && pts[init[k]].pt == q;
        assert kept[k] == init[k];
      }
      if exists k :: 0 <= k < |kept| && FlatCell(g, pts[kept[k]].pt) == c && pts[kept[k]].pt == q {
        var k :| 0 <= k < |kept| && FlatCell(g, pts[kept[k]].pt) == c && pts[kept[k]].pt == q;
        if k < |init| {
          assert init[k] == kept[k];
        }
      }
    }
  }

  /** The grid holds, cell by cell, the kept keypoints of an image. */
  ghost predicate GridHolds(pts: seq<Keypoint>, kept: seq<nat>, grid: seq<seq<Point>>, g: Geometry, width: nat, height: nat)
  {
    && GridFor(g, width, height)
    && (forall k :: 0 <= k < |pts| ==> InImage(pts[k].pt, width, height))
    && (forall k :: 0 <= k < |kept| ==> kept[k] < |pts|)
    && |grid| == g.gw * g.gh
    && (forall c :: 0 <= c < |grid| ==> grid[c] == CellPoints(pts, kept, g, c))
  }

  /** The clamped 3x3 window of cells around p. */
  ghost predicate InWindow(g: Geometry, p: Point, xx: int, yy: int)
    requires g.cs >= 1
  {
    && Max(0, Cell(p.x, g.cs) - 1) <= xx <= Min(g.gw - 1, Cell(p.x, g.cs) + 1)
    && Max(0, Cell(p.y, g.cs) - 1) <= yy <= Min(g.gh - 1, Cell(p.y, g.cs) + 1)
  }

  /** A hit in the window around keypoint i is a greedy conflict. */
  lemma HitIsConflict(pts: seq<Keypoint>, kept: seq<nat>, grid: seq<seq<Point>>, g: Geometry,
                      width: nat, height: nat, i: nat, md2: real, xx: int, yy: int, j: int)
    requires GridHolds(pts, kept, grid, g, width, height) && i < |pts|
    requires InWindow(g, pts[i].pt, xx, yy) && Hit(grid, g, pts[i].pt, md2, xx, yy, j)
    ensures Conflict(pts, kept, i, g.cs, md2)
  {
    var p := pts[i].pt;
    FlatInRange(g, xx, yy);
    var c := yy * g.gw + xx;
    var q := grid[c][j];
    InCellPoints(pts, kept, g, c, q);
    var k :| 0 <= k < |kept| && FlatCell(g, pts[kept[k]].pt) == c && pts[kept[k]].pt == q;
    CellInGrid(g, width, height, q);
    FlatInjective(g.gw, Cell(q.x, g.cs), Cell(q.y, g.cs), xx, yy);
    assert Adjacent(g.cs, pts[kept[k]].pt, p) && Dist2(p, pts[kept[k]].pt) < md2;
  }

  /** A greedy conflict of keypoint i shows up as a hit in its window. */
  lemma ConflictIsHit(pts: seq<Keypoint>, kept: seq<nat>, grid: seq<seq<Point>>, g: Geometry,
                      width: nat, height: nat, i: nat, md2: real)
    requires GridHolds(pts, kept, grid, g, width, height) && i < |pts|
    requires Conflict(pts, kept, i, g.cs, md2)
    ensures exists xx, yy, j :: InWindow(g, pts[i].pt, xx, yy) && Hit(grid, g, pts[i].pt, md2, xx, yy, j)
  {
    var p := pts[i].pt;
    var k :| 0 <= k < |kept| && kept[k] < |pts| && Adjacent(g.cs, pts[kept[k]].pt, p)
             && Dist2(p, pts[kept[k]].pt) < md2;
    var q := pts[kept[k]].pt;
    CellInGrid(g, width, height, q);
    CellInGrid(g, width, height, p);
    var xx, yy := Cell(q.x, g.cs), Cell(q.y, g.cs);
    var c := FlatCell(g, q);
    InCellPoints(pts, kept, g, c, q);
    var j :| 0 <= j < |grid[c]| && grid[c][j] == q;
    assert InWindow(g, p, xx, yy);
    assert Hit(grid, g, p, md2, xx, yy, j);
  }

  /**
    With the grid holding the kept points by cell, the clamped 3x3 scan
    around keypoint i hits exactly when the greedy pass sees a conflict.
   */
  lemma SearchFindsConflict(pts: seq<Keypoint>, kept: seq<nat>, grid: seq<seq<Point>>, g: Geometry,
                            width: nat, height: nat, i: nat, md2: real)
    requires GridHolds(pts, kept, grid, g, width, height) && i < |pts|
    ensures (exists xx, yy, j :: InWindow(g, pts[i].pt, xx, yy) && Hit(grid, g, pts[i].pt, md2, xx, yy, j))
            <==> Conflict(pts, kept, i, g.cs, md2)
  {
    if exists xx, yy, j :: InWindow(g, pts[i].pt, xx, yy) && Hit(grid, g, pts[i].pt, md2, xx, yy, j) {
      var xx, yy, j :| InWindow(g, pts[i].pt, xx, yy) && Hit(grid, g, pts[i].pt, md2, xx, yy, j);
      HitIsConflict(pts, kept, grid, g, width, height, i, md2, xx, yy, j);
    }
    if Conflict(pts, kept, i, g.cs, md2) {
      ConflictIsHit(pts, kept, grid, g, width, height, i, md2);
    }
  }

  /** Keeping keypoint i appends its point to its own cell and leaves the other cells alone. */
  lemma KeepExtendsGrid(pts: seq<Keypoint>, kept: seq<nat>, grid: seq<seq<Point>>, g: Geometry,
                        width: nat, height: nat, i: nat)
    requires GridHolds(pts, kept, grid, g, width, height) && i < |pts|
    ensures 0 <= FlatCell(g, pts[i].pt) < |grid|
    ensures var c := FlatCell(g, pts[i].pt);
            GridHolds(pts, kept + [i], grid[c := grid[c] + [pts[i].pt]], g, width, height)
  {
    CellInGrid(g, width, height, pts[i].pt);
    var kept' := kept + [i];
    assert kept'[..|kept|] == kept;
  }

  // ---------------------------------------------------------------------------
  // Laws

  /** Sorting moves keypoints around but none out of the image. */
  lemma SortedStaysInImage(keypoints: seq<Keypoint>, sorted: seq<Keypoint>, width: nat, height: nat)
    requires multiset(sorted) == multiset(keypoints)
    ensures (forall i :: 0 <= i < |keypoints| ==> InImage(keypoints[i].pt, width, height))
              ==> forall i :: 0 <= i < |sorted| ==> InImage(sorted[i].pt, width, height)
  {
    forall i | 0 <= i < |sorted|
      ensures sorted[i] in keypoints
    {
      assert sorted[i] in multiset(sorted);
    }
  }

  /**
    The result is an order-preserving subsequence of its sorted input, so it
    is itself sorted by response and draws on the input's keypoints only.
   */
  lemma SurvivorsAreSubsequence(sorted: seq<Keypoint>, width: nat, height: nat, radius: real, md2: real, n: int)
    requires Descending(sorted)
    ensures var r := Take(Survivors(sorted, width, height, radius, md2), n);
            Descending(r) && multiset(r) <= multiset(sorted)
  {
    var s := Survivors(sorted, width, height, radius, md2);
    var r := Take(s, n);
    if radius >= 1.0 {
      var kept := Greedy(sorted, GeometryOf(radius, width, height).cs, md2, |sorted|);
      GatherIncreasing(sorted, kept);
      assert Descending(s);
    }
    assert s == r + s[|r|..];
    assert multiset(s) == multiset(r) + multiset(s[|r|..]);
  }

  /** Gathering along strictly increasing indices keeps descending order and draws a sub-multiset. */
  lemma {:induction false} GatherIncreasing(pts: seq<Keypoint>, idx: seq<nat>)
    requires Descending(pts)
    requires forall k :: 0 <= k < |idx| ==> idx[k] < |pts|
    requires forall a, b :: 0 <= a < b < |idx| ==> idx[a] < idx[b]
    ensures Descending(Gather(pts, idx))
    ensures multiset(Gather(pts, idx)) <= multiset(pts)
  {
    if |idx| > 0 {
      var init := idx[..|idx| - 1];
      var last := idx[|idx| - 1];
      GatherIncreasing(pts[..last], init);
      assert Gather(pts, idx) == Gather(pts[..last], init) + [pts[last]];
      assert pts[..last + 1] == pts[..last] + [pts[last]];
      assert pts == pts[..last + 1] + pts[last + 1..];
      assert multiset(pts) == multiset(pts[..last]) + multiset{pts[last]} + multiset(pts[last + 1..]);
    }
  }

  /** Two keypoints the greedy pass keeps in neighbouring cells are at squared distance at least md2. */
  lemma {:induction false} GreedySpacing(pts: seq<Keypoint>, cs: nat, md2: real, n: nat, a: nat, b: nat)
    requires n <= |pts| && cs >= 1
    requires a < b < |Greedy(pts, cs, md2, n)|
    ensures var kept := Greedy(pts, cs, md2, n);
            Adjacent(cs, pts[kept[a]].pt, pts[kept[b]].pt) ==> Dist2(pts[kept[a]].pt, pts[kept[b]].pt) >= md2
  {
    var prev := Greedy(pts, cs, md2, n - 1);
    if !Conflict(pts, prev, n - 1, cs, md2) && b == |prev| {
      NewKeepIsSpaced(pts, cs, md2, n, a);
    } else {
      GreedySpacing(pts, cs, md2, n - 1, a, b);
    }
  }

  /** A keypoint kept without conflict is spaced from every earlier kept keypoint in a neighbouring cell. */
  lemma NewKeepIsSpaced(pts: seq<Keypoint>, cs: nat, md2: real, n: nat, a: nat)
    requires 1 <= n <= |pts| && cs >= 1
    requires !Conflict(pts, Greedy(pts, cs, md2, n - 1), n - 1, cs, md2)
    requires a < |Greedy(pts, cs, md2, n - 1)|
    ensures var p, q := pts[Greedy(pts, cs, md2, n - 1)[a]].pt, pts[n - 1].pt;
            Adjacent(cs, p, q) ==> Dist2(p, q) >= md2
  {
    var p, q := pts[Greedy(pts, cs, md2, n - 1)[a]].pt, pts[n - 1].pt;
    assert !(Adjacent(cs, p, q) && Dist2(q, p) < md2);
    Dist2Symmetric(p, q);
  }

  lemma Dist2Symmetric(p: Point, q: Point)
    ensures Dist2(p, q) == Dist2(q, p)
  {
  }

  /** The first keypoint is always kept: nothing has been kept before it. */
  lemma {:induction false} GreedyKeepsFirst(pts: seq<Keypoint>, cs: nat, md2: real, n: nat)
    requires 1 <= n <= |pts| && cs >= 1
    ensures |Greedy(pts, cs, md2, n)| >= 1 && Greedy(pts, cs, md2, n)[0] == 0
  {
    if n > 1 {
      GreedyKeepsFirst(pts, cs, md2, n - 1);
    }
  }

  /** Below radius 1 the result is the first min(n, |keypoints|) keypoints by response. */
  lemma SmallRadiusKeepsPrefix(sorted: seq<Keypoint>, width: nat, height: nat, radius: real, md2: real, n: nat)
    requires radius < 1.0
    ensures Take(Survivors(sorted, width, height, radius, md2), n) == sorted[..if n < |sorted| then n else |sorted|]
  {
  }

  /** With num_new_points >= 1 and some keypoint, the strongest keypoint is returned first. */
  lemma StrongestIsKept(keypoints: seq<Keypoint>, width: nat, height: nat, radius: real, n: int)
    requires n >= 1 && |keypoints| >= 1
    ensures var sorted := SortByResponse(keypoints);
            var r := Take(Survivors(sorted, width, height, radius, radius * radius), n);
            |r| >= 1 && r[0] == sorted[0] && forall k :: k in keypoints ==> r[0].response >= k.response
  {
    var sorted := SortByResponse(keypoints);
    assert |sorted| == |keypoints| by {
      assert |multiset(sorted)| == |multiset(keypoints)|;
    }
    if radius >= 1.0 {
      GreedyKeepsFirst(sorted, GeometryOf(radius, width, height).cs, radius * radius, |sorted|);
    }
    forall k | k in keypoints ensures sorted[0].response >= k.response
    {
      assert k in multiset(keypoints);
      assert k in multiset(sorted);
      var j :| 0 <= j < |sorted| && sorted[j] == k;
    }
  }

  /** Cells two or more apart along one axis put the coordinates more than a cell side apart. */
  lemma FarCells(u: real, v: real, cs: nat)
    requires u >= 0.0 && v >= 0.0 && cs >= 1
    requires Cell(u, cs) - Cell(v, cs) >= 2
    ensures u - v > cs as real
  {
    CellOfImagePoint(u, cs);
    CellOfImagePoint(v, cs);
    var cu, cv := u.Floor / cs, v.Floor / cs;
    DivBounds(u.Floor, cs);
    DivBounds(v.Floor, cs);
    assert cs * cu >= cs * (cv + 2);
    assert u.Floor >= v.Floor + cs + 1;
  }

  /** A coordinate gap above cs gives a squared distance above cs^2. */
  lemma GapSquares(d: real, e: real, c: real)
    requires c >= 0.0 && (d > c || d < -c)
    ensures d * d + e * e > c * c
  {
    var a := if d > c then d else -d;
    assert a > c && a * a == d * d;
    SquareGrows(a, c);
    NonNegativeProduct(e, e);
  }

  /** a > c >= 0 gives a^2 > c^2. */
  lemma SquareGrows(a: real, c: real)
    requires a > c >= 0.0
    ensures a * a > c * c
  {
    PositiveProduct(a, a - c);
    NonNegativeProduct(a - c, c);
    assert a * (a - c) == a * a - a * c;
    assert (a - c) * c == a * c - c * c;
  }

  lemma PositiveProduct(a: real, b: real)
    requires a > 0.0 && b > 0.0
    ensures a * b > 0.0
  {
  }

  lemma NonNegativeProduct(a: real, b: real)
    requires (a >= 0.0 && b >= 0.0) || (a <= 0.0 && b <= 0.0)
    ensures a * b >= 0.0
  {
  }

  /**
    The spacing guarantee: when md2 is at least cell_size^2 (as radius^2 is),
    any two kept keypoints are at squared distance at least cell_size^2.
   */
  lemma SurvivorsAreSpaced(pts: seq<Keypoint>, width: nat, height: nat, radius: real, md2: real, a: nat, b: nat)
    requires radius >= 1.0 && forall i :: 0 <= i < |pts| ==> InImage(pts[i].pt, width, height)
    requires var cs := GeometryOf(radius, width, height).cs; md2 >= (cs * cs) as real
    requires a < b < |Survivors(pts, width, height, radius, md2)|
    ensures var s := Survivors(pts, width, height, radius, md2);
            var cs := GeometryOf(radius, width, height).cs;
            Dist2(s[a].pt, s[b].pt) >= (cs * cs) as real
  {
    var cs := GeometryOf(radius, width, height).cs;
    var kept := Greedy(pts, cs, md2, |pts|);
    var p, q := pts[kept[a]].pt, pts[kept[b]].pt;
    GreedySpacing(pts, cs, md2, |pts|, a, b);
    if !Adjacent(cs, p, q) {
      assert InImage(p, width, height) && InImage(q, width, height);
      NonAdjacentFar(p, q, cs);
    }
  }

  /** Points of the image in cells that are not neighbours are more than a cell side apart. */
  lemma NonAdjacentFar(p: Point, q: Point, cs: nat)
    requires cs >= 1 && p.x >= 0.0 && p.y >= 0.0 && q.x >= 0.0 && q.y >= 0.0
    requires !Adjacent(cs, p, q)
    ensures Dist2(p, q) >= (cs * cs) as real
  {
    if !(-1 <= Cell(p.x, cs) - Cell(q.x, cs) <= 1) {
      CellGap(p.x, q.x, cs);
    } else {
      CellGap(p.y, q.y, cs);
    }
    GapDistance(p, q, cs as real);
    CastSquare(cs);
  }

  /** A gap above c along either axis gives a squared distance above c^2. */
  lemma GapDistance(p: Point, q: Point, c: real)
    requires c >= 0.0
    requires p.x - q.x > c || p.x - q.x < -c || p.y - q.y > c || p.y - q.y < -c
    ensures Dist2(p, q) > c * c
  {
    var dx, dy := p.x - q.x, p.y - q.y;
    assert Dist2(p, q) == dx * dx + dy * dy;
    if dx > c || dx < -c {
      GapSquares(dx, dy, c);
    } else {
      GapSquares(dy, dx, c);
    }
  }

  /** Coordinates whose cells are two or more apart differ by more than a cell side. */
  lemma CellGap(u: real, v: real, cs: nat)
    requires u >= 0.0 && v >= 0.0 && cs >= 1
    requires !(-1 <= Cell(u, cs) - Cell(v, cs) <= 1)
    ensures u - v > cs as real || u - v < -(cs as real)
  {
    if Cell(u, cs) - Cell(v, cs) >= 2 {
      FarCells(u, v, cs);
    } else {
      FarCells(v, u, cs);
    }
  }

  lemma CastSquare(n: nat)
    ensures (n * n) as real == (n as real) * (n as real)
  {
  }

  /** radius^2 is at least cell_size^2, so the corrected selection is spaced by a cell side. */
  lemma RadiusCoversCell(radius: real, width: nat, height: nat)
    requires radius >= 1.0
    ensures var cs := GeometryOf(radius, width, height).cs; radius * radius >= (cs * cs) as real
  {
    var cs := GeometryOf(radius, width, height).cs;
    var c := cs as real;
    assert 1.0 <= c <= radius;
    assert c * c <= radius * c <= radius * radius;
  }

  /**
    As written, md2 keeps the radius of the first call with radius at least
    1: after such a call with radius 1, a call with radius 10 keeps two keypoints 2 apart in the same
    cell, closer than both the radius and the cell side.
   */
  lemma StaticMd2Counterexample()
    ensures var pts := [Keypoint(Point(0.5, 0.5), 2.0), Keypoint(Point(2.5, 0.5), 1.0)];
            var s := Survivors(pts, 20, 20, 10.0, 1.0 * 1.0);
            |s| == 2 && Dist2(s[0].pt, s[1].pt) < 10.0 * 10.0
  {
    var pts := [Keypoint(Point(0.5, 0.5), 2.0), Keypoint(Point(2.5, 0.5), 1.0)];
    ExampleGeometry();
    var first := Greedy(pts, 10, 1.0, 1);
    assert first == [0];
    assert Dist2(pts[1].pt, pts[0].pt) == 4.0;
    assert !Conflict(pts, first, 1, 10, 1.0);
    assert Greedy(pts, 10, 1.0, 2) == [0, 1];
  }

  /** With md2 = radius^2 the same two keypoints conflict and only the stronger is kept. */
  lemma CurrentMd2KeepsOne()
    ensures var pts := [Keypoint(Point(0.5, 0.5), 2.0), Keypoint(Point(2.5, 0.5), 1.0)];
            Survivors(pts, 20, 20, 10.0, 10.0 * 10.0) == [pts[0]]
  {
    var pts := [Keypoint(Point(0.5, 0.5), 2.0), Keypoint(Point(2.5, 0.5), 1.0)];
    ExampleGeometry();
    var first := Greedy(pts, 10, 100.0, 1);
    assert first == [0];
    assert Conflict(pts, first, 1, 10, 100.0) by {
      assert Adjacent(10, pts[first[0]].pt, pts[1].pt);
      assert Dist2(pts[1].pt, pts[first[0]].pt) == 4.0;
    }
    assert Greedy(pts, 10, 100.0, 2) == first;
  }

  /** The grid of the two-keypoint example: cells of side 10, both points in cell (0, 0). */
  lemma ExampleGeometry()
    ensures GeometryOf(10.0, 20, 20) == Geometry(10, 2, 2)
    ensures Cell(0.5, 10) == 0 && Cell(2.5, 10) == 0
  {
    assert (10.0).Floor == 10;
    assert (0.5).Floor == 0 && (2.5).Floor == 2;
  }
}

=== FILE: layout.dfy ===
/**
  The index layout of the estimator: the state vector x, the error state dx,
  the IMU input u and the measurement tags.

  x  = POS(3) VEL(3) ATT(4) B_A(3) B_G(3) MU(1) | (ZETA_i(4) RHO_i(1)) for each feature i
  dx = POS(3) VEL(3) ATT(3) B_A(3) B_G(3) MU(1) | (ZETA_i(2) RHO_i(1)) for each feature i
 */
module Layout {

  // State offsets
  const xPOS: nat := 0
  const xVEL: nat := 3
  const xATT: nat := 6
  const xB_A: nat := 10
  const xB_G: nat := 13
  const xMU: nat := 16
  const xZ: nat := 17

  // Input offsets
  const uA: nat := 0
  const uG: nat := 3
  const uTOTAL: nat := 6

  // Error-state offsets
  const dxPOS: nat := 0
  const dxVEL: nat := 3
  const dxATT: nat := 6
  const dxB_A: nat := 9
  const dxB_G: nat := 12
  const dxMU: nat := 15
  const dxZ: nat := 16

  /** The vehicle blocks of x, in storage order. */
  datatype Block = POS | VEL | ATT | B_A | B_G | MU
  {
    function Start(): nat
    {
      match this
      case POS => xPOS
      case VEL => xVEL
      case ATT => xATT
      case B_A => xB_A
      case B_G => xB_G
      case MU => xMU
    }

    /** Entries of the block in x (the attitude is a 4-entry quaternion). */
    function Size(): nat
    {
      match this
      case ATT => 4
      case MU => 1
      case _ => 3
    }

    function DxStart(): nat
    {
      match this
      case POS => dxPOS
      case VEL => dxVEL
      case ATT => dxATT
      case B_A => dxB_A
      case B_G => dxB_G
      case MU => dxMU
    }

    /** Entries of the block in dx (the attitude has three tangent directions). */
    function DxSize(): nat
    {
      if this == ATT then 3 else Size()
    }
  }

  const Blocks: seq<Block> := [POS, VEL, ATT, B_A, B_G, MU]

  /** Measurement tags, in the order of their integer values. */
  datatype MeasurementType = ACC | ALT | ATT_MEAS | POS_MEAS | VEL_MEAS | QZETA | FEAT | PIXEL_VEL | DEPTH | INV_DEPTH

  const MeasurementTypes: seq<MeasurementType> :=
    [ACC, ALT, ATT_MEAS, POS_MEAS, VEL_MEAS, QZETA, FEAT, PIXEL_VEL, DEPTH, INV_DEPTH]

  /** The integer value of a tag, `(int)meas_type`. */
  function Tag(m: MeasurementType): nat
  {
    match m
    case ACC => 0
    case ALT => 1
    case ATT_MEAS => 2
    case POS_MEAS => 3
    case VEL_MEAS => 4
    case QZETA => 5
    case FEAT => 6
    case PIXEL_VEL => 7
    case DEPTH => 8
    case INV_DEPTH => 9
  }

  // Feature slot offsets
  function XZeta(i: nat): nat { xZ + 5 * i }
  function XRho(i: nat): nat { xZ + 5 * i + 4 }
  function DxZeta(i: nat): nat { dxZ + 3 * i }
  function DxRho(i: nat): nat { dxZ + 3 * i + 2 }

  /** Length of the meaningful prefix of x with n features. */
  function XMax(n: nat): nat { xZ + 5 * n }
  /** Side of the meaningful top-left block of P with n features. */
  function DxMax(n: nat): nat { dxZ + 3 * n }

  /** Where an entry of x lives: a vehicle block, or a feature slot. */
  datatype Loc = Vehicle(b: Block, off: nat) | Slot(i: nat, off: nat)

  ghost predicate ValidLoc(l: Loc)
  {
    match l
    case Vehicle(b, off) => off < b.Size()
    case Slot(_, off) => off < 5
  }

  function Index(l: Loc): nat
  {
    match l
    case Vehicle(b, off) => b.Start() + off
    case Slot(i, off) => XZeta(i) + off
  }

  function Locate(k: nat): (l: Loc)
    ensures ValidLoc(l)
  {
    if k < xVEL then Vehicle(POS, k)
    else if k < xATT then Vehicle(VEL, k - xVEL)
    else if k < xB_A then Vehicle(ATT, k - xATT)
    else if k < xB_G then Vehicle(B_A, k - xB_A)
    else if k < xMU then Vehicle(B_G, k - xB_G)
    else if k < xZ then Vehicle(MU, 0)
    else Slot((k - xZ) / 5, (k - xZ) % 5)
  }

  /** Every index of x belongs to exactly one block entry: Locate and Index are inverse. */
  lemma LocateIndexRoundTrip(k: nat, l: Loc)
    requires ValidLoc(l)
    ensures Index(Locate(k)) == k
    ensures Locate(Index(l)) == l
  {
    match l
    case Vehicle(b, off) =>
    case Slot(i, off) =>
      assert Index(l) - xZ == 5 * i + off;
      assert (5 * i + off) / 5 == i && (5 * i + off) % 5 == off;
  }

  /**
    The vehicle blocks tile x[0, 17) in storage order, and the error-state
    offsets agree with the state offsets up to ATT, then lag by one because
    the attitude has three tangent directions instead of four entries.
   */
  lemma BlocksTileVehicleState()
    ensures forall j :: 0 <= j < |Blocks| - 1 ==>
              Blocks[j].Start() + Blocks[j].Size() == Blocks[j + 1].Start()
    ensures forall j :: 0 <= j < |Blocks| - 1 ==>
              Blocks[j].DxStart() + Blocks[j].DxSize() == Blocks[j + 1].DxStart()
    ensures Blocks[0].Start() == 0 && MU.Start() + MU.Size() == xZ
    ensures Blocks[0].DxStart() == 0 && MU.DxStart() + MU.DxSize() == dxZ
    ensures forall b: Block :: b.Start() <= xATT ==> b.DxStart() == b.Start()
    ensures forall b: Block :: b.Start() > xATT ==> b.DxStart() == b.Start() - 1
    ensures uA + 3 == uG && uG + 3 == uTOTAL
  {
  }

  /** Feature slots are disjoint, contiguous and lie after the vehicle block, in x and in dx. */
  lemma SlotsTile(i: nat, j: nat)
    requires i < j
    ensures XZeta(i) + 5 <= XZeta(j) && XZeta(i + 1) == XZeta(i) + 5
    ensures DxZeta(i) + 3 <= DxZeta(j) && DxZeta(i + 1) == DxZeta(i) + 3
    ensures XRho(i) < XMax(i + 1) <= XZeta(j) && DxRho(i) < DxMax(i + 1) <= DxZeta(j)
    ensures xZ <= XZeta(i) && dxZ <= DxZeta(i)
  {
  }

  /** The ten measurement tags are numbered 0..9 without gaps or repeats. */
  lemma TagsEnumerate()
    ensures |MeasurementTypes| == 10
    ensures forall j :: 0 <= j < 10 ==> Tag(MeasurementTypes[j]) == j
    ensures forall m: MeasurementType :: MeasurementTypes[Tag(m)] == m
  {
  }
}

=== FILE: linalg.dfy ===
/**
  Dense matrix arithmetic over Flt, summing left to right as a dot product
  does: Sum([t0, t1, t2]) = ((0 + t0) + t1) + t2. Adding the leading zero
  changes nothing for any value, NaN and infinities included.
 */
module Linalg {
  import opened Flt
  import opened Buffers

  function Sum(s: seq<Flt>): Flt
  {
    if |s| == 0 then Zero else Add(Sum(s[..|s| - 1]), s[|s| - 1])
  }

  function Dot(a: seq<Flt>, b: seq<Flt>): Flt
    requires |a| == |b|
  {
    Sum(seq(|a|, k requires 0 <= k < |a| => Mul(a[k], b[k])))
  }

  function MatVec(m: seq<seq<Flt>>, v: seq<Flt>): (r: seq<Flt>)
    requires IsMatrix(m, |m|, |v|)
    ensures |r| == |m|
  {
    seq(|m|, i requires 0 <= i < |m| => Dot(m[i], v))
  }

  function Transpose(m: seq<seq<Flt>>, cols: nat): (r: seq<seq<Flt>>)
    requires IsMatrix(m, |m|, cols)
    ensures IsMatrix(r, cols, |m|)
    ensures forall i, j :: 0 <= i < cols && 0 <= j < |m| ==> r[i][j] == m[j][i]
  {
    seq(cols, i requires 0 <= i < cols => seq(|m|, j requires 0 <= j < |m| => m[j][i]))
  }

  /** Column j of m. */
  function Col(m: seq<seq<Flt>>, cols: nat, j: nat): (c: seq<Flt>)
    requires IsMatrix(m, |m|, cols) && j < cols
    ensures |c| == |m|
    ensures forall k :: 0 <= k < |m| ==> c[k] == m[k][j]
  {
    seq(|m|, k requires 0 <= k < |m| => m[k][j])
  }

  /** The product of an r-by-n and an n-by-c matrix. */
  function MatMul(a: seq<seq<Flt>>, b: seq<seq<Flt>>, n: nat, c: nat): (r: seq<seq<Flt>>)
    requires IsMatrix(a, |a|, n) && IsMatrix(b, n, c)
    ensures IsMatrix(r, |a|, c)
    ensures forall i, j :: 0 <= i < |a| && 0 <= j < c ==> r[i][j] == Dot(a[i], Col(b, c, j))
  {
    seq(|a|, i requires 0 <= i < |a| => seq(c, j requires 0 <= j < c => Dot(a[i], Col(b, c, j))))
  }

  function MatAdd(a: seq<seq<Flt>>, b: seq<seq<Flt>>, c: nat): (r: seq<seq<Flt>>)
    requires IsMatrix(a, |a|, c) && IsMatrix(b, |a|, c)
    ensures IsMatrix(r, |a|, c)
    ensures forall i, j :: 0 <= i < |a| && 0 <= j < c ==> r[i][j] == Add(a[i][j], b[i][j])
  {
    seq(|a|, i requires 0 <= i < |a| => seq(c, j requires 0 <= j < c => Add(a[i][j], b[i][j])))
  }

  function MatScale(a: seq<seq<Flt>>, c: nat, s: Flt): (r: seq<seq<Flt>>)
    requires IsMatrix(a, |a|, c)
    ensures IsMatrix(r, |a|, c)
    ensures forall i, j :: 0 <= i < |a| && 0 <= j < c ==> r[i][j] == Mul(a[i][j], s)
  {
    seq(|a|, i requires 0 <= i < |a| => seq(c, j requires 0 <= j < c => Mul(a[i][j], s)))
  }

  /** `-m`, entrywise. */
  function MatNeg(a: seq<seq<Flt>>, c: nat): (r: seq<seq<Flt>>)
    requires IsMatrix(a, |a|, c)
    ensures IsMatrix(r, |a|, c)
    ensures forall i, j :: 0 <= i < |a| && 0 <= j < c ==> r[i][j] == Neg(a[i][j])
  {
    seq(|a|, i requires 0 <= i < |a| => seq(c, j requires 0 <= j < c => Neg(a[i][j])))
  }

  /** `v.asDiagonal()`. */
  function Diag(v: seq<Flt>): (r: seq<seq<Flt>>)
    ensures IsSquare(r, |v|)
    ensures forall i, j :: 0 <= i < |v| && 0 <= j < |v| ==> r[i][j] == (if i == j then v[i] else Zero)
  {
    seq(|v|, i requires 0 <= i < |v| => seq(|v|, j requires 0 <= j < |v| => if i == j then v[i] else Zero))
  }

  ghost predicate AllFinite(v: seq<Flt>)
  {
    forall k :: 0 <= k < |v| ==> v[k].Num?
  }

  ghost predicate MatFinite(m: seq<seq<Flt>>)
  {
    forall i :: 0 <= i < |m| ==> AllFinite(m[i])
  }

  /** A sum whose terms are all zero but one is that one term, whatever its value. */
  lemma {:induction false} SumSingle(s: seq<Flt>, k: nat)
    requires k < |s|
    requires forall j :: 0 <= j < |s| && j != k ==> s[j] == Zero
    ensures Sum(s) == s[k]
  {
    if k == |s| - 1 {
      SumZeros(s[..|s| - 1]);
      AddZero(s[k]);
      AddComm(Zero, s[k]);
    } else {
      SumSingle(s[..|s| - 1], k);
      AddZero(s[k]);
    }
  }

  /** A sum of zeros is zero. */
  lemma {:induction false} SumZeros(s: seq<Flt>)
    requires forall j :: 0 <= j < |s| ==> s[j] == Zero
    ensures Sum(s) == Zero
  {
    if |s| > 0 {
      SumZeros(s[..|s| - 1]);
    }
  }

  /** A sum of finite terms is the finite real sum. */
  lemma {:induction false} SumFinite(s: seq<Flt>)
    requires AllFinite(s)
    ensures Sum(s).Num?
  {
    if |s| > 0 {
      SumFinite(s[..|s| - 1]);
    }
  }

  /** Multiplying by a unit row vector selects one entry of a finite vector. */
  lemma DotUnit(row: seq<Flt>, v: seq<Flt>, k: nat, c: Flt)
    requires |row| == |v| && k < |v| && AllFinite(v)
    requires forall j :: 0 <= j < |row| && j != k ==> row[j] == Zero
    requires row[k] == c
    ensures Dot(row, v) == Mul(c, v[k])
  {
    var t := seq(|row|, j requires 0 <= j < |row| => Mul(row[j], v[j]));
    SumSingle(t, k);
  }

  /** The product of an all-zero row with a finite vector is zero. */
  lemma DotZeroRow(row: seq<Flt>, v: seq<Flt>)
    requires |row| == |v| && AllFinite(v)
    requires forall j :: 0 <= j < |row| ==> row[j] == Zero
    ensures Dot(row, v) == Zero
  {
    var t := seq(|row|, j requires 0 <= j < |row| => Mul(row[j], v[j]));
    SumZeros(t);
  }

  /** Summing a concatenation of finite sequences adds the two sums. */
  lemma {:induction false} SumAppend(a: seq<Flt>, b: seq<Flt>)
    requires AllFinite(a) && AllFinite(b)
    ensures Sum(a + b) == Add(Sum(a), Sum(b))
  {
    SumFinite(a);
    if |b| == 0 {
      assert a + b == a;
      AddZero(Sum(a));
    } else {
      var b' := b[..|b| - 1];
      assert (a + b)[..|a + b| - 1] == a + b';
      SumAppend(a, b');
      SumFinite(b');
    }
  }

  /** A finite sum that is zero outside positions k1 < k2 < k3 adds those three terms, left to right. */
  lemma SumThree(t: seq<Flt>, k1: nat, k2: nat, k3: nat)
    requires k1 < k2 < k3 < |t| && AllFinite(t)
    requires forall j :: 0 <= j < |t| && j != k1 && j != k2 && j != k3 ==> t[j] == Zero
    ensures Sum(t) == Add(Add(t[k1], t[k2]), t[k3])
  {
    var a, b, c := t[..k2], t[k2..k3], t[k3..];
    assert t == (a + b) + c;
    SumSingle(a, k1);
    assert b[0] == t[k2];
    SumSingle(b, 0);
    assert c[0] == t[k3];
    SumSingle(c, 0);
    SumAppend(a, b);
    SumAppend(a + b, c);
  }

  /**
    A dot product whose row is zero outside three columns k1 < k2 < k3 is the
    sum of those three products, for a finite vector and finite row entries.
   */
  lemma DotThree(row: seq<Flt>, v: seq<Flt>, k1: nat, k2: nat, k3: nat)
    requires |row| == |v| && k1 < k2 < k3 < |v| && AllFinite(v)
    requires row[k1].Num? && row[k2].Num? && row[k3].Num?
    requires forall j :: 0 <= j < |row| && j != k1 && j != k2 && j != k3 ==> row[j] == Zero
    ensures Dot(row, v) == Add(Add(Mul(row[k1], v[k1]), Mul(row[k2], v[k2])), Mul(row[k3], v[k3]))
  {
    var t := seq(|row|, j requires 0 <= j < |row| => Mul(row[j], v[j]));
    forall j | 0 <= j < |t|
      ensures t[j].Num? && (j != k1 && j != k2 && j != k3 ==> t[j] == Zero)
    {
      if j != k1 && j != k2 && j != k3 {
        assert row[j] == Zero;
      }
    }
    SumThree(t, k1, k2, k3);
  }
}

=== FILE: manifold.dfy ===
/**
  Quaternions and small vectors, and the manifold operators of the attitude
  and bearing blocks. The operators themselves are trigonometric and
  square-root code outside this model; they enter as a record of functions
  chosen by the caller, so every statement proved here holds for whatever
  those functions compute.
 */
module Manifold {
  import opened Flt

  datatype Quat = Quat(w: Flt, x: Flt, y: Flt, z: Flt)
  {
    /** `q.elements()`: the four stored entries, w first. */
    function Elements(): (e: seq<Flt>)
      ensures |e| == 4
    {
      [w, x, y, z]
    }
  }

  datatype Vec2 = Vec2(a: Flt, b: Flt)
  {
    function Elements(): (e: seq<Flt>)
      ensures |e| == 2
    {
      [a, b]
    }
  }

  datatype Vec3 = Vec3(a: Flt, b: Flt, c: Flt)
  {
    function Elements(): (e: seq<Flt>)
      ensures |e| == 3
    {
      [a, b, c]
    }
  }

  function QuatOf(s: seq<Flt>): (q: Quat)
    requires |s| == 4
    ensures q.Elements() == s
  {
    Quat(s[0], s[1], s[2], s[3])
  }

  function Vec2Of(s: seq<Flt>): (v: Vec2)
    requires |s| == 2
    ensures v.Elements() == s
  {
    Vec2(s[0], s[1])
  }

  function Vec3Of(s: seq<Flt>): (v: Vec3)
    requires |s| == 3
    ensures v.Elements() == s
  {
    Vec3(s[0], s[1], s[2])
  }

  /**
    The manifold operators, as the caller supplies them:
    - qPlus:     `Quaternion(q) + delta` (attitude boxplus by a rotation vector)
    - qMinus:    `Quaternion(q1) - Quaternion(q0)` (attitude boxminus)
    - featPlus:  `q_feat_boxplus` (bearing boxplus by a 2-vector)
    - featMinus: `q_feat_boxminus` (bearing boxminus)
    - bearing:   normalise a ray, then `from_two_unit_vectors(e_z, ray)`
   */
  datatype ManifoldOps = ManifoldOps(
    qPlus: (Quat, Vec3) -> Quat,
    qMinus: (Quat, Quat) -> Vec3,
    featPlus: (Quat, Vec2) -> Quat,
    featMinus: (Quat, Quat) -> Vec2,
    bearing: Vec3 -> Quat)

  /** The manifold laws the operators are designed to satisfy. */
  ghost predicate RoundTrips(ops: ManifoldOps)
  {
    && (forall q, d {:trigger ops.qPlus(q, d)} :: ops.qMinus(ops.qPlus(q, d), q) == d)
    && (forall q, d {:trigger ops.featPlus(q, d)} :: ops.featMinus(ops.featPlus(q, d), q) == d)
  }
}

=== FILE: measurements.dfy ===
/**
  The exact measurement models of src/vi_ekf.cpp: h_acc, h_alt, h_att,
  h_pos, h_vel, h_qzeta, h_depth and h_inv_depth. Each returns the predicted
  measurement h and its Jacobian H with respect to the error state; H has as
  many columns as the error-state buffer and is zero outside the blocks the
  source writes. Products with the constant selection matrices I_2x3, I_3x3
  and I_2x2 are computed as matrix products, as the source does.

  The feature models take the slot index i that global_to_local_feature_id
  returns for the measurement's id.

  Each model is paired with a lemma that checks its Jacobian against the model
  itself: for finite states, h(x (+) dx) - h(x) equals H dx exactly for the
  linear models, and differs from it by the stated second-order term for
  h_acc and h_depth.
 */
module Measurements {
  import opened Flt
  import opened Buffers
  import opened Layout
  import opened Manifold
  import opened Linalg
  import opened BoxOps

  /** A predicted measurement and its Jacobian. */
  datatype Model = Model(h: seq<Flt>, H: seq<seq<Flt>>)

  const I_2x3: seq<seq<Flt>> := [[One, Zero, Zero], [Zero, One, Zero]]
  const I_3x3: seq<seq<Flt>> := [[One, Zero, Zero], [Zero, One, Zero], [Zero, Zero, One]]
  const I_2x2: seq<seq<Flt>> := [[One, Zero], [Zero, One]]

  /** `H.setZero()` for a Jacobian with the given number of rows. */
  function Zeros(rows: nat, side: nat): (m: seq<seq<Flt>>)
    ensures IsMatrix(m, rows, side)
  {
    FillMatrix(rows, side, Zero)
  }

  // ---------------------------------------------------------------------------
  // Vehicle models

  /** `h_pos`: the position, with the identity block at columns xPOS (equal to dxPOS). */
  function HPos(x: seq<Flt>, side: nat): (m: Model)
    requires xZ <= |x| && dxZ <= side
    ensures |m.h| == 3 && IsMatrix(m.H, 3, side)
    ensures forall k :: 0 <= k < 3 ==> m.h[k] == x[xPOS + k]
    ensures forall i, j :: 0 <= i < 3 && 0 <= j < side ==> m.H[i][j] == (if j == dxPOS + i then One else Zero)
  {
    Model(x[xPOS..xPOS + 3], WriteBlock(Zeros(3, side), side, 0, xPOS, I_3x3, 3))
  }

  /** `h_vel`: the velocity, with the identity block at dxVEL. */
  function HVel(x: seq<Flt>, side: nat): (m: Model)
    requires xZ <= |x| && dxZ <= side
    ensures |m.h| == 3 && IsMatrix(m.H, 3, side)
    ensures forall k :: 0 <= k < 3 ==> m.h[k] == x[xVEL + k]
    ensures forall i, j :: 0 <= i < 3 && 0 <= j < side ==> m.H[i][j] == (if j == dxVEL + i then One else Zero)
  {
    Model(x[xVEL..xVEL + 3], WriteBlock(Zeros(3, side), side, 0, dxVEL, I_3x3, 3))
  }

  /** `h_alt`: minus the z position, with -1 at dxPOS + 2. */
  function HAlt(x: seq<Flt>, side: nat): (m: Model)
    requires xZ <= |x| && dxZ <= side
    ensures |m.h| == 1 && IsMatrix(m.H, 1, side)
    ensures m.h[0] == Neg(x[xPOS + 2])
    ensures forall j :: 0 <= j < side ==> m.H[0][j] == (if j == dxPOS + 2 then Num(-1.0) else Zero)
  {
    Model([Neg(x[xPOS + 2])], SetEntry(Zeros(1, side), side, 0, dxPOS + 2, Num(-1.0)))
  }

  /** `h_att`: the attitude quaternion, with the identity block at dxATT. */
  function HAtt(x: seq<Flt>, side: nat): (m: Model)
    requires xZ <= |x| && dxZ <= side
    ensures |m.h| == 4 && IsMatrix(m.H, 3, side)
    ensures QuatOf(m.h) == AttQuat(x)
    ensures forall i, j :: 0 <= i < 3 && 0 <= j < side ==> m.H[i][j] == (if j == dxATT + i then One else Zero)
  {
    Model(x[xATT..xATT + 4], WriteBlock(Zeros(3, side), side, 0, dxATT, I_3x3, 3))
  }

  /** `-mu * vel + b_a`, the body-frame drag-plus-bias acceleration before the I_2x3 selection. */
  function DragAccel(x: seq<Flt>): (w: seq<Flt>)
    requires xZ <= |x|
    ensures |w| == 3
  {
    seq(3, k requires 0 <= k < 3 => Add(Mul(Neg(x[xMU]), x[xVEL + k]), x[xB_A + k]))
  }

  /**
    `h_acc`: the first two components of -mu vel + b_a, through I_2x3; H holds
    -mu I_2x3 at dxVEL, I_2x3 at dxB_A and -I_2x3 vel at dxMU.
   */
  function HAcc(x: seq<Flt>, side: nat): (m: Model)
    requires xZ <= |x| && dxZ <= side
    ensures |m.h| == 2 && IsMatrix(m.H, 2, side)
  {
    Model(MatVec(I_2x3, DragAccel(x)), AccJacobian(x, side))
  }

  /** The Jacobian block writes of h_acc, in the source's order. */
  function AccJacobian(x: seq<Flt>, side: nat): (m: seq<seq<Flt>>)
    requires xZ <= |x| && dxZ <= side
    ensures IsMatrix(m, 2, side)
  {
    var h1 := WriteBlock(Zeros(2, side), side, 0, dxVEL, MatScale(I_2x3, 3, Neg(x[xMU])), 3);
    var h2 := WriteBlock(h1, side, 0, dxB_A, I_2x3, 3);
    var col := MatVec(MatNeg(I_2x3, 3), x[xVEL..xVEL + 3]);
    WriteBlock(h2, side, 0, dxMU, [[col[0]], [col[1]]], 1)
  }

  /** mu, velocity and accelerometer bias are finite. */
  ghost predicate AccInputsFinite(x: seq<Flt>)
    requires xZ <= |x|
  {
    && x[xMU].Num?
    && (forall k :: xVEL <= k < xVEL + 3 ==> x[k].Num?)
    && (forall k :: xB_A <= k < xB_A + 3 ==> x[k].Num?)
  }

  /**
    For finite mu, velocity and bias, h_acc predicts -mu v_i + b_i. (With
    infinities the zero entries of the selection product can become NaN, as
    in IEEE arithmetic.)
   */
  lemma AccPrediction(x: seq<Flt>, side: nat)
    requires xZ <= |x| && dxZ <= side && AccInputsFinite(x)
    ensures forall i :: 0 <= i < 2 ==> HAcc(x, side).h[i] == Add(Mul(Neg(x[xMU]), x[xVEL + i]), x[xB_A + i])
  {
    var w := DragAccel(x);
    forall k | 0 <= k < 3
      ensures w[k].Num?
    {
      assert w[k] == Add(Mul(Neg(x[xMU]), x[xVEL + k]), x[xB_A + k]);
    }
    forall i | 0 <= i < 2
      ensures Dot(I_2x3[i], w) == w[i]
    {
      DotUnit(I_2x3[i], w, i, One);
      OneTimes(w[i]);
    }
  }

  /** I_2x3 is the unit matrix on its first two columns. */
  lemma SelectionEntry(i: nat, c: nat)
    requires i < 2 && c < 3
    ensures I_2x3[i][c] == if i == c then One else Zero
  {
    if i == 0 {
      assert I_2x3[0] == [One, Zero, Zero];
    } else {
      assert I_2x3[1] == [Zero, One, Zero];
    }
  }

  /** s I_2x3 is s on the diagonal and zero elsewhere, for finite s. */
  lemma ScaledSelectionEntry(i: nat, c: nat, s: Flt)
    requires i < 2 && c < 3 && s.Num?
    ensures MatScale(I_2x3, 3, s)[i][c] == if i == c then s else Zero
  {
    SelectionEntry(i, c);
    assert MatScale(I_2x3, 3, s)[i][c] == Mul(I_2x3[i][c], s);
  }

  lemma OneTimes(a: Flt)
    requires a.Num?
    ensures Mul(One, a) == a
  {
  }

  /** For finite inputs the h_acc Jacobian has exactly three non-zero columns per row. */
  lemma AccJacobianEntries(x: seq<Flt>, side: nat)
    requires xZ <= |x| && dxZ <= side && AccInputsFinite(x)
    ensures var m := HAcc(x, side).H;
            forall i, j :: 0 <= i < 2 && 0 <= j < side ==>
              m[i][j] == (if j == dxVEL + i then Neg(x[xMU])
                          else if j == dxB_A + i then One
                          else if j == dxMU then Neg(x[xVEL + i])
                          else Zero)
  {
    forall i, j | 0 <= i < 2 && 0 <= j < side
      ensures HAcc(x, side).H[i][j]
                == (if j == dxVEL + i then Neg(x[xMU])
                    else if j == dxB_A + i then One
                    else if j == dxMU then Neg(x[xVEL + i])
                    else Zero)
    {
      AccJacobianEntry(x, side, i, j);
    }
  }

  /** Row i of -I_2x3 times the finite velocity is -v_i. */
  lemma AccMuEntry(x: seq<Flt>, i: nat)
    requires xZ <= |x| && AccInputsFinite(x) && i < 2
    ensures MatVec(MatNeg(I_2x3, 3), x[xVEL..xVEL + 3])[i] == Neg(x[xVEL + i])
  {
    var vel := x[xVEL..xVEL + 3];
    forall k | 0 <= k < 3
      ensures vel[k].Num?
    {
      assert vel[k] == x[xVEL + k];
    }
    DotUnit(MatNeg(I_2x3, 3)[i], vel, i, Num(-1.0));
  }

  /** One entry of the h_acc Jacobian, followed through the three block writes. */
  lemma AccJacobianEntry(x: seq<Flt>, side: nat, i: nat, j: nat)
    requires xZ <= |x| && dxZ <= side && AccInputsFinite(x) && i < 2 && j < side
    ensures AccJacobian(x, side)[i][j]
              == (if j == dxVEL + i then Neg(x[xMU])
                  else if j == dxB_A + i then One
                  else if j == dxMU then Neg(x[xVEL + i])
                  else Zero)
  {
    var sc := MatScale(I_2x3, 3, Neg(x[xMU]));
    var h1 := WriteBlock(Zeros(2, side), side, 0, dxVEL, sc, 3);
    var h2 := WriteBlock(h1, side, 0, dxB_A, I_2x3, 3);
    var col := MatVec(MatNeg(I_2x3, 3), x[xVEL..xVEL + 3]);
    var m := WriteBlock(h2, side, 0, dxMU, [[col[0]], [col[1]]], 1);
    assert m == AccJacobian(x, side);
    if j == dxMU {
      assert m[0 + i][dxMU + 0] == [[col[0]], [col[1]]][i][0];
      AccMuEntry(x, i);
    } else if dxB_A <= j < dxB_A + 3 {
      var c := j - dxB_A;
      assert m[i][j] == h2[i][j];
      assert h2[0 + i][dxB_A + c] == I_2x3[i][c];
      SelectionEntry(i, c);
    } else if dxVEL <= j < dxVEL + 3 {
      var c := j - dxVEL;
      assert m[i][j] == h2[i][j] == h1[i][j];
      assert h1[0 + i][dxVEL + c] == sc[i][c];
      ScaledSelectionEntry(i, c, Neg(x[xMU]));
    } else {
      assert m[i][j] == h2[i][j] == h1[i][j] == Zero;
    }
  }

  // ---------------------------------------------------------------------------
  // Feature models

  /** `h_qzeta`: the bearing quaternion of slot i, with I_2x2 at its two bearing columns. */
  function HQzeta(x: seq<Flt>, i: nat, side: nat): (m: Model)
    requires XMax(i + 1) <= |x| && DxMax(i + 1) <= side
    ensures |m.h| == 4 && IsMatrix(m.H, 2, side)
    ensures QuatOf(m.h) == SlotQuat(x, i)
    ensures forall r, j :: 0 <= r < 2 && 0 <= j < side ==> m.H[r][j] == (if j == DxZeta(i) + r then One else Zero)
  {
    Model(x[XZeta(i)..XZeta(i) + 4], WriteBlock(Zeros(2, side), side, 0, DxZeta(i), I_2x2, 2))
  }

  /** `h_inv_depth`: rho of slot i, with 1 at its rho column. */
  function HInvDepth(x: seq<Flt>, i: nat, side: nat): (m: Model)
    requires XMax(i + 1) <= |x| && DxMax(i + 1) <= side
    ensures |m.h| == 1 && IsMatrix(m.H, 1, side)
    ensures m.h[0] == x[XRho(i)]
    ensures forall j :: 0 <= j < side ==> m.H[0][j] == (if j == DxRho(i) then One else Zero)
  {
    Model([x[XRho(i)]], SetEntry(Zeros(1, side), side, 0, DxRho(i), One))
  }

  /** `h_depth`: 1/rho of slot i, with -1/rho^2 at its rho column. */
  function HDepth(x: seq<Flt>, i: nat, side: nat): (m: Model)
    requires XMax(i + 1) <= |x| && DxMax(i + 1) <= side
    ensures |m.h| == 1 && IsMatrix(m.H, 1, side)
    ensures x[XRho(i)].Num? && x[XRho(i)].v != 0.0 ==>
              && m.h[0] == Num(1.0 / x[XRho(i)].v)
              && m.H[0][DxRho(i)] == Num(-1.0 / (x[XRho(i)].v * x[XRho(i)].v))
    ensures forall j :: 0 <= j < side && j != DxRho(i) ==> m.H[0][j] == Zero
  {
    var rho := x[XRho(i)];
    Model([Div(One, rho)], SetEntry(Zeros(1, side), side, 0, DxRho(i), Div(Neg(One), Mul(rho, rho))))
  }

  // ---------------------------------------------------------------------------
  // Jacobian consistency

  /** The active region of dx is a finite vector of the buffer's full width. */
  ghost predicate FiniteStep(x: seq<Flt>, dx: seq<Flt>, n: nat)
  {
    XMax(n) <= |x| && DxMax(n) <= |dx| && AllFinite(dx) && VectorsFinite(x, n)
  }

  /** x (+) dx written back into x, as propagate and update do. */
  function Step(ops: ManifoldOps, x: seq<Flt>, dx: seq<Flt>, n: nat): (y: seq<Flt>)
    requires XMax(n) <= |x| && DxMax(n) <= |dx|
    ensures |y| == |x|
  {
    Boxplus(ops, x, dx, n, x)
  }

  /** A row that is the unit vector at k picks dx[k]. */
  lemma UnitRowPicks(row: seq<Flt>, dx: seq<Flt>, k: nat)
    requires |row| == |dx| && k < |dx| && AllFinite(dx)
    requires forall j :: 0 <= j < |row| ==> row[j] == (if j == k then One else Zero)
    ensures Dot(row, dx) == dx[k]
  {
    DotUnit(row, dx, k, One);
  }

  /** Row k of h_pos: the step's change in prediction is exactly H dx. */
  lemma PosJacobianExact(ops: ManifoldOps, x: seq<Flt>, dx: seq<Flt>, n: nat, k: nat)
    requires FiniteStep(x, dx, n) && k < 3
    ensures Sub(HPos(Step(ops, x, dx, n), |dx|).h[k], HPos(x, |dx|).h[k]) == Dot(HPos(x, |dx|).H[k], dx)
  {
    UnitRowPicks(HPos(x, |dx|).H[k], dx, dxPOS + k);
    AddSubCancel(x[xPOS + k], dx[dxPOS + k]);
  }

  /** Row k of h_vel: the step's change in prediction is exactly H dx. */
  lemma VelJacobianExact(ops: ManifoldOps, x: seq<Flt>, dx: seq<Flt>, n: nat, k: nat)
    requires FiniteStep(x, dx, n) && k < 3
    ensures Sub(HVel(Step(ops, x, dx, n), |dx|).h[k], HVel(x, |dx|).h[k]) == Dot(HVel(x, |dx|).H[k], dx)
  {
    UnitRowPicks(HVel(x, |dx|).H[k], dx, dxVEL + k);
    AddSubCancel(x[xVEL + k], dx[dxVEL + k]);
  }

  /** Negating a finite value moves it the opposite way: -(a + d) - (-a) = -1 * d. */
  lemma NegOfStep(a: Flt, d: Flt)
    requires a.Num? && d.Num?
    ensures Sub(Neg(Add(a, d)), Neg(a)) == Mul(Num(-1.0), d)
  {
    assert -(a.v + d.v) - -a.v == -1.0 * d.v;
  }

  /** h_alt: the step's change in prediction is exactly H dx. */
  lemma AltJacobianExact(ops: ManifoldOps, x: seq<Flt>, dx: seq<Flt>, n: nat)
    requires FiniteStep(x, dx, n)
    ensures Sub(HAlt(Step(ops, x, dx, n), |dx|).h[0], HAlt(x, |dx|).h[0]) == Dot(HAlt(x, |dx|).H[0], dx)
  {
    var k := xPOS + 2;
    DotUnit(HAlt(x, |dx|).H[0], dx, k, Num(-1.0));
    NegOfStep(x[k], dx[k]);
  }

  /** Row k of h_att, through the attitude boxminus: the step's residual is exactly H dx. */
  lemma AttJacobianExact(ops: ManifoldOps, x: seq<Flt>, dx: seq<Flt>, n: nat, k: nat)
    requires RoundTrips(ops) && FiniteStep(x, dx, n) && k < 3
    ensures ops.qMinus(QuatOf(HAtt(Step(ops, x, dx, n), |dx|).h), QuatOf(HAtt(x, |dx|).h)).Elements()[k]
              == Dot(HAtt(x, |dx|).H[k], dx)
  {
    var y := Step(ops, x, dx, n);
    assert ops.qMinus(QuatOf(HAtt(y, |dx|).h), QuatOf(HAtt(x, |dx|).h)) == AttDelta(dx);
    UnitRowPicks(HAtt(x, |dx|).H[k], dx, dxATT + k);
  }

  /** Row k of h_qzeta, through the bearing boxminus: the step's residual is exactly H dx. */
  lemma QzetaJacobianExact(ops: ManifoldOps, x: seq<Flt>, dx: seq<Flt>, n: nat, i: nat, k: nat)
    requires RoundTrips(ops) && FiniteStep(x, dx, n) && i < n && k < 2
    ensures ops.featMinus(QuatOf(HQzeta(Step(ops, x, dx, n), i, |dx|).h), QuatOf(HQzeta(x, i, |dx|).h)).Elements()[k]
              == Dot(HQzeta(x, i, |dx|).H[k], dx)
  {
    var side := |dx|;
    var y := Step(ops, x, dx, n);
    StepMovesBearing(ops, x, dx, n, i);
    var d := ops.featMinus(QuatOf(HQzeta(y, i, side).h), QuatOf(HQzeta(x, i, side).h));
    assert d == SlotDelta(dx, i);
    assert d.Elements()[k] == dx[DxZeta(i) + k];
    UnitRowPicks(HQzeta(x, i, side).H[k], dx, DxZeta(i) + k);
  }

  /** The step moves the bearing of slot i by its boxplus. */
  lemma StepMovesBearing(ops: ManifoldOps, x: seq<Flt>, dx: seq<Flt>, n: nat, i: nat)
    requires XMax(n) <= |x| && DxMax(n) <= |dx| && i < n
    ensures SlotQuat(Step(ops, x, dx, n), i) == ops.featPlus(SlotQuat(x, i), SlotDelta(dx, i))
  {
  }

  /** h_inv_depth: the step's change in prediction is exactly H dx. */
  lemma InvDepthJacobianExact(ops: ManifoldOps, x: seq<Flt>, dx: seq<Flt>, n: nat, i: nat)
    requires FiniteStep(x, dx, n) && i < n
    ensures Sub(HInvDepth(Step(ops, x, dx, n), i, |dx|).h[0], HInvDepth(x, i, |dx|).h[0]) == Dot(HInvDepth(x, i, |dx|).H[0], dx)
  {
    UnitRowPicks(HInvDepth(x, i, |dx|).H[0], dx, DxRho(i));
    AddSubCancel(x[XRho(i)], dx[DxRho(i)]);
  }

  /** The real-arithmetic core of the h_depth remainder, with s = r + d, rr = r^2 and q = r^2 (r + d). */
  lemma DepthRemainder(r: real, d: real, s: real, rr: real, q: real)
    requires s == r + d && rr == r * r && q == rr * s
    requires r != 0.0 && s != 0.0 && rr != 0.0 && q != 0.0
    ensures 1.0 / s - 1.0 / r == (-1.0 / rr) * d + (d * d) / q
  {
    var rInv, sInv := 1.0 / r, 1.0 / s;
    RecipDiff(r, d, s, rInv, sInv);
    RecipSquare(r, rr, rInv);
    RecipCube(rr, s, q, rInv * rInv, sInv);
    assert (-1.0 / rr) * d == -(rInv * rInv * d);
    assert (d * d) / q == d * d * (rInv * rInv * sInv);
    assert -(rInv * rInv * d) + d * d * (rInv * rInv * sInv) == rInv * rInv * d * (d * sInv - 1.0);
    assert sInv * s == 1.0 && rInv * r == 1.0;
    assert d * sInv - 1.0 == (d - s) * sInv;
    assert rInv * rInv * d * ((d - s) * sInv) == -(rInv * (rInv * r) * d * sInv);
  }

  /** 1/s - 1/r = -d/(r s) when s = r + d. */
  lemma RecipDiff(r: real, d: real, s: real, rInv: real, sInv: real)
    requires s == r + d && r != 0.0 && s != 0.0 && rInv == 1.0 / r && sInv == 1.0 / s
    ensures sInv - rInv == -(rInv * d * sInv)
  {
    assert rInv * r == 1.0;
    assert sInv * s == 1.0;
    assert rInv * sInv * r == sInv;
    assert rInv * sInv * s == rInv;
  }

  lemma RecipSquare(r: real, rr: real, rInv: real)
    requires rr == r * r && r != 0.0 && rInv == 1.0 / r
    ensures 1.0 / rr == rInv * rInv
  {
    assert rInv * r == 1.0;
  }

  lemma RecipCube(rr: real, s: real, q: real, irr: real, sInv: real)
    requires q == rr * s && rr != 0.0 && s != 0.0 && irr == 1.0 / rr && sInv == 1.0 / s
    ensures 1.0 / q == irr * sInv
  {
    assert irr * rr == 1.0;
    assert sInv * s == 1.0;
  }

  /** The h_depth remainder on finite values: 1/(a+d) - 1/a = (-1/a^2) d + d^2/(a^2 (a+d)). */
  lemma DepthStep(a: Flt, d: Flt)
    requires a.Num? && d.Num? && a.v != 0.0 && a.v + d.v != 0.0
    ensures Sub(Div(One, Add(a, d)), Div(One, a))
              == Add(Mul(Div(Neg(One), Mul(a, a)), d), Div(Mul(d, d), Mul(Mul(a, a), Add(a, d))))
  {
    var r, e := a.v, d.v;
    var s := r + e;
    var rr := r * r;
    var q := rr * s;
    SquareNonZero(r);
    NonZeroProduct(rr, s);
    var ad, aa := Add(a, d), Mul(a, a);
    assert ad == Num(s) && aa == Num(rr);
    var lhs, rhs := Num(1.0 / s - 1.0 / r), Num((-1.0 / rr) * e + (e * e) / q);
    assert Sub(Div(One, ad), Div(One, a)) == lhs;
    assert Add(Mul(Div(Neg(One), aa), d), Div(Mul(d, d), Mul(aa, ad))) == rhs;
    DepthRemainder(r, e, s, rr, q);
  }

  lemma SquareNonZero(r: real)
    requires r != 0.0
    ensures r * r != 0.0
  {
  }

  lemma NonZeroProduct(r: real, s: real)
    requires r != 0.0 && s != 0.0
    ensures r * s != 0.0
  {
  }

  /**
    For h_depth = 1/rho the first-order prediction H dx misses exactly
    d^2 / (rho^2 (rho + d)), where d is the rho step: the model's curvature.
   */
  lemma DepthJacobianRemainder(ops: ManifoldOps, x: seq<Flt>, dx: seq<Flt>, n: nat, i: nat)
    requires FiniteStep(x, dx, n) && i < n
    requires x[XRho(i)].v != 0.0 && x[XRho(i)].v + dx[DxRho(i)].v != 0.0
    ensures var rho, d := x[XRho(i)], dx[DxRho(i)];
            Sub(HDepth(Step(ops, x, dx, n), i, |dx|).h[0], HDepth(x, i, |dx|).h[0])
              == Add(Dot(HDepth(x, i, |dx|).H[0], dx), Div(Mul(d, d), Mul(Mul(rho, rho), Add(rho, d))))
  {
    var rho, d := x[XRho(i)], dx[DxRho(i)];
    var y := Step(ops, x, dx, n);
    assert y[XRho(i)] == Add(rho, d);
    DotUnit(HDepth(x, i, |dx|).H[0], dx, DxRho(i), Div(Neg(One), Mul(rho, rho)));
    DepthStep(rho, d);
  }

  /** The real-arithmetic core of the h_acc remainder. */
  lemma AccRemainder(m: real, dm: real, v: real, dv: real, b: real, db: real)
    ensures (-(m + dm) * (v + dv) + (b + db)) - (-m * v + b) == ((-m) * dv + 1.0 * db + (-v) * dm) + -(dm * dv)
  {
  }

  /** The h_acc remainder on finite values: the step misses the first-order terms by -dmu dv. */
  lemma AccStep(mu: Flt, dmu: Flt, v: Flt, dv: Flt, b: Flt, db: Flt)
    requires mu.Num? && dmu.Num? && v.Num? && dv.Num? && b.Num? && db.Num?
    ensures Sub(Add(Mul(Neg(Add(mu, dmu)), Add(v, dv)), Add(b, db)), Add(Mul(Neg(mu), v), b))
              == Add(Add(Add(Mul(Neg(mu), dv), Mul(One, db)), Mul(Neg(v), dmu)), Neg(Mul(dmu, dv)))
  {
    AccRemainder(mu.v, dmu.v, v.v, dv.v, b.v, db.v);
  }

  /**
    Row i of h_acc: the first-order prediction H dx misses exactly
    -dmu * dvel_i, the product of the drag-coefficient and velocity steps.
   */
  lemma AccJacobianRemainder(ops: ManifoldOps, x: seq<Flt>, dx: seq<Flt>, n: nat, i: nat)
    requires FiniteStep(x, dx, n) && i < 2
    ensures Sub(HAcc(Step(ops, x, dx, n), |dx|).h[i], HAcc(x, |dx|).h[i])
              == Add(Dot(HAcc(x, |dx|).H[i], dx), Neg(Mul(dx[dxMU], dx[dxVEL + i])))
  {
    var y := Step(ops, x, dx, n);
    var side := |dx|;
    assert AccInputsFinite(x);
    assert y[xMU] == Add(x[xMU], dx[dxMU]);
    assert y[xVEL + i] == Add(x[xVEL + i], dx[dxVEL + i]);
    assert y[xB_A + i] == Add(x[xB_A + i], dx[dxB_A + i]);
    assert AccInputsFinite(y);
    AccPrediction(x, side);
    AccPrediction(y, side);
    AccJacobianEntries(x, side);
    var row := HAcc(x, side).H[i];
    DotThree(row, dx, dxVEL + i, dxB_A + i, dxMU);
    AccStep(x[xMU], dx[dxMU], x[xVEL + i], dx[dxVEL + i], x[xB_A + i], dx[dxB_A + i]);
  }
}

=== FILE: propagation.dfy ===
/**
  `propagate(u, t)` of src/vi_ekf.cpp: the first call only latches the clock;
  every later call integrates the state over dt = t - prev_t_ with boxplus,
  steps the covariance with

    P += (A P + P A^T + G Qu G^T + Qx) dt,

  and finishes with fix_depth. Qu is diag(qu) and Qx the process noise fixed
  at construction. The timing log and the NaN/negative-depth prints are
  output only and are not modelled.
 */
module Propagation {
  import opened Flt
  import opened Buffers
  import opened Layout
  import opened Linalg
  import opened Manifold
  import opened Estimator
  import opened BoxOps
  import opened Dynamics

  /** prev_t_ below this value means no time stamp has been seen yet. */
  const LatchThreshold: real := 0.0001

  // ---------------------------------------------------------------------------
  // The covariance step

  /** `A P + P A^T + G Qu G^T + Qx`, summed left to right as Eigen evaluates it. */
  function CovRate(p: seq<seq<Flt>>, a: seq<seq<Flt>>, g: seq<seq<Flt>>, qu: seq<Flt>, qx: seq<seq<Flt>>, side: nat): (r: seq<seq<Flt>>)
    requires IsSquare(p, side) && IsSquare(a, side) && IsMatrix(g, side, |qu|) && IsSquare(qx, side)
    ensures IsSquare(r, side)
  {
    var ap := MatMul(a, p, side, side);
    var pat := MatMul(p, Transpose(a, side), side, side);
    var gqg := MatMul(MatMul(g, Diag(qu), |qu|, |qu|), Transpose(g, |qu|), |qu|, side);
    MatAdd(MatAdd(MatAdd(ap, pat, side), gqg, side), qx, side)
  }

  /** `P += CovRate * dt`. */
  function CovStep(p: seq<seq<Flt>>, a: seq<seq<Flt>>, g: seq<seq<Flt>>, qu: seq<Flt>, qx: seq<seq<Flt>>, dt: real, side: nat): (r: seq<seq<Flt>>)
    requires IsSquare(p, side) && IsSquare(a, side) && IsMatrix(g, side, |qu|) && IsSquare(qx, side)
    ensures IsSquare(r, side)
  {
    MatAdd(p, MatScale(CovRate(p, a, g, qu, qx, side), side, Num(dt)), side)
  }

  /** `dx_ * dt`, entrywise. */
  function ScaleVec(v: seq<Flt>, dt: real): (r: seq<Flt>)
    ensures |r| == |v|
    ensures forall k :: 0 <= k < |v| ==> r[k] == Mul(v[k], Num(dt))
  {
    seq(|v|, k requires 0 <= k < |v| => Mul(v[k], Num(dt)))
  }

  // ---------------------------------------------------------------------------
  // propagate

  /** What propagate needs besides the state: Qu's diagonal, Qx, the drag switch and the nonlinear blocks. */
  datatype Model = Model(nl: Nonlinear, useDrag: bool, qu: seq<Flt>, qx: seq<seq<Flt>>)

  ghost predicate ModelWf(cfg: Config, m: Model)
  {
    |m.qu| == uTOTAL && IsSquare(m.qx, Side(cfg))
  }

  /** Derivative buffers of the shapes `dynamics` writes: dx_ (side x 1), A_ (side x side), G_ (side x 6). */
  ghost predicate Shaped(cfg: Config, d: Derivatives)
  {
    IsMatrix(d.xdot, Side(cfg), 1) && IsSquare(d.A, Side(cfg)) && IsMatrix(d.G, Side(cfg), uTOTAL)
  }

  /** `boxplus(x_, dx_ * dt, x_)`. */
  function StepX(cfg: Config, ops: ManifoldOps, s: Ekf, d: Derivatives, dt: real): (x: seq<Flt>)
    requires Wf(cfg, s) && Shaped(cfg, d)
    ensures |x| == |s.x|
  {
    Boxplus(ops, s.x, ScaleVec(Rates(d, Side(cfg)), dt), s.len, s.x)
  }

  /** `P_ += (A_ P_ + P_ A_^T + G_ Qu_ G_^T + Qx_) dt`. */
  function StepP(cfg: Config, m: Model, s: Ekf, d: Derivatives, dt: real): (p: seq<seq<Flt>>)
    requires Wf(cfg, s) && ModelWf(cfg, m) && Shaped(cfg, d)
    ensures IsSquare(p, Side(cfg))
  {
    CovStep(s.p, d.A, d.G, m.qu, m.qx, dt, Side(cfg))
  }

  /** `dt = t - prev_t_`. */
  function Elapsed(s: Ekf, t: real): real
  {
    t - s.prevT
  }

  /** x and P after integrating over dt with the derivatives d. */
  function Integrated(cfg: Config, ops: ManifoldOps, m: Model, s: Ekf, d: Derivatives, dt: real): (r: Ekf)
    requires Wf(cfg, s) && ModelWf(cfg, m) && Shaped(cfg, d)
    ensures Wf(cfg, r)
  {
    s.(x := StepX(cfg, ops, s, d, dt), p := StepP(cfg, m, s, d, dt))
  }

  /** The body of propagate once `dynamics` has filled dx_, A_ and G_ with d. */
  function PropagateWith(cfg: Config, ops: ManifoldOps, m: Model, s: Ekf, d: Derivatives, t: real): (r: Ekf)
    requires Wf(cfg, s) && ModelWf(cfg, m) && Shaped(cfg, d)
    ensures Wf(cfg, r)
    ensures r.prevT == t
    ensures r.len == s.len && r.ids == s.ids && r.nextId == s.nextId
    ensures s.prevT < LatchThreshold ==> r == s.(startT := t, prevT := t)
    ensures s.prevT >= LatchThreshold ==> r.startT == s.startT
  {
    if s.prevT < LatchThreshold then s.(startT := t, prevT := t)
    else
      FixDepth(cfg, Integrated(cfg, ops, m, s, d, Elapsed(s, t)).(prevT := t))
  }

  /** `propagate(u, t)`. */
  function Propagate(cfg: Config, ops: ManifoldOps, m: Model, s: Ekf, u: seq<Flt>, t: real): (r: Ekf)
    requires Wf(cfg, s) && ModelWf(cfg, m) && |u| == uTOTAL
    ensures Wf(cfg, r)
    ensures r.prevT == t
    ensures r.len == s.len && r.ids == s.ids && r.nextId == s.nextId
    ensures s.prevT < LatchThreshold ==> r == s.(startT := t, prevT := t)
    ensures s.prevT >= LatchThreshold ==> r.startT == s.startT
  {
    PropagateWith(cfg, ops, m, s, Dynamics.Dynamics(m.nl, m.useDrag, s.x, u, s.len, Side(cfg)), t)
  }

  // ---------------------------------------------------------------------------
  // Symmetry of the covariance step

  /** Multiplication commutes entrywise, so a dot product does too. */
  lemma DotComm(a: seq<Flt>, b: seq<Flt>)
    requires |a| == |b|
    ensures Dot(a, b) == Dot(b, a)
  {
    var s := seq(|a|, k requires 0 <= k < |a| => Mul(a[k], b[k]));
    var t := seq(|b|, k requires 0 <= k < |b| => Mul(b[k], a[k]));
    forall k | 0 <= k < |a|
      ensures s[k] == t[k]
    {
      MulComm(a[k], b[k]);
    }
    assert s == t;
  }

  /** A column of a symmetric matrix is the matching row. */
  lemma ColOfSymmetric(p: seq<seq<Flt>>, side: nat, j: nat)
    requires IsSquare(p, side) && Symmetric(p) && j < side
    ensures Col(p, side, j) == p[j]
  {
  }

  /** A column of A^T is the matching row of A. */
  lemma ColOfTranspose(a: seq<seq<Flt>>, cols: nat, i: nat)
    requires IsMatrix(a, |a|, cols) && i < |a|
    ensures Col(Transpose(a, cols), |a|, i) == a[i]
  {
  }

  /** (A P)^T = P A^T for symmetric P: entry (i, j) of one is entry (j, i) of the other. */
  lemma ProductTransposes(p: seq<seq<Flt>>, a: seq<seq<Flt>>, side: nat, i: nat, j: nat)
    requires IsSquare(p, side) && IsSquare(a, side) && Symmetric(p) && i < side && j < side
    ensures MatMul(a, p, side, side)[i][j] == MatMul(p, Transpose(a, side), side, side)[j][i]
  {
    ColOfSymmetric(p, side, j);
    ColOfTranspose(a, side, i);
    DotComm(a[i], p[j]);
  }

  /** Right-multiplying a finite row by diag(q) scales its entries. */
  lemma RowTimesDiag(g: seq<seq<Flt>>, q: seq<Flt>, i: nat, k: nat)
    requires IsMatrix(g, |g|, |q|) && i < |g| && k < |q| && AllFinite(g[i])
    ensures MatMul(g, Diag(q), |q|, |q|)[i][k] == Mul(g[i][k], q[k])
  {
    var c := Col(Diag(q), |q|, k);
    var t := seq(|q|, l requires 0 <= l < |q| => Mul(g[i][l], c[l]));
    forall l | 0 <= l < |q| && l != k
      ensures t[l] == Zero
    {
      assert c[l] == Zero;
    }
    SumSingle(t, k);
  }

  /** G diag(q) G^T is symmetric for finite G and q. */
  lemma SandwichSymmetric(g: seq<seq<Flt>>, q: seq<Flt>, side: nat, i: nat, j: nat)
    requires IsMatrix(g, side, |q|) && MatFinite(g) && AllFinite(q) && i < side && j < side
    ensures var gqg := MatMul(MatMul(g, Diag(q), |q|, |q|), Transpose(g, |q|), |q|, side);
            gqg[i][j] == gqg[j][i]
  {
    var gq := MatMul(g, Diag(q), |q|, |q|);
    ColOfTranspose(g, |q|, j);
    ColOfTranspose(g, |q|, i);
    var s := seq(|q|, k requires 0 <= k < |q| => Mul(gq[i][k], g[j][k]));
    var t := seq(|q|, k requires 0 <= k < |q| => Mul(gq[j][k], g[i][k]));
    forall k | 0 <= k < |q|
      ensures s[k] == t[k]
    {
      RowTimesDiag(g, q, i, k);
      RowTimesDiag(g, q, j, k);
      MulSwapOuter(g[i][k], q[k], g[j][k]);
    }
    assert s == t;
  }

  /** The rate CovRate is symmetric when P and Qx are and G, qu are finite. */
  lemma CovRateSymmetric(p: seq<seq<Flt>>, a: seq<seq<Flt>>, g: seq<seq<Flt>>, qu: seq<Flt>, qx: seq<seq<Flt>>, side: nat, i: nat, j: nat)
    requires IsSquare(p, side) && IsSquare(a, side) && IsMatrix(g, side, |qu|) && IsSquare(qx, side)
    requires Symmetric(p) && Symmetric(qx) && MatFinite(g) && AllFinite(qu) && i < side && j < side
    ensures CovRate(p, a, g, qu, qx, side)[i][j] == CovRate(p, a, g, qu, qx, side)[j][i]
  {
    var ap := MatMul(a, p, side, side);
    var pat := MatMul(p, Transpose(a, side), side, side);
    ProductTransposes(p, a, side, i, j);
    ProductTransposes(p, a, side, j, i);
    AddComm(ap[i][j], pat[i][j]);
    SandwichSymmetric(g, qu, side, i, j);
  }

  lemma CovStepEntrySymmetric(p: seq<seq<Flt>>, a: seq<seq<Flt>>, g: seq<seq<Flt>>, qu: seq<Flt>, qx: seq<seq<Flt>>, dt: real, side: nat, i: nat, j: nat)
    requires IsSquare(p, side) && IsSquare(a, side) && IsMatrix(g, side, |qu|) && IsSquare(qx, side)
    requires Symmetric(p) && Symmetric(qx) && MatFinite(g) && AllFinite(qu) && i < side && j < side
    ensures CovStep(p, a, g, qu, qx, dt, side)[i][j] == CovStep(p, a, g, qu, qx, dt, side)[j][i]
  {
    var c := CovRate(p, a, g, qu, qx, side);
    CovRateSymmetric(p, a, g, qu, qx, side, i, j);
    var sc := MatScale(c, side, Num(dt));
    assert sc[i][j] == sc[j][i];
    assert p[i][j] == p[j][i];
  }

  /**
    The covariance step keeps P symmetric whenever Qx is symmetric and G and
    the diagonal of Qu are finite; A is arbitrary.
   */
  lemma CovStepKeepsSymmetry(p: seq<seq<Flt>>, a: seq<seq<Flt>>, g: seq<seq<Flt>>, qu: seq<Flt>, qx: seq<seq<Flt>>, dt: real, side: nat)
    requires IsSquare(p, side) && IsSquare(a, side) && IsMatrix(g, side, |qu|) && IsSquare(qx, side)
    requires Symmetric(p) && Symmetric(qx) && MatFinite(g) && AllFinite(qu)
    ensures Symmetric(CovStep(p, a, g, qu, qx, dt, side))
  {
    var r := CovStep(p, a, g, qu, qx, dt, side);
    forall i, j | 0 <= i < side && 0 <= j < side
      ensures r[i][j] == r[j][i]
    {
      CovStepEntrySymmetric(p, a, g, qu, qx, dt, side, i, j);
    }
  }

  /** fix_depth rewrites only diagonal entries of P, so it keeps P symmetric. */
  lemma FixDepthKeepsSymmetry(cfg: Config, s: Ekf)
    requires Wf(cfg, s) && Symmetric(s.p)
    ensures Symmetric(FixDepth(cfg, s).p)
  {
  }

  // ---------------------------------------------------------------------------
  // Laws of propagate, for any derivative buffers

  /** fix_depth never touches the vehicle part of x. */
  lemma FixDepthKeepsVehicle(cfg: Config, e: Ekf, k: nat)
    requires Wf(cfg, e) && k < xZ
    ensures FixDepth(cfg, e).x[k] == e.x[k]
  {
    assert forall j :: 0 <= j < e.len ==> k != XRho(j);
  }

  /** Past the latch, the vehicle part of x is the integrated one. */
  lemma VehicleIsIntegrated(cfg: Config, ops: ManifoldOps, m: Model, s: Ekf, d: Derivatives, t: real, k: nat)
    requires Wf(cfg, s) && ModelWf(cfg, m) && Shaped(cfg, d) && s.prevT >= LatchThreshold && k < xZ
    ensures PropagateWith(cfg, ops, m, s, d, t).x[k] == StepX(cfg, ops, s, d, Elapsed(s, t))[k]
  {
    FixDepthKeepsVehicle(cfg, Integrated(cfg, ops, m, s, d, Elapsed(s, t)).(prevT := t), k);
  }

  /** boxplus moves position and velocity by their rate times dt. */
  lemma StepXMovesVectors(cfg: Config, ops: ManifoldOps, s: Ekf, d: Derivatives, dt: real, k: nat)
    requires Wf(cfg, s) && Shaped(cfg, d) && xPOS <= k < xATT
    ensures StepX(cfg, ops, s, d, dt)[k] == Add(s.x[k], Mul(RateOf(d, k), Num(dt)))
  {
  }

  /** Past the latch, position and velocity move by their rate times dt. */
  lemma PropagateIntegratesVectors(cfg: Config, ops: ManifoldOps, m: Model, s: Ekf, d: Derivatives, t: real, k: nat)
    requires Wf(cfg, s) && ModelWf(cfg, m) && Shaped(cfg, d) && s.prevT >= LatchThreshold && xPOS <= k < xATT
    ensures PropagateWith(cfg, ops, m, s, d, t).x[k] == Add(s.x[k], Mul(RateOf(d, k), Num(Elapsed(s, t))))
  {
    VehicleIsIntegrated(cfg, ops, m, s, d, t, k);
    StepXMovesVectors(cfg, ops, s, d, Elapsed(s, t), k);
  }

  /** boxplus by a zero rate keeps a bias entry; p = k - 1 is its row in dx_. */
  lemma StepXZeroRate(cfg: Config, ops: ManifoldOps, s: Ekf, d: Derivatives, dt: real, k: nat, p: nat)
    requires Wf(cfg, s) && Shaped(cfg, d) && xB_A <= k < xZ && p + 1 == k && RateOf(d, p) == Zero
    ensures StepX(cfg, ops, s, d, dt)[k] == s.x[k]
  {
    AddZero(s.x[k]);
  }

  /** A zero rate leaves a bias entry as it is; p = k - 1 is its row in dx_. */
  lemma ZeroRateKeepsBias(cfg: Config, ops: ManifoldOps, m: Model, s: Ekf, d: Derivatives, t: real, k: nat, p: nat)
    requires Wf(cfg, s) && ModelWf(cfg, m) && Shaped(cfg, d) && xB_A <= k < xZ && p + 1 == k && RateOf(d, p) == Zero
    ensures PropagateWith(cfg, ops, m, s, d, t).x[k] == s.x[k]
  {
    if s.prevT >= LatchThreshold {
      var dt := Elapsed(s, t);
      VehicleIsIntegrated(cfg, ops, m, s, d, t, k);
      StepXZeroRate(cfg, ops, s, d, dt, k, p);
    }
  }

  /** boxplus turns the attitude by the attitude rows of dx_ times dt. */
  lemma StepXTurnsAttitude(cfg: Config, ops: ManifoldOps, s: Ekf, d: Derivatives, dt: real)
    requires Wf(cfg, s) && Shaped(cfg, d)
    ensures AttQuat(StepX(cfg, ops, s, d, dt)) == ops.qPlus(AttQuat(s.x), Spin(d, Num(dt)))
  {
    var dx := ScaleVec(Rates(d, Side(cfg)), dt);
    assert AttDelta(dx) == Vec3(dx[dxATT], dx[dxATT + 1], dx[dxATT + 2]);
  }

  /** Past the latch the attitude of propagate is the integrated one. */
  lemma AttitudeIsIntegrated(cfg: Config, ops: ManifoldOps, m: Model, s: Ekf, d: Derivatives, t: real)
    requires Wf(cfg, s) && ModelWf(cfg, m) && Shaped(cfg, d) && s.prevT >= LatchThreshold
    ensures AttQuat(PropagateWith(cfg, ops, m, s, d, t).x) == AttQuat(StepX(cfg, ops, s, d, Elapsed(s, t)))
  {
    VehicleIsIntegrated(cfg, ops, m, s, d, t, xATT);
    VehicleIsIntegrated(cfg, ops, m, s, d, t, xATT + 1);
    VehicleIsIntegrated(cfg, ops, m, s, d, t, xATT + 2);
    VehicleIsIntegrated(cfg, ops, m, s, d, t, xATT + 3);
  }

  /** Past the latch the attitude moves by q (+) (omega dt), omega the attitude rows of dx_. */
  lemma RateTurnsAttitude(cfg: Config, ops: ManifoldOps, m: Model, s: Ekf, d: Derivatives, t: real)
    requires Wf(cfg, s) && ModelWf(cfg, m) && Shaped(cfg, d) && s.prevT >= LatchThreshold
    ensures AttQuat(PropagateWith(cfg, ops, m, s, d, t).x) == ops.qPlus(AttQuat(s.x), Spin(d, Num(Elapsed(s, t))))
  {
    AttitudeIsIntegrated(cfg, ops, m, s, d, t);
    StepXTurnsAttitude(cfg, ops, s, d, Elapsed(s, t));
  }

  /** The covariance step keeps P symmetric, for symmetric Qx and finite G, qu. */
  lemma IntegratedCovariance(cfg: Config, ops: ManifoldOps, m: Model, s: Ekf, d: Derivatives, dt: real)
    requires Wf(cfg, s) && ModelWf(cfg, m) && Shaped(cfg, d)
    requires Symmetric(s.p) && Symmetric(m.qx) && AllFinite(m.qu) && MatFinite(d.G)
    ensures Symmetric(Integrated(cfg, ops, m, s, d, dt).p)
  {
    CovStepKeepsSymmetry(s.p, d.A, d.G, m.qu, m.qx, dt, Side(cfg));
  }

  /** Past the latch, P after the step is symmetric when it was, for symmetric Qx and finite G, qu. */
  lemma StepKeepsSymmetry(cfg: Config, ops: ManifoldOps, m: Model, s: Ekf, d: Derivatives, t: real)
    requires Wf(cfg, s) && ModelWf(cfg, m) && Shaped(cfg, d)
    requires Symmetric(s.p) && Symmetric(m.qx) && AllFinite(m.qu) && MatFinite(d.G)
    ensures Symmetric(PropagateWith(cfg, ops, m, s, d, t).p)
  {
    if s.prevT >= LatchThreshold {
      var e := Integrated(cfg, ops, m, s, d, Elapsed(s, t));
      IntegratedCovariance(cfg, ops, m, s, d, Elapsed(s, t));
      FixDepthKeepsSymmetry(cfg, e.(prevT := t));
      assert PropagateWith(cfg, ops, m, s, d, t) == FixDepth(cfg, e.(prevT := t));
    }
  }

  // ---------------------------------------------------------------------------
  // Laws of propagate with the derivatives of `dynamics`

  /** After a step, P is still symmetric, provided it was before, Qx is symmetric, and G and Qu are finite. */
  lemma PropagateKeepsSymmetry(cfg: Config, ops: ManifoldOps, m: Model, s: Ekf, u: seq<Flt>, t: real)
    requires Wf(cfg, s) && ModelWf(cfg, m) && |u| == uTOTAL
    requires Symmetric(s.p) && Symmetric(m.qx) && AllFinite(m.qu) && MatFinite(Dynamics.Dynamics(m.nl, m.useDrag, s.x, u, s.len, Side(cfg)).G)
    ensures Symmetric(Propagate(cfg, ops, m, s, u, t).p)
  {
    StepKeepsSymmetry(cfg, ops, m, s, Dynamics.Dynamics(m.nl, m.useDrag, s.x, u, s.len, Side(cfg)), t);
  }

  /** The accelerometer biases, gyro biases and drag coefficient never change in propagation. */
  lemma PropagateKeepsBiases(cfg: Config, ops: ManifoldOps, m: Model, s: Ekf, u: seq<Flt>, t: real, k: nat)
    requires Wf(cfg, s) && ModelWf(cfg, m) && |u| == uTOTAL && xB_A <= k < xZ
    ensures Propagate(cfg, ops, m, s, u, t).x[k] == s.x[k]
  {
    var p := k - 1;
    var side := Side(cfg);
    Dynamics.BiasRate(m.nl, m.useDrag, s.x, u, s.len, side, p);
    ZeroRateKeepsBias(cfg, ops, m, s, Dynamics.Dynamics(m.nl, m.useDrag, s.x, u, s.len, side), t, k, p);
  }

  /** The attitude moves by the bias-corrected gyro reading times dt, through q (+) delta. */
  lemma PropagateTurnsAttitude(cfg: Config, ops: ManifoldOps, m: Model, s: Ekf, u: seq<Flt>, t: real)
    requires Wf(cfg, s) && ModelWf(cfg, m) && |u| == uTOTAL && s.prevT >= LatchThreshold
    ensures AttQuat(Propagate(cfg, ops, m, s, u, t).x) == ops.qPlus(AttQuat(s.x), GyroSpin(s.x, u, Num(Elapsed(s, t))))
  {
    var side := Side(cfg);
    var dt := Num(Elapsed(s, t));
    RateTurnsAttitude(cfg, ops, m, s, Dynamics.Dynamics(m.nl, m.useDrag, s.x, u, s.len, side), t);
    Dynamics.GyroSpins(m.nl, m.useDrag, s.x, u, s.len, side, dt);
  }

  /** A second call right after the latch integrates over the time since the latched stamp. */
  lemma LatchThenStep(cfg: Config, ops: ManifoldOps, m: Model, s: Ekf, u: seq<Flt>, t0: real, t1: real)
    requires Wf(cfg, s) && ModelWf(cfg, m) && |u| == uTOTAL && s.prevT < LatchThreshold && t0 >= LatchThreshold
    ensures var r := Propagate(cfg, ops, m, Propagate(cfg, ops, m, s, u, t0), u, t1);
            r.startT == t0 && r.prevT == t1
  {
  }
}

=== FILE: slots.dfy ===
/**
  The feature-slot splices shared by both generations of the estimator:
  appending a slot at the end of the active region, deleting slot i by
  shifting everything after it up (5 entries of x, 3 rows and 3 columns of P),
  and zeroing the inactive tail. x and P are the full preallocated buffers.
 */
module Slots {
  import opened Flt
  import opened Buffers
  import opened Layout

  // ---------------------------------------------------------------------------
  // Sequence helpers

  /** The list with its i-th element removed, `v.erase(v.begin() + i)`. */
  function DeleteAt<T>(s: seq<T>, i: nat): (r: seq<T>)
    requires i < |s|
    ensures |r| == |s| - 1
    ensures forall k :: 0 <= k < i ==> r[k] == s[k]
    ensures forall k :: i <= k < |r| ==> r[k] == s[k + 1]
  {
    s[..i] + s[i + 1..]
  }

  /** Position of the first occurrence of v in s. */
  function IndexOf<T(==)>(s: seq<T>, v: T): (i: nat)
    requires v in s
    ensures i < |s| && s[i] == v
    ensures forall k :: 0 <= k < i ==> s[k] != v
  {
    if s[0] == v then 0 else 1 + IndexOf(s[1..], v)
  }

  ghost predicate Distinct<T>(s: seq<T>)
  {
    forall a, b :: 0 <= a < b < |s| ==> s[a] != s[b]
  }

  lemma DeleteAtKeepsDistinct<T>(s: seq<T>, i: nat)
    requires i < |s| && Distinct(s)
    ensures Distinct(DeleteAt(s, i))
    ensures s[i] !in DeleteAt(s, i)
    ensures forall v :: v in DeleteAt(s, i) <==> v in s && v != s[i]
  {
    var r := DeleteAt(s, i);
    forall v | v in s && v != s[i]
      ensures v in r
    {
      var k :| 0 <= k < |s| && s[k] == v;
      if k < i {
        assert r[k] == v;
      } else {
        assert r[k - 1] == v;
      }
    }
  }

  // ---------------------------------------------------------------------------
  // The slot view of x

  /** The five entries of feature slot i: bearing quaternion, then rho. */
  function SlotAt(x: seq<Flt>, i: nat): (e: seq<Flt>)
    requires XMax(i + 1) <= |x|
    ensures |e| == 5
  {
    x[XZeta(i)..XZeta(i) + 5]
  }

  /** The n active feature slots of x. */
  function SlotsOf(x: seq<Flt>, n: nat): (v: seq<seq<Flt>>)
    requires XMax(n) <= |x|
    ensures |v| == n
    ensures forall i :: 0 <= i < n ==> v[i] == SlotAt(x, i)
  {
    seq(n, i requires 0 <= i < n => SlotAt(x, i))
  }

  // ---------------------------------------------------------------------------
  // Append

  /** Writes slot n of x with bearing q and inverse depth rho. */
  function AppendSlotX(x: seq<Flt>, n: nat, q: seq<Flt>, rho: Flt): (r: seq<Flt>)
    requires |q| == 4 && XMax(n + 1) <= |x|
    ensures |r| == |x|
  {
    WriteRange(x, XZeta(n), q + [rho])
  }

  /**
    Grows the covariance from n to n+1 slots: the three new rows and columns
    inside the new active block are zeroed, then the new diagonal block is set
    to p0. Entries outside the new active block are not written.
   */
  function AppendSlotP(p: seq<seq<Flt>>, side: nat, n: nat, p0: seq<seq<Flt>>): (r: seq<seq<Flt>>)
    requires IsSquare(p, side) && IsSquare(p0, 3) && DxMax(n + 1) <= side
    ensures IsSquare(r, side)
  {
    var m := DxMax(n);
    var p1 := WriteBlock(p, side, m, 0, FillMatrix(3, m, Zero), m);
    var p2 := WriteBlock(p1, side, 0, m, FillMatrix(m, 3, Zero), 3);
    WriteBlock(p2, side, m, m, p0, 3)
  }

  /** Appending slot n adds exactly one slot to the view and keeps the vehicle block. */
  lemma AppendSlotXAppends(x: seq<Flt>, n: nat, q: seq<Flt>, rho: Flt)
    requires |q| == 4 && XMax(n + 1) <= |x|
    ensures SlotsOf(AppendSlotX(x, n, q, rho), n + 1) == SlotsOf(x, n) + [q + [rho]]
    ensures AppendSlotX(x, n, q, rho)[..XMax(n)] == x[..XMax(n)]
    ensures forall k :: XMax(n + 1) <= k < |x| ==> AppendSlotX(x, n, q, rho)[k] == x[k]
  {
    var r := AppendSlotX(x, n, q, rho);
    var a := SlotsOf(r, n + 1);
    var b := SlotsOf(x, n) + [q + [rho]];
    forall i | 0 <= i < n + 1
      ensures a[i] == b[i]
    {
      if i < n {
        assert SlotAt(r, i) == SlotAt(x, i);
      } else {
        assert SlotAt(r, n) == q + [rho];
      }
    }
  }

  /**
    Entry by entry: the new rows and columns are zero except the new 3x3
    diagonal block, which is p0; every other entry of the buffer is unchanged.
   */
  lemma AppendSlotPEntries(p: seq<seq<Flt>>, side: nat, n: nat, p0: seq<seq<Flt>>, i: nat, j: nat)
    requires IsSquare(p, side) && IsSquare(p0, 3) && DxMax(n + 1) <= side
    requires i < side && j < side
    ensures var r := AppendSlotP(p, side, n, p0);
            && (DxMax(n) <= i < DxMax(n + 1) && DxMax(n) <= j < DxMax(n + 1) ==> r[i][j] == p0[i - DxMax(n)][j - DxMax(n)])
            && (DxMax(n) <= i < DxMax(n + 1) && j < DxMax(n) ==> r[i][j] == Zero)
            && (i < DxMax(n) && DxMax(n) <= j < DxMax(n + 1) ==> r[i][j] == Zero)
            && (!(i < DxMax(n + 1) && j < DxMax(n + 1)) || (i < DxMax(n) && j < DxMax(n)) ==> r[i][j] == p[i][j])
  {
  }

  /**
    r is p grown from n to n+1 slots: inside the new rows and columns of the
    active block everything is zero except the 3x3 diagonal block, which is
    p0; every other entry is p's.
   */
  ghost predicate GrownBy(r: seq<seq<Flt>>, p: seq<seq<Flt>>, side: nat, n: nat, p0: seq<seq<Flt>>)
    requires IsSquare(r, side) && IsSquare(p, side) && IsSquare(p0, 3)
  {
    forall i, j :: 0 <= i < side && 0 <= j < side ==>
      r[i][j] == (if DxMax(n) <= i < DxMax(n + 1) && DxMax(n) <= j < DxMax(n + 1) then p0[i - DxMax(n)][j - DxMax(n)]
                  else if (DxMax(n) <= i < DxMax(n + 1) && j < DxMax(n)) || (i < DxMax(n) && DxMax(n) <= j < DxMax(n + 1)) then Zero
                  else p[i][j])
  }

  lemma AppendSlotPGrows(p: seq<seq<Flt>>, side: nat, n: nat, p0: seq<seq<Flt>>)
    requires IsSquare(p, side) && IsSquare(p0, 3) && DxMax(n + 1) <= side
    ensures GrownBy(AppendSlotP(p, side, n, p0), p, side, n, p0)
  {
    forall i, j | 0 <= i < side && 0 <= j < side
      ensures AppendSlotP(p, side, n, p0)[i][j] ==
        (if DxMax(n) <= i < DxMax(n + 1) && DxMax(n) <= j < DxMax(n + 1) then p0[i - DxMax(n)][j - DxMax(n)]
         else if (DxMax(n) <= i < DxMax(n + 1) && j < DxMax(n)) || (i < DxMax(n) && DxMax(n) <= j < DxMax(n + 1)) then Zero
         else p[i][j])
    {
      AppendSlotPEntries(p, side, n, p0, i, j);
    }
  }

  // ---------------------------------------------------------------------------
  // Delete

  /**
    Removes slot i of n from x: when i is not the last slot, everything from
    slot i+1 to the end of the buffer moves up by 5; when it is the last, x is
    left as it is.
   */
  function RemoveSlotX(x: seq<Flt>, i: nat, n: nat): (r: seq<Flt>)
    requires i < n && XMax(n) <= |x|
    ensures |r| == |x|
  {
    if i < n - 1 then ShiftDown(x, XZeta(i), 5) else x
  }

  /** Removes slot i of n from P: rows, then columns, from slot i+1 on move up/left by 3. */
  function RemoveSlotP(p: seq<seq<Flt>>, side: nat, i: nat, n: nat): (r: seq<seq<Flt>>)
    requires i < n && IsSquare(p, side) && DxMax(n) <= side
    ensures IsSquare(r, side)
  {
    if i < n - 1 then ShiftColsLeft(ShiftRowsUp(p, DxZeta(i), 3), DxZeta(i), 3, side) else p
  }

  /** Index of the old P row/column that lands at k once slot i is removed. */
  function Skip(i: nat, k: nat): nat
  {
    if k < DxZeta(i) then k else k + 3
  }

  /** Deleting slot i removes exactly that slot from the view and keeps the vehicle block. */
  lemma RemoveSlotXDeletes(x: seq<Flt>, i: nat, n: nat)
    requires i < n && XMax(n) <= |x|
    ensures SlotsOf(RemoveSlotX(x, i, n), n - 1) == DeleteAt(SlotsOf(x, n), i)
    ensures RemoveSlotX(x, i, n)[..xZ] == x[..xZ]
    ensures forall k :: 0 <= k < XZeta(i) ==> RemoveSlotX(x, i, n)[k] == x[k]
  {
    var r := RemoveSlotX(x, i, n);
    var a := SlotsOf(r, n - 1);
    var b := DeleteAt(SlotsOf(x, n), i);
    forall j | 0 <= j < n - 1
      ensures a[j] == b[j]
    {
      if j < i {
        assert SlotAt(r, j) == SlotAt(x, j);
      } else {
        assert SlotAt(r, j) == SlotAt(x, j + 1);
      }
    }
  }

  /** Every retained covariance entry lands at its re-indexed position. */
  lemma RemoveSlotPReindexes(p: seq<seq<Flt>>, side: nat, i: nat, n: nat)
    requires i < n && IsSquare(p, side) && DxMax(n) <= side
    ensures var r := RemoveSlotP(p, side, i, n);
            forall a, b :: 0 <= a < DxMax(n - 1) && 0 <= b < DxMax(n - 1) ==>
              Skip(i, a) < DxMax(n) && Skip(i, b) < DxMax(n) && r[a][b] == p[Skip(i, a)][Skip(i, b)]
  {
  }

  /** Removing the slot that was just appended restores the active region of x and P. */
  lemma AppendThenRemoveRestores(x: seq<Flt>, p: seq<seq<Flt>>, side: nat, n: nat, q: seq<Flt>, rho: Flt, p0: seq<seq<Flt>>)
    requires |q| == 4 && XMax(n + 1) <= |x|
    requires IsSquare(p, side) && IsSquare(p0, 3) && DxMax(n + 1) <= side
    ensures RemoveSlotX(AppendSlotX(x, n, q, rho), n, n + 1)[..XMax(n)] == x[..XMax(n)]
    ensures TopLeft(RemoveSlotP(AppendSlotP(p, side, n, p0), side, n, n + 1), side, DxMax(n)) == TopLeft(p, side, DxMax(n))
  {
    AppendSlotXAppends(x, n, q, rho);
    var r := AppendSlotP(p, side, n, p0);
    forall a, b | 0 <= a < DxMax(n) && 0 <= b < DxMax(n)
      ensures r[a][b] == p[a][b]
    {
      AppendSlotPEntries(p, side, n, p0, a, b);
    }
    var t1 := TopLeft(r, side, DxMax(n));
    var t2 := TopLeft(p, side, DxMax(n));
    forall a | 0 <= a < DxMax(n)
      ensures t1[a] == t2[a]
    {
    }
  }

  // ---------------------------------------------------------------------------
  // Clean-up of the inactive tail

  /** Zeroes x from XMax(n) on. */
  function ZeroInactiveX(x: seq<Flt>, n: nat): (r: seq<Flt>)
    requires XMax(n) <= |x|
    ensures |r| == |x|
  {
    ZeroFrom(x, XMax(n), Zero)
  }

  /** Zeroes every column, then every row, of P from DxMax(n) on. */
  function ZeroInactiveP(p: seq<seq<Flt>>, side: nat, n: nat): (r: seq<seq<Flt>>)
    requires IsSquare(p, side) && DxMax(n) <= side
    ensures IsSquare(r, side)
  {
    ZeroRowsFrom(ZeroColsFrom(p, DxMax(n), side, Zero), DxMax(n), side, Zero)
  }

  /** The clean-up leaves the active region alone and zeroes exactly what lies outside it. */
  lemma ZeroInactiveEntries(x: seq<Flt>, p: seq<seq<Flt>>, side: nat, n: nat)
    requires XMax(n) <= |x| && IsSquare(p, side) && DxMax(n) <= side
    ensures forall k :: 0 <= k < |x| ==> ZeroInactiveX(x, n)[k] == (if k < XMax(n) then x[k] else Zero)
    ensures forall a, b :: 0 <= a < side && 0 <= b < side ==>
              ZeroInactiveP(p, side, n)[a][b] == (if a < DxMax(n) && b < DxMax(n) then p[a][b] else Zero)
  {
  }
}

=== FILE: update.dfy ===
/**
  The measurement update of src/vi_ekf.cpp: the two early returns, the
  dispatch to the measurement model, the residual, where the gain step's
  results go, and the closing fix_depth. The gain itself (a matrix inverse
  and the partial-update weights) is computed by a function the caller
  supplies, as are the two nonlinear models h_feat and h_pixel_vel.
 */
module Update {
  import opened Flt
  import opened Buffers
  import opened Layout
  import opened Manifold
  import opened Measurements
  import opened Slots
  import opened Estimator

  /** The arguments of one `update` call: z, its type, `active`, the feature id and the depth hint. */
  datatype Measurement = Measurement(z: seq<Flt>, kind: MeasurementType, active: bool, id: int, depth: Flt)

  /**
    What the gain step produces from x, P, H and the residual: the state
    correction `gamma .* K r` and the covariance decrement `ggT .* (K H P)`.
   */
  datatype Correction = Correction(dx: seq<Flt>, dp: seq<seq<Flt>>)

  /** The models outside this one, h_feat and h_pixel_vel, as (type, x, id) to prediction. */
  type Nonlinear = (MeasurementType, seq<Flt>, int) -> Model

  type Gain = (seq<Flt>, seq<seq<Flt>>, seq<seq<Flt>>, seq<Flt>) -> Correction

  /** Every correction has the fixed sizes of the error state, as the source's Eigen types do. */
  ghost predicate GainShaped(cfg: Config, gain: Gain)
  {
    forall x, p, h, e {:trigger gain(x, p, h, e)} ::
      |gain(x, p, h, e).dx| == Side(cfg) && IsSquare(gain(x, p, h, e).dp, Side(cfg))
  }

  /** `(z.array() != z.array()).any()`. */
  predicate AnyNaN(z: seq<Flt>)
  {
    exists k :: 0 <= k < |z| && z[k].IsNaN()
  }

  /** The measurement types whose model reads one feature slot, found by id. */
  predicate BySlot(kind: MeasurementType)
  {
    kind == QZETA || kind == DEPTH || kind == INV_DEPTH
  }

  /** A call the source can serve: slot models need a known id, and z has the size its type reads. */
  ghost predicate Admissible(cfg: Config, s: Ekf, m: Measurement)
  {
    && Wf(cfg, s)
    && (BySlot(m.kind) ==> m.id in s.ids)
    && (m.kind == FEAT ==> |m.z| == 2)
    && (m.kind == QZETA || m.kind == ATT_MEAS ==> |m.z| == 4)
  }

  /** The measurement model for each type, reading the state through x and the id. */
  function Predict(cfg: Config, s: Ekf, kind: MeasurementType, id: int, other: Nonlinear): (m: Model)
    requires Wf(cfg, s) && (BySlot(kind) ==> id in s.ids)
    ensures kind == QZETA || kind == ATT_MEAS ==> |m.h| == 4
  {
    var side := Side(cfg);
    match kind
    case ACC => HAcc(s.x, side)
    case ALT => HAlt(s.x, side)
    case ATT_MEAS => HAtt(s.x, side)
    case POS_MEAS => HPos(s.x, side)
    case VEL_MEAS => HVel(s.x, side)
    case QZETA => HQzeta(s.x, LocalIndex(s, id), side)
    case FEAT => other(kind, s.x, id)
    case PIXEL_VEL => other(kind, s.x, id)
    case DEPTH => HDepth(s.x, LocalIndex(s, id), side)
    case INV_DEPTH => HInvDepth(s.x, LocalIndex(s, id), side)
  }

  /** Entry k of `zhat_` after `setZero()` and the model's write of its first |h| entries. */
  function Predicted(h: seq<Flt>, k: nat): Flt
  {
    if k < |h| then h[k] else Zero
  }

  /**
    The residual: the bearing boxminus for QZETA (2 entries), the attitude
    boxminus for ATT (3 entries), and z - zhat over the z_dim = |z| leading
    entries for every other type.
   */
  function Residual(ops: ManifoldOps, kind: MeasurementType, z: seq<Flt>, zhat: seq<Flt>): (e: seq<Flt>)
    requires kind == QZETA || kind == ATT_MEAS ==> |z| == 4 && |zhat| == 4
    ensures |e| == (if kind == QZETA then 2 else if kind == ATT_MEAS then 3 else |z|)
  {
    if kind == QZETA then ops.featMinus(QuatOf(z), QuatOf(zhat)).Elements()
    else if kind == ATT_MEAS then ops.qMinus(QuatOf(z), QuatOf(zhat)).Elements()
    else seq(|z|, k requires 0 <= k < |z| => Sub(z[k], Predicted(zhat, k)))
  }

  /** `P - d`, entrywise over the whole buffer. */
  function Decrement(p: seq<seq<Flt>>, d: seq<seq<Flt>>, side: nat): (r: seq<seq<Flt>>)
    requires IsSquare(p, side) && IsSquare(d, side)
    ensures IsSquare(r, side)
    ensures forall a, b :: 0 <= a < side && 0 <= b < side ==> r[a][b] == Sub(p[a][b], d[a][b])
  {
    seq(side, a requires 0 <= a < side => seq(side, b requires 0 <= b < side => Sub(p[a][b], d[a][b])))
  }

  /** The active branch: x := x (+) dx with the current feature count, P -= dP. */
  function Correct(cfg: Config, ops: ManifoldOps, s: Ekf, c: Correction): (r: Ekf)
    requires Wf(cfg, s) && |c.dx| == Side(cfg) && IsSquare(c.dp, Side(cfg))
    ensures Wf(cfg, r)
    ensures r.len == s.len && r.ids == s.ids && r.nextId == s.nextId && r.prevT == s.prevT && r.startT == s.startT
  {
    s.(x := Step(ops, s.x, c.dx, s.len), p := Decrement(s.p, c.dp, Side(cfg)))
  }

  /**
    The part of update after the early returns: predict, form the residual,
    apply the gain step when active, then fix_depth; the call reports false.
   */
  function Measure(cfg: Config, ops: ManifoldOps, s: Ekf, m: Measurement, other: Nonlinear, gain: Gain): (r: Ekf)
    requires Admissible(cfg, s, m) && GainShaped(cfg, gain)
    ensures Wf(cfg, r)
    ensures r.len == s.len && r.ids == s.ids && r.nextId == s.nextId && r.prevT == s.prevT && r.startT == s.startT
  {
    var model := Predict(cfg, s, m.kind, m.id, other);
    var e := Residual(ops, m.kind, m.z, model.h);
    var s1 := if m.active then Correct(cfg, ops, s, gain(s.x, s.p, model.H, e)) else s;
    FixDepth(cfg, s1)
  }

  /**
    `update(z, type, R, active, id, depth)` with the corrected init_feature:
    a NaN anywhere in z returns true and changes nothing; a FEAT measurement
    with an id >= 0 that is not yet tracked initialises that feature and
    returns true; anything else is measured and returns false.
   */
  function Update(cfg: Config, ops: ManifoldOps, s: Ekf, m: Measurement, other: Nonlinear, gain: Gain): (r: (Ekf, bool))
    requires Admissible(cfg, s, m) && GainShaped(cfg, gain)
    ensures Wf(cfg, r.0)
    ensures AnyNaN(m.z) ==> r == (s, true)
    ensures !AnyNaN(m.z) && m.kind == FEAT && m.id >= 0 && m.id !in s.ids ==>
              && r.1
              && r.0 == InitFeature(cfg, ops, s, Vec2Of(m.z), m.id, m.depth).0
              && (s.len < cfg.cap ==> r.0.ids == s.ids + [m.id])
    ensures !r.1 <==> !AnyNaN(m.z) && !(m.kind == FEAT && m.id >= 0 && m.id !in s.ids)
    ensures !r.1 ==> r.0.len == s.len && r.0.ids == s.ids && r.0.nextId == s.nextId
  {
    if AnyNaN(m.z) then (s, true)
    else if m.kind == FEAT && m.id >= 0 && m.id !in s.ids then
      (InitFeature(cfg, ops, s, Vec2Of(m.z), m.id, m.depth).0, true)
    else (Measure(cfg, ops, s, m, other, gain), false)
  }

  /**
    `update` exactly as written: the FEAT branch goes through the
    init_feature of src/vi_ekf.cpp, which records next_feature_id_ instead
    of the id it was given.
   */
  function UpdateAsWritten(cfg: Config, ops: ManifoldOps, s: Ekf, m: Measurement, other: Nonlinear, gain: Gain): (r: (Ekf, bool))
    requires Admissible(cfg, s, m) && IdsBelowCounter(s) && GainShaped(cfg, gain)
    ensures Wf(cfg, r.0) && IdsBelowCounter(r.0)
    ensures AnyNaN(m.z) ==> r == (s, true)
    ensures !AnyNaN(m.z) && m.kind == FEAT && m.id >= 0 && m.id !in s.ids ==>
              && r.1
              && (s.len < cfg.cap ==> r.0.ids == s.ids + [s.nextId])
    ensures !r.1 ==> r.0.len == s.len && r.0.ids == s.ids && r.0.nextId == s.nextId
  {
    if AnyNaN(m.z) then (s, true)
    else if m.kind == FEAT && m.id >= 0 && m.id !in s.ids then
      (InitFeatureAsWritten(cfg, ops, s, Vec2Of(m.z), m.id, m.depth).0, true)
    else (Measure(cfg, ops, s, m, other, gain), false)
  }

  // ---------------------------------------------------------------------------
  // Laws

  /** An inactive measurement changes the state only through fix_depth. */
  lemma InactiveIsFixDepth(cfg: Config, ops: ManifoldOps, s: Ekf, m: Measurement, other: Nonlinear, gain: Gain)
    requires Admissible(cfg, s, m) && GainShaped(cfg, gain) && !m.active
    requires !AnyNaN(m.z) && !(m.kind == FEAT && m.id >= 0 && m.id !in s.ids)
    ensures Update(cfg, ops, s, m, other, gain) == (FixDepth(cfg, s), false)
  {
  }

  /**
    With the corrected init_feature, the first FEAT measurement of a new id
    starts tracking it and the next one with the same id is measured: it
    neither adds a slot nor reports true.
   */
  lemma SecondSightingIsMeasured(cfg: Config, ops: ManifoldOps, s: Ekf, m1: Measurement, m2: Measurement, other: Nonlinear, gain: Gain)
    requires Admissible(cfg, s, m1) && GainShaped(cfg, gain) && s.len < cfg.cap
    requires m1.kind == FEAT && m1.id >= 0 && m1.id !in s.ids && !AnyNaN(m1.z)
    requires m2.kind == FEAT && m2.id == m1.id && |m2.z| == 2 && !AnyNaN(m2.z)
    ensures var s1 := Update(cfg, ops, s, m1, other, gain).0;
            var r := Update(cfg, ops, s1, m2, other, gain);
            s1.len == s.len + 1 && !r.1 && r.0.len == s1.len && r.0.ids == s.ids + [m1.id]
  {
    var s1 := Update(cfg, ops, s, m1, other, gain).0;
    assert m1.id in s1.ids;
  }

  /**
    As written, a FEAT id that differs from next_feature_id_ is never
    recorded, so every later sighting of it initialises yet another slot:
    two sightings add two slots and both report true.
   */
  lemma SecondSightingAsWrittenReinitialises(cfg: Config, ops: ManifoldOps, s: Ekf, m1: Measurement, m2: Measurement, other: Nonlinear, gain: Gain)
    requires Admissible(cfg, s, m1) && IdsBelowCounter(s) && GainShaped(cfg, gain) && s.len + 2 <= cfg.cap
    requires m1.kind == FEAT && m1.id >= 0 && m1.id !in s.ids && !AnyNaN(m1.z)
    requires m1.id != s.nextId && m1.id != s.nextId + 1
    requires m2.kind == FEAT && m2.id == m1.id && |m2.z| == 2 && !AnyNaN(m2.z)
    ensures var r1 := UpdateAsWritten(cfg, ops, s, m1, other, gain);
            var r2 := UpdateAsWritten(cfg, ops, r1.0, m2, other, gain);
            r1.1 && r2.1 && r2.0.len == s.len + 2 && m1.id !in r2.0.ids
  {
    var r1 := UpdateAsWritten(cfg, ops, s, m1, other, gain);
    assert r1.0.ids == s.ids + [s.nextId];
    assert m1.id !in r1.0.ids;
  }

  /**
    The residual of a measurement that is the prediction moved by d is d:
    for QZETA and ATT through the manifold round trip, for the other types
    entrywise on finite values.
   */
  lemma ResidualOfMovedPrediction(ops: ManifoldOps, kind: MeasurementType, zhat: seq<Flt>, d: seq<Flt>)
    requires RoundTrips(ops)
    requires kind == QZETA ==> |zhat| == 4 && |d| == 2
    requires kind == ATT_MEAS ==> |zhat| == 4 && |d| == 3
    requires kind != QZETA && kind != ATT_MEAS ==> |d| <= |zhat| && AllFiniteUpTo(zhat, d)
    ensures kind == QZETA ==> Residual(ops, kind, ops.featPlus(QuatOf(zhat), Vec2Of(d)).Elements(), zhat) == d
    ensures kind == ATT_MEAS ==> Residual(ops, kind, ops.qPlus(QuatOf(zhat), Vec3Of(d)).Elements(), zhat) == d
    ensures kind != QZETA && kind != ATT_MEAS ==>
              Residual(ops, kind, seq(|d|, k requires 0 <= k < |d| => Add(zhat[k], d[k])), zhat) == d
  {
    if kind == QZETA {
      var q := ops.featPlus(QuatOf(zhat), Vec2Of(d));
      assert QuatOf(q.Elements()) == q;
    } else if kind == ATT_MEAS {
      var q := ops.qPlus(QuatOf(zhat), Vec3Of(d));
      assert QuatOf(q.Elements()) == q;
    } else {
      var z := seq(|d|, k requires 0 <= k < |d| => Add(zhat[k], d[k]));
      var e := Residual(ops, kind, z, zhat);
      forall k | 0 <= k < |d| ensures e[k] == d[k]
      {
        AddSubCancel(zhat[k], d[k]);
      }
    }
  }

  /** The first |d| entries of zhat and all of d are finite. */
  ghost predicate AllFiniteUpTo(zhat: seq<Flt>, d: seq<Flt>)
    requires |d| <= |zhat|
  {
    forall k :: 0 <= k < |d| ==> zhat[k].Num? && d[k].Num?
  }

  /** A vehicle measurement reads only the vehicle block of x. */
  lemma VehiclePredictionReadsVehicle(cfg: Config, s: Ekf, t: Ekf, kind: MeasurementType, id: int, other: Nonlinear)
    requires Wf(cfg, s) && Wf(cfg, t) && s.x[..xZ] == t.x[..xZ]
    requires kind in {ACC, ALT, ATT_MEAS, POS_MEAS, VEL_MEAS}
    ensures Predict(cfg, s, kind, id, other) == Predict(cfg, t, kind, id, other)
  {
    assert forall k :: 0 <= k < xZ ==> s.x[k] == s.x[..xZ][k] && t.x[k] == t.x[..xZ][k];
    if kind == ACC {
      AccReadsVehicle(s.x, t.x, Side(cfg));
    } else if kind == ATT_MEAS {
      assert s.x[xATT..xATT + 4] == t.x[xATT..xATT + 4];
    } else if kind == POS_MEAS {
      assert s.x[xPOS..xPOS + 3] == t.x[xPOS..xPOS + 3];
    } else if kind == VEL_MEAS {
      assert s.x[xVEL..xVEL + 3] == t.x[xVEL..xVEL + 3];
    }
  }

  lemma AccReadsVehicle(x: seq<Flt>, y: seq<Flt>, side: nat)
    requires xZ <= |x| && xZ <= |y| && dxZ <= side
    requires forall k :: 0 <= k < xZ ==> x[k] == y[k]
    ensures HAcc(x, side) == HAcc(y, side)
  {
    assert DragAccel(x) == DragAccel(y);
    assert x[xVEL..xVEL + 3] == y[xVEL..xVEL + 3];
    assert x[xMU] == y[xMU];
  }

  /** A feature measurement reads only its own slot of x. */
  lemma SlotPredictionReadsSlot(cfg: Config, s: Ekf, t: Ekf, kind: MeasurementType, id: int, other: Nonlinear)
    requires Wf(cfg, s) && Wf(cfg, t) && BySlot(kind) && id in s.ids && id in t.ids
    requires LocalIndex(s, id) == LocalIndex(t, id)
    requires SlotAt(s.x, LocalIndex(s, id)) == SlotAt(t.x, LocalIndex(t, id))
    ensures Predict(cfg, s, kind, id, other) == Predict(cfg, t, kind, id, other)
  {
    var i := LocalIndex(s, id);
    assert s.x[XZeta(i)..XZeta(i) + 4] == SlotAt(s.x, i)[..4];
    assert t.x[XZeta(i)..XZeta(i) + 4] == SlotAt(t.x, i)[..4];
    assert s.x[XRho(i)] == SlotAt(s.x, i)[4];
    assert t.x[XRho(i)] == SlotAt(t.x, i)[4];
  }
}
